=== FILE: README.md ===
# Gym admin: a verified model of the business rules

The system is the admin UI of a gym and personal-trainer business. It
keeps clients (alunos), their enrollments (matrículas), the monthly
instalments each enrollment is billed (mensalidades), attendance records
(presenças) and notifications. It shows dashboards and reports over them.
The application is a React front end over a hosted database. Between the
fetches and the writes sit a number of small, deterministic rules:

- how an enrollment's instalment schedule and end date are computed;
- what marking an instalment paid changes;
- how age is counted, and when a client over forty owes a medical certificate;
- the dashboard totals and the twelve-month revenue chart;
- the payment-punctuality table;
- the search and status filters of each list;
- the month filter;
- the edit buffers of the dialogs and what their save and cancel forward;
- the form checks;
- the upload checks;
- where a notification leads.

This project models those rules as pure Dafny functions over immutable
records, and proves what each promises.

Conventions:

- Dates are civil dates `Date(year, month, day)`, compared through a
  proleptic Gregorian day number (module Dates).
- Money is an integer number of centavos.
- Texts are `seq<char>`, one Unicode scalar value per character.
- Percentages are exact rationals (`real`).
- The current moment is a parameter:
  - a `ValidDate` for "today";
  - a `Clock` (today's date plus the milliseconds since midnight) where
    the source compares `new Date(...)` instants.
- JavaScript details that decide outcomes are written out:
  - `parseInt` without a radix, which reads a `0x` or `0X` prefix as
    hexadecimal (module Text);
  - the `||` fallbacks on falsy 0 and "";
  - `Math.ceil` of a day difference;
  - `setMonth` overflow (Dates.AddMonths);
  - the real-valued loop bound of the schedule.

Modules follow the source's files:

| module | source file |
|---|---|
| Billing, DataContext, Medical | src/contexts/SupabaseContext.tsx |
| Reports | src/pages/Reports.tsx |
| Dashboard | src/components/Dashboard.tsx |
| PaymentManagement | src/components/PaymentManagement.tsx |
| MonthFilter | src/components/Dashboard/Filter.tsx |
| ClientList | src/components/ClientList.tsx |
| Initials | shared by ClientList.tsx and ClientProfileHeader.tsx |
| ClientProfile | src/pages/ClientProfile.tsx |
| EnrollmentModal | src/components/EnrollmentModal.tsx |
| EnrollmentForm | src/components/EnrollmentForm.tsx |
| ClientModal | src/components/ClientModal.tsx |
| EnrollmentList | src/components/EnrollmentList.tsx |
| ClientForm | src/components/ClientForm.tsx |
| Attendance | src/components/ClientProfile/FrequenciaTab.tsx |
| NotificationPanel | src/components/NotificationPanel.tsx |
| ProfileHeader | src/components/ClientProfile/ClientProfileHeader.tsx |
| Uploads | src/components/ClientProfile/DadosCadastraisTab.tsx and src/components/ImageUploader.tsx |

Support modules:

- Types: the records.
- Dates: the calendar.
- Text: lower-casing, substring search, trimming, digits, split and
  `parseInt`.
- Seqs: filter, sum, find, take and sort.
- Wrappers: Option and Result.

Four results of the code are worth stating explicitly:

- The number of instalments is the duration divided by the billing
  interval rounded UP, not down. The loop `i < duration / interval`
  compares an integer with a real quotient. Seven months billed
  quarterly give three instalments, and two months billed half-yearly
  give one (Billing.CountExamples).
- The overdue total of the data context's getDashboardMetrics counts
  only instalments stored as Pendente whose due date's midnight has passed. So an instalment due
  today counts as overdue from 00:00 on (DataContext.DueTodayIsOverdue),
  and one stored as Atrasado counts in no total
  (DataContext.StoredOverdueCountsNowhere).
- The payments screen summarises by stored status instead. The two rules
  disagree, and PaymentManagement.OverdueRulesDiffer states how.
- No overdue threshold in days appears in the code.

## Model

| member | source | states |
|---|---|---|
| Billing.Interval | src/contexts/SupabaseContext.tsx:386-402 | Mensal bills every month, Trimestral every 3, Semestral every 6; any other recurrence falls to the default branch and bills monthly |
| Billing.PaymentCount | src/contexts/SupabaseContext.tsx:386-406 | the count is exactly the number of indices i for which the loop test `i < duration / interval`, evaluated on reals, holds |
| Billing.RealBound | src/contexts/SupabaseContext.tsx:406 | for a positive interval k the real-valued loop test is the integer test i·k < duration |
| Billing.GenerateSchedule | src/contexts/SupabaseContext.tsx:404-416 | the loop, run with its real-valued bound, emits PaymentCount instalments and the i-th is instalment i of the schedule |
| Billing.Schedule | src/contexts/SupabaseContext.tsx:410-415 | every generated instalment carries the enrollment's id and the monthly fee, is Pendente and has no paid date |
| Billing.MonthlyCountIsDuration | src/contexts/SupabaseContext.tsx:386-402 | monthly and unknown recurrences bill exactly once per contract month |
| Billing.CountIsCeiling | src/contexts/SupabaseContext.tsx:392-406 | for a positive duration the count n satisfies (n−1)·interval < duration ≤ n·interval, i.e. it is the quotient rounded up |
| Billing.CountExamples | src/contexts/SupabaseContext.tsx:392-406 | 7 months quarterly give 3 instalments, 2 months half-yearly give 1, 12 months half-yearly give 2, 0 months give none |
| Billing.FirstDueIsStart | src/contexts/SupabaseContext.tsx:407-408 | a contract with a positive duration has a first instalment, due on the start date |
| Billing.DueDatesIncrease | src/contexts/SupabaseContext.tsx:407-408 | due dates along the schedule are strictly increasing in calendar order |
| Billing.InstalmentsBeforeEnd | src/contexts/SupabaseContext.tsx:406-408 | every instalment falls due strictly before the contract's end date (start plus duration months) |
| Billing.ScheduleTotal | src/contexts/SupabaseContext.tsx:410-412 | a schedule of n instalments of the fee bills n times the fee in total |
| Billing.CompleteEnrollment | src/components/ClientModal.tsx:317-326 | the stored enrollment is the submitted request with status Ativa and end date the start moved on by the duration in months, which is strictly after the start whenever the duration is positive |
| Billing.MarkPaid | src/contexts/SupabaseContext.tsx:432-435 | the instalment becomes Pago, paid today, and no other field changes |
| Billing.MarkPaidIdempotent | src/contexts/SupabaseContext.tsx:432-435 | marking paid twice on the same day equals marking paid once |
| Dates.AddMonths | src/contexts/SupabaseContext.tsx:407-408 | `setMonth(getMonth() + k)`: the month index moves by k with the day kept, or, when the target month lacks that day, one month further with a smaller day (overflow rolls over) |
| Dates.AddMonthsStrictlyIncreasing | src/contexts/SupabaseContext.tsx:407-408 | adding more months always gives a strictly later date, overflow included |
| Dates.MidnightHasPassedIff | src/contexts/SupabaseContext.tsx:494-500 | `new Date(due) < new Date()` holds exactly when the due date is before today, or is today and the day has begun |
| Dates.DaysUntilIsCalendarDifference | src/components/Dashboard.tsx:133-134 | `Math.ceil` of the millisecond difference over a day is the plain difference of calendar day numbers, whatever the time of day |
| Medical.Age | src/contexts/SupabaseContext.tsx:457-468 | the age is the number of birthdays reached: the a-th anniversary is on or before today and the next one is after today |
| Medical.AgeUnique | src/contexts/SupabaseContext.tsx:457-468 | no other number has that anniversary property, so the age is determined by it |
| Medical.AgeNonNegative | src/contexts/SupabaseContext.tsx:457-468 | someone born on or before today has a non-negative age |
| Medical.AgeMonotone | src/contexts/SupabaseContext.tsx:457-468 | the age never decreases as today advances |
| Medical.NeedsCertificateAsListed | src/components/ClientList.tsx:42-54 | the list's rule (also copied at src/pages/ClientProfile.tsx:113-125) flags exactly a client with a birth date, more than forty birthdays reached and no certificate |
| Medical.NeedsCertificateAsCounted | src/contexts/SupabaseContext.tsx:510-513 | the data context's counting rule flags exactly the same clients as the list's rule |
| Medical.FortyIsNotFlagged | src/components/ClientList.tsx:44-53 | a client with exactly forty birthdays reached is not flagged |
| Medical.CertificateClearsFlag | src/components/ClientList.tsx:44-53 | a certificate with a non-empty name clears the flag |
| DataContext.ClientById | src/contexts/SupabaseContext.tsx:470-472 | a client is found exactly when some client has the id, and what is found is a stored client with that id |
| DataContext.EnrollmentsOfClient | src/contexts/SupabaseContext.tsx:474-476 | exactly the stored enrollments of that client |
| DataContext.PaymentsOfEnrollment | src/contexts/SupabaseContext.tsx:478-480 | exactly the stored instalments of that enrollment |
| DataContext.EnrollmentById | src/components/Dashboard.tsx:116 | an enrollment is found exactly when one has the id, and it is a stored one with that id |
| DataContext.PaymentById | src/components/Dashboard.tsx:114 | an instalment is found exactly when one has the id, and it is a stored one with that id |
| DataContext.ClientByIdFinds | src/contexts/SupabaseContext.tsx:470-472 | with unique ids, looking up a stored client's id finds that very client |
| DataContext.EnrollmentByIdFinds | src/components/Dashboard.tsx:116 | with unique ids, looking up a stored enrollment's id finds that very enrollment |
| DataContext.PaymentByIdFinds | src/components/Dashboard.tsx:114 | with unique ids, looking up a stored instalment's id finds that very instalment |
| DataContext.EnrollmentIds | src/pages/ClientProfile.tsx:42 | one id per enrollment, and an id is listed exactly when some enrollment has it |
| DataContext.PaymentsOfEnrollments | src/pages/ClientProfile.tsx:43 | exactly the instalments whose enrollment id belongs to one of the listed enrollments |
| DataContext.PaymentsOfEnrollmentsSnoc | src/pages/ClientProfile.tsx:43 | one more instalment is appended to the selection exactly when its enrollment id is listed, and the earlier ones stay as they were |
| DataContext.ClientPayments | src/pages/ClientProfile.tsx:38-44 | exactly the instalments billed to one of the client's enrollments (the same selection as src/pages/Reports.tsx:75-78) |
| DataContext.ClientPaymentsSnoc | src/pages/Reports.tsx:75-78 | one more instalment joins the client's instalments, at the end, exactly when it is billed to one of the client's enrollments |
| DataContext.Metrics | src/contexts/SupabaseContext.tsx:482-524 | the counts never exceed the collections they count, and the goal is R$ 50.000,00; what each total and count adds up is stated by the lemmas below |
| DataContext.MetricsOfNothing | src/contexts/SupabaseContext.tsx:482-524 | with no client, enrollment or instalment every total and count is 0 and the goal stays |
| DataContext.MetricsAddPayment | src/contexts/SupabaseContext.tsx:486-500 | one more instalment adds its amount to received exactly when Pago, to pending exactly when Pendente, to overdue exactly when overdue, and leaves the three counts |
| DataContext.MetricsAddClient | src/contexts/SupabaseContext.tsx:502-513 | one more client adds one to the active count exactly when Ativo and one to the certificate count exactly when the shared certificate rule flags them; the rest stays |
| DataContext.MetricsAddEnrollment | src/contexts/SupabaseContext.tsx:504-508 | one more enrollment adds one to the new-enrollment count exactly when it starts in the current month of the current year; the rest stays |
| DataContext.OverdueIff | src/contexts/SupabaseContext.tsx:494-500 | an instalment counts as overdue exactly when it is Pendente and due before today, or due today once the day has begun |
| DataContext.OverdueAtMostPending | src/contexts/SupabaseContext.tsx:486-500 | with non-negative amounts the overdue total lies between 0 and the pending total |
| DataContext.StoredOverdueCountsNowhere | src/contexts/SupabaseContext.tsx:486-500 | adding an instalment stored as Atrasado changes none of the received, pending and overdue totals |
| DataContext.DueTodayIsOverdue | src/contexts/SupabaseContext.tsx:494-500 | a Pendente instalment due today already counts as overdue after midnight |
| DataContext.ReceivedGrowsByPaid | src/contexts/SupabaseContext.tsx:486-488 | one more Pago instalment raises the received total by exactly its amount |
| DataContext.MarkAllRead | src/contexts/SupabaseContext.tsx:527-529 | same length and order, every notification read, no other field changed |
| DataContext.MarkAllReadIdempotent | src/contexts/SupabaseContext.tsx:527-529 | marking all read twice equals marking once |
| DataContext.DeleteSelected | src/contexts/SupabaseContext.tsx:531-533 | a notification remains exactly when it was there and its id is not listed |
| DataContext.DeleteSelectedLaws | src/contexts/SupabaseContext.tsx:531-533 | deleting no ids keeps the list unchanged; deleting the same ids twice equals deleting them once |
| DataContext.DeleteSelectedPiecewise | src/contexts/SupabaseContext.tsx:531-533 | a single notification is dropped exactly when its id is listed, and deletion distributes over concatenation, so the kept ones stay in order and multiplicity |
| Reports.MonthlyRevenue | src/pages/Reports.tsx:32-57 | the loop from i = 11 down to 0 yields exactly the twelve bars of the months ending at the current one, oldest first |
| Reports.BucketsFromAt | src/pages/Reports.tsx:36-48 | the j-th bar is the bar of the j-th month of the window |
| Reports.LastBucketIsCurrentMonth | src/pages/Reports.tsx:36-54 | the last of the twelve bars is the current month of the current year |
| Reports.BucketsConsecutive | src/pages/Reports.tsx:36-37 | consecutive bars are consecutive calendar months, across year boundaries |
| Reports.PaidInIndex | src/pages/Reports.tsx:41-48 | a paid date lies in the bar's month and year exactly when its month index is that bar's |
| Reports.WindowRevenue | src/pages/Reports.tsx:41-48 | each paid, dated instalment lands in exactly one bar, so the bars of a window add up to what was received over it |
| Reports.TotalRevenue | src/pages/Reports.tsx:114 | the twelve-month total equals the sum of the Pago instalments paid in those twelve months |
| Reports.UndatedCountsNowhere | src/pages/Reports.tsx:41-48 | an instalment without a paid date is in no bar |
| Reports.StatusCounts | src/pages/Reports.tsx:60-62 | the Ativo and Inativo counts add up to all clients; which count is which is stated by the lemmas below |
| Reports.StatusCountsZeroIff | src/pages/Reports.tsx:60-62 | the first count is 0 exactly when no client is Ativo, the second exactly when none is Inativo |
| Reports.StatusCountsOfNone | src/pages/Reports.tsx:60-62 | no clients give (0, 0) |
| Reports.StatusCountsAddClient | src/pages/Reports.tsx:60-62 | one more client adds one to the first count exactly when Ativo and to the second exactly when Inativo |
| Reports.RowFor | src/pages/Reports.tsx:75-99 | the row carries the client's name, and on-time and late add up to the client's paid, dated instalments |
| Reports.RowForZeroIff | src/pages/Reports.tsx:80-92 | late is 0 exactly when every paid, dated instalment of the client was paid on or before its due date; on-time is 0 exactly when every one was paid after it |
| Reports.RowForAddPayment | src/pages/Reports.tsx:75-92 | one more instalment of the client raises on-time when paid on or before the due date, late when paid after it, and neither otherwise; an instalment of someone else changes nothing |
| Reports.Tally | src/pages/Reports.tsx:80-99 | on-time and late add up to the paid, dated instalments of the list |
| Reports.TallyZeroIff | src/pages/Reports.tsx:80-92 | late is 0 exactly when every paid, dated instalment was on time; on-time is 0 exactly when every one was late |
| Reports.TallySnoc | src/pages/Reports.tsx:80-92 | one more instalment adds one to on-time or to late according to its paid and due dates, and nothing when unpaid or undated |
| Reports.PaidOnTimeOrLate | src/pages/Reports.tsx:80-92 | a paid, dated instalment is on time exactly when it is not late |
| Reports.Performance | src/pages/Reports.tsx:71-101 | one row per Ativo client, in client order, and no row for anyone else |
| Reports.Rate | src/pages/Reports.tsx:271-273 | on-time over total times 100 when something was paid, 0 otherwise; hence within 0..100, and 100 exactly when nothing was paid late |
| Reports.TierOf | src/pages/Reports.tsx:295 | the badge is Default exactly from 80 on, Secondary exactly from 60 up to but excluding 80, Destructive exactly below 60 |
| Reports.TierMonotone | src/pages/Reports.tsx:295 | a better rate never earns a worse badge; 80 and 60 are inclusive thresholds |
| Dashboard.NeedsCertificateOnDashboard | src/components/Dashboard.tsx:80-93 | the dashboard's copy flags exactly the Ativo clients the shared certificate rule flags |
| Dashboard.CertificateList | src/components/Dashboard.tsx:80-93 | a client is listed exactly when Ativo and flagged by the certificate rule |
| Dashboard.OverflowNote | src/components/Dashboard.tsx:269-285 | the note appears exactly when more than five are flagged, and names shown plus the note's count make up the whole list |
| Dashboard.Recent | src/components/Dashboard.tsx:102-105 | the three latest Pago instalments with a paid date, or all when fewer: a sub-multiset of them of that length, latest first, and every one left out paid no later than each one shown |
| Dashboard.Upcoming | src/components/Dashboard.tsx:108-111 | the three earliest Pendente instalments, or all when fewer: a sub-multiset of them of that length, earliest due first, and every one left out due no earlier than each one shown |
| Dashboard.RecentSameDayInStoredOrder | src/components/Dashboard.tsx:102-105 | instalments paid on the same day appear in stored order, and those shown are the earliest stored of that day |
| Dashboard.UpcomingSameDayInStoredOrder | src/components/Dashboard.tsx:108-111 | Pendente instalments due on the same day appear in stored order, and those shown are the earliest stored of that day |
| Dashboard.ClientByPaymentId | src/components/Dashboard.tsx:113-121 | none exactly when the instalment, its enrollment or the enrollment's client is not found; a client found is the client of the instalment's enrollment |
| Dashboard.ClientByPaymentIdFinds | src/components/Dashboard.tsx:113-121 | with unique ids, a stored instalment of a stored enrollment of a stored client leads to that client |
| Dashboard.RelativeLabel | src/components/Dashboard.tsx:130-140 | "Hoje" exactly for today, "Amanhã" exactly for tomorrow, "Em N dias" for 2 to 7 days ahead, and the full date for past dates and dates more than a week ahead |
| PaymentManagement.ClientOfPayment | src/components/PaymentManagement.tsx:28-34 | none exactly when the instalment's enrollment or that enrollment's client is not found; a client found is the client of the instalment's enrollment |
| PaymentManagement.ClientOfPaymentFinds | src/components/PaymentManagement.tsx:28-34 | with unique ids, an instalment of a stored enrollment of a stored client leads to that client |
| PaymentManagement.FilteredPayments | src/components/PaymentManagement.tsx:36-51 | an instalment is listed exactly when search, status and date range all accept it |
| PaymentManagement.EmptyFiltersKeepResolvable | src/components/PaymentManagement.tsx:36-51 | with an empty term, all statuses and an incomplete range, exactly the instalments whose client resolves are listed |
| PaymentManagement.Summarize | src/components/PaymentManagement.tsx:54-64 | nothing listed gives three zeros; received, pending and stored-overdue amounts add up to the filtered total |
| PaymentManagement.SummarizeAddPayment | src/components/PaymentManagement.tsx:54-64 | one more listed instalment adds its amount to received when Pago, to pending when Pendente, to overdue when stored Atrasado, and leaves the other two |
| PaymentManagement.OverdueRulesDiffer | src/components/PaymentManagement.tsx:54-64 | a past-due Pendente instalment is overdue in the data context's getDashboardMetrics but pending here; a stored Atrasado one is overdue here and counted in no total there |
| PaymentManagement.DateFields | src/components/PaymentManagement.tsx:73-78 | the empty text gives nothing; any other text gives at least one field, none containing '-', which joined with '-' give the text back |
| PaymentManagement.DateFieldsOfIsoDate | src/components/PaymentManagement.tsx:73-78 | a `YYYY-MM-DD` text yields exactly its year, month and day fields |
| PaymentManagement.MarkPaidWithdrawsAction | src/components/PaymentManagement.tsx:233-242 | once marked paid an instalment no longer offers the action and is listed under Pago |
| MonthFilter.Initial | src/components/Dashboard/Filter.tsx:25-26 | the filter opens on the current year with only the current month selected, a valid selection |
| MonthFilter.ToggleMonth | src/components/Dashboard/Filter.tsx:39-45 | a selected month is removed entirely and the others stay; an unselected one is appended; the year is kept |
| MonthFilter.ToggleKeepsValid | src/components/Dashboard/Filter.tsx:39-45 | clicking a month button keeps the selection free of repeats and within 0..11 |
| MonthFilter.ToggleTwiceRestores | src/components/Dashboard/Filter.tsx:39-45 | clicking an unselected month twice restores the selection exactly |
| MonthFilter.ToggleTwiceSameMonths | src/components/Dashboard/Filter.tsx:39-45 | clicking a selected month twice selects the same months again |
| MonthFilter.AllMonths | src/components/Dashboard/Filter.tsx:12-17 | the twelve button values 0..11 in order |
| MonthFilter.SelectAll | src/components/Dashboard/Filter.tsx:47-52 | twelve selected gives none, anything else all twelve; the year is kept and the result is valid |
| MonthFilter.TwelveSelectedMeansAll | src/components/Dashboard/Filter.tsx:47-52 | the length test is sound: a valid selection of twelve holds every month |
| MonthFilter.ClearMonths | src/components/Dashboard/Filter.tsx:74-77 | "TODOS" always selects no month and keeps the year |
| MonthFilter.ChangeYear | src/components/Dashboard/Filter.tsx:33-37 | the year changes and the months stay, valid if they were |
| MonthFilter.AvailableYears | src/components/Dashboard/Filter.tsx:20-23 | each year some due date falls in, once, strictly descending, and no other year |
| ClientList.FilteredClients | src/components/ClientList.tsx:22-27 | a client is shown exactly when name or e-mail contains the term ignoring case and the status choice accepts it |
| ClientList.EmptySearchListsAll | src/components/ClientList.tsx:23-24 | an empty term with "Todos" lists every client, in order |
| ClientList.WhatsAppLink | src/components/ClientList.tsx:207-209 | a link exactly for a non-empty phone: the wa.me prefix with Brazil's code followed by the phone's characters that are digits, in order |
| ClientList.LinkIgnoresFormatting | src/components/ClientList.tsx:209 | punctuation in the phone does not change the link |
| ClientList.LinkExample | src/components/ClientList.tsx:209 | the phone "9-8" links to https://wa.me/5598 |
| Text.DigitsOnlyAppend | src/components/ClientList.tsx:209 | stripping non-digits distributes over concatenation |
| Text.DigitsOnlyIsFilter | src/components/ClientList.tsx:209 | stripping non-digits keeps exactly the digit characters, in order |
| Text.IncludesIffOccurs | src/components/ClientList.tsx:23-24 | `includes` holds exactly when the term occurs at some position |
| Text.LowerCharExamples | src/components/ClientList.tsx:23-24 | lower-casing maps "A", "Ç", "Ł", "Ÿ", "Ж" and "Ё" to their small letters, and leaves "a", "ł", "×" and "7" alone |
| Initials.HeadsOfSplit | src/components/ClientList.tsx:182 | taking first letters of the space-split words picks exactly the characters that open a word |
| Initials.Initials | src/components/ClientProfile/ClientProfileHeader.tsx:64 | at most two characters: the first two word-opening characters of the name |
| Initials.InitialsExamples | src/components/ClientList.tsx:182 | "A B" gives "AB"; a leading space opens no word |
| ClientProfile.MarkPaidLocally | src/pages/ClientProfile.tsx:90-96 | the instalments with that id become what the stored row becomes; length and every other entry unchanged |
| ClientProfile.MarkPaidLocallyIdempotent | src/pages/ClientProfile.tsx:90-96 | marking the same instalment twice on a day changes nothing more |
| ClientProfile.ReplaceById | src/pages/ClientProfile.tsx:72-76 | entries with the record's id are replaced by it, all others kept, same length and ids |
| ClientProfile.RemoveById | src/pages/ClientProfile.tsx:78-80 | exactly the entries with another id remain |
| ClientProfile.RemoveAfterReplace | src/pages/ClientProfile.tsx:72-80 | updating a record and then deleting it leaves what deleting it straight away leaves |
| ClientProfile.InitialTab | src/pages/ClientProfile.tsx:19 | a non-empty `tab` parameter is used, otherwise "dados" |
| ClientProfile.Highlight | src/pages/ClientProfile.tsx:47-54 | a highlight exactly when the parameter is non-empty and the tab is financeiro, which is then the tab shown |
| ClientProfile.HighlightedPaymentId | src/pages/ClientProfile.tsx:47-54 | under the same conditions, the parameter read with `parseInt` |
| Text.ParseIntOfIntText | src/pages/ClientProfile.tsx:49 | `parseInt` of an id written in decimal gives the id back |
| Text.ParseIntReadsHex | src/pages/ClientProfile.tsx:49 | without a radix "0x1A" reads 26 and "-0Xff" reads -255, while "0x" and "0xg1" read no number |
| EnrollmentModal.ApplyEdit | src/components/EnrollmentModal.tsx:123-232 | an input's change sets its own field of the copy and nothing else; id, client, end date, status and note untouched |
| EnrollmentModal.EditsKeepLatest | src/components/EnrollmentModal.tsx:123-232 | after any sequence of changes each field holds its latest edit and the rest the original's values |
| EnrollmentModal.BeginEdit | src/components/EnrollmentModal.tsx:34-39 | with a record shown, edit mode on a copy of it; otherwise nothing happens |
| EnrollmentModal.Change | src/components/EnrollmentModal.tsx:123-232 | the change lands on the buffer when there is one and is dropped otherwise |
| EnrollmentModal.ChangesEditBuffer | src/components/EnrollmentModal.tsx:123-232 | a run of changes on a present buffer is the buffer with the edits applied in order |
| EnrollmentModal.Cancel | src/components/EnrollmentModal.tsx:41-45 | out of edit mode with the buffer and note cleared |
| EnrollmentModal.Save | src/components/EnrollmentModal.tsx:47-57 | refused exactly when no record is shown or the note is blank; otherwise the shown record overlaid with the buffer and the note |
| EnrollmentModal.AfterSave | src/components/EnrollmentModal.tsx:59-62 | closed after a save that went out, unchanged after the alert |
| EnrollmentModal.SaveAfterEditing | src/components/EnrollmentModal.tsx:53-57 | edit, change, note, save: the update carries each field's latest edit and the note, and the end date is never recomputed |
| EnrollmentModal.SaveAfterCancelIsRefused | src/components/EnrollmentModal.tsx:41-51 | saving after a cancel is refused |
| EnrollmentModal.SaveTwiceIsRefused | src/components/EnrollmentModal.tsx:48-62 | a second press after a successful save is refused |
| EnrollmentModal.Delete | src/components/EnrollmentModal.tsx:65-70 | the shown record's id is forwarded exactly when a record is shown |
| EnrollmentModal.ShownDurationMatchesSave | src/components/EnrollmentModal.tsx:199 | the duration shown agrees with the one saved exactly when the buffered value is not 0 or the record's is 0 too |
| EnrollmentModal.ShownFeeMatchesSave | src/components/EnrollmentModal.tsx:217 | the fee shown agrees with the one saved exactly when the buffered value is not 0 or the record's is 0 too |
| EnrollmentModal.StatusToneSeparatesKnownStatuses | src/components/EnrollmentModal.tsx:83-90 | Ativa, Expirada and Cancelada get three distinct colours, none of them the fallback; every other status gets the fallback (the same mapping as src/components/EnrollmentList.tsx:62-69) |
| Text.TrimEmptyIffAllWhitespace | src/components/EnrollmentModal.tsx:48 | `trim()` gives "" exactly for an all-whitespace text |
| EnrollmentForm.DurationInput | src/components/EnrollmentForm.tsx:140 | never 0: the parsed number when there is one and it is not 0, else 1 |
| EnrollmentForm.DurationInputTakesNumeral | src/components/EnrollmentForm.tsx:140 | a typed positive numeral is taken as is |
| EnrollmentForm.DurationInputExamples | src/components/EnrollmentForm.tsx:140 | "" and "0" give 1, "2.5" gives 2 |
| Text.ParseIntOfDecimal | src/components/EnrollmentForm.tsx:140 | `parseInt` reads the leading decimal numeral, signed or not, and ignores what follows, unless the text opens with a hexadecimal prefix |
| EnrollmentForm.FeeInput | src/components/EnrollmentForm.tsx:169 | an unparseable fee becomes 0, any other amount is kept |
| EnrollmentForm.Submit | src/components/EnrollmentForm.tsx:38-58 | accepted exactly when start, mode and recurrence are chosen and the fee is positive; the request carries the form's values and the client's id |
| EnrollmentForm.SubmitInBrowser | src/components/EnrollmentForm.tsx:90-179 | the browser stops the submit exactly when the start date is unset, the duration lies outside 1..24 or the fee is not positive; a request goes out exactly when the form is complete and the duration lies in 1..24, and it is handleSubmit's request |
| EnrollmentForm.BrowserRefusesOutOfRangeDuration | src/components/EnrollmentForm.tsx:134-142 | a complete form with a duration of 30 or -3 months passes handleSubmit's check but the browser stops it |
| EnrollmentForm.AfterSubmit | src/components/EnrollmentForm.tsx:65-72 | back to the initial values after a request went out, untouched after the toast |
| EnrollmentForm.ResetFormIsRefused | src/components/EnrollmentForm.tsx:27-48 | the initial form, and so every form just after a submit, is refused |
| EnrollmentForm.MissingFeeIsRefused | src/components/EnrollmentForm.tsx:169 | an empty or zero fee leaves the form refused |
| EnrollmentForm.SubmittedRequestIsStoredActive | src/pages/ClientProfile.tsx:242-250 | a submitted request is stored as itself, Ativa, with the end date start plus duration months, under the client's id |
| EnrollmentList.FilteredEnrollments | src/components/EnrollmentList.tsx:43-49 | an enrollment is shown exactly when its client's name contains the term ignoring case and the status choice accepts it |
| EnrollmentList.UnknownClientNeverListed | src/components/EnrollmentList.tsx:44-45 | an enrollment of a client that is not loaded is never shown, whatever the term |
| EnrollmentList.EmptySearchListsKnownClients | src/components/EnrollmentList.tsx:43-49 | an empty term with "all" shows exactly the enrollments of loaded clients, in order |
| EnrollmentList.ExpiringSoonIff | src/components/EnrollmentList.tsx:122-127 | marked exactly when the end date is after today and at most fifteen days away; not on the end day itself |
| EnrollmentList.ForwardUpdate | src/components/EnrollmentList.tsx:34-37 | the record is sent under its own id and becomes the selection |
| EnrollmentList.ForwardedUpdateReplacesOnlyThatRecord | src/components/EnrollmentList.tsx:34-37 | applying the forwarded update replaces the entries with that id and keeps every other |
| ClientModal.ApplyEdit | src/components/ClientModal.tsx:78-82 | a change sets its own field; the id, certificate and portal account are never touched |
| ClientModal.EditsKeepIdentity | src/components/ClientModal.tsx:78-82 | however many changes, the record keeps its id, certificate and portal account |
| ClientModal.Edit | src/components/ClientModal.tsx:45-48 | edit mode with a copy of the client in the buffer |
| ClientModal.Change | src/components/ClientModal.tsx:78-82 | applied to the buffer when there is one, a no-op while it is null |
| ClientModal.ChangesEditBuffer | src/components/ClientModal.tsx:78-82 | a run of changes on a present buffer applies the edits in order |
| ClientModal.ChangesKeepValid | src/components/ClientModal.tsx:78-86 | changes never leave edit mode without a buffer to display |
| ClientModal.Save | src/components/ClientModal.tsx:50-59 | the buffer, when there is one, is forwarded unchanged; nothing otherwise |
| ClientModal.AfterSave | src/components/ClientModal.tsx:50-59 | out of edit mode, buffer kept |
| ClientModal.Cancel | src/components/ClientModal.tsx:61-64 | out of edit mode, buffer discarded |
| ClientModal.Displayed | src/components/ClientModal.tsx:84-86 | the buffer in edit mode, the client otherwise |
| ClientModal.SaveAfterEditing | src/components/ClientModal.tsx:45-59 | edit, change, save forwards the changed record under the client's id, and the dialog then shows the client |
| ClientModal.SaveAfterCancelForwardsNothing | src/components/ClientModal.tsx:61-82 | after cancel, changes are dropped and save forwards nothing |
| ClientModal.CancelledChangesDropped | src/components/ClientModal.tsx:78-82 | without a buffer any run of changes leaves the dialog as it was |
| ClientModal.Delete | src/components/ClientModal.tsx:66-77 | the client's id is forwarded exactly when a client is shown |
| ClientForm.Reset | src/components/ClientForm.tsx:97-110 | every text empty, status Ativo, the placeholder photo |
| ClientForm.ResetIdempotent | src/components/ClientForm.tsx:97-110 | resetting twice equals resetting once |
| ClientForm.EmailOkIffPattern | src/components/ClientForm.tsx:67-75 | the direct check accepts exactly the texts `^[^\s@]+@[^\s@]+\.[^\s@]+$` matches |
| ClientForm.EmailOkHasShape | src/components/ClientForm.tsx:67-75 | an accepted address splits as a@b.c with non-empty plain parts |
| ClientForm.ShapePassesEmailOk | src/components/ClientForm.tsx:67-75 | every a@b.c split with non-empty plain parts is accepted |
| ClientForm.PatternOfPieces | src/components/ClientForm.tsx:67 | any non-empty runs a, b, c of characters other than whitespace and '@' make `a@b.c` match the pattern |
| ClientForm.EmailExamples | src/components/ClientForm.tsx:67-75 | "a@b.c" matches, "a@b" does not |
| ClientForm.Validate | src/components/ClientForm.tsx:57-75 | missing fields are reported first, then a bad e-mail; accepted exactly when both checks pass, with the form unchanged |
| ClientForm.BrowserValidMatchesIffDotted | src/components/ClientForm.tsx:160-167 | for an address the `type="email"` input accepts, the pattern additionally demands exactly a dot after the '@' |
| ClientForm.BrowserAcceptsUndotted | src/components/ClientForm.tsx:160-167 | "a@b" passes the browser's check and fails the pattern |
| ClientForm.BothAcceptDotted | src/components/ClientForm.tsx:160-167 | "a@b.c" passes both checks |
| ClientForm.BrowserRefusesEmptyLabel | src/components/ClientForm.tsx:160-167 | "a@b..c" matches the pattern but the browser refuses its empty domain label |
| ClientForm.BrowserRefusesHyphenFirst | src/components/ClientForm.tsx:160-167 | "a@-b.c" matches the pattern but the browser refuses a label opening with a hyphen |
| ClientForm.BrowserRefusesNonAsciiLocal | src/components/ClientForm.tsx:160-167 | "joão@x.com" matches the pattern but the browser refuses a non-ASCII letter before the '@' |
| ClientForm.NotLocalBeforeAt | src/components/ClientForm.tsx:160-167 | any character the browser does not allow before the first '@' makes it refuse the address |
| ClientForm.SubmitInBrowser | src/components/ClientForm.tsx:124-268 | the browser stops the submit exactly when a required input is empty or the address is not a valid e-mail address; a form goes through exactly when the required fields are filled and both the browser and the pattern accept the address, and then unchanged; the invalid-e-mail toast appears exactly for browser-valid forms whose address fails the pattern |
| ClientForm.InvalidEmailToastMeansNoDot | src/components/ClientForm.tsx:66-75 | behind the browser's check, the invalid-e-mail toast appears only for an address with no dot after its '@' |
| ClientForm.OptionalFieldsIgnored | src/components/ClientForm.tsx:57-64 | birth date, medical notes, certificate, photo and status do not affect acceptance |
| ClientForm.AfterSubmit | src/components/ClientForm.tsx:77-94 | reset after an accepted form was saved, kept otherwise |
| ClientForm.InitialIsRefused | src/components/ClientForm.tsx:33-64 | the freshly opened form is refused for missing fields |
| Attendance.ClientPresences | src/components/ClientProfile/FrequenciaTab.tsx:30-32 | exactly that client's records |
| Attendance.History | src/components/ClientProfile/FrequenciaTab.tsx:34-36 | a rearrangement of the client's records with no record followed by a later-dated one |
| Attendance.HistorySameDayInStoredOrder | src/components/ClientProfile/FrequenciaTab.tsx:34-36 | records of the same training day keep their stored order in the history, as the stable sort keeps them |
| Seqs.SortByStable | src/components/ClientProfile/FrequenciaTab.tsx:35 | `sort` is stable: the elements sharing a key come out in the order they went in |
| Attendance.HistoryNewestFirst | src/components/ClientProfile/FrequenciaTab.tsx:34-36 | in calendar terms, no entry of the history is before a later entry |
| Attendance.MonthCounts | src/components/ClientProfile/FrequenciaTab.tsx:38-47 | the first count is 0 exactly when the client has no Presente record in that month, the second exactly when none is Ausente; together they cover the client's records in that month and are bounded by the overall counts |
| Attendance.MonthCountsAddRecord | src/components/ClientProfile/FrequenciaTab.tsx:38-47 | one more record adds one to the first count when it is the client's, in that month and Presente, to the second when Ausente, and nothing otherwise |
| Attendance.Percentage | src/components/ClientProfile/FrequenciaTab.tsx:49-52 | presences over the total times 100 when there is a record, 0 otherwise; hence within 0..100, 0 exactly without presences, 100 exactly with presences and no absence |
| Attendance.AttendanceRate | src/components/ClientProfile/FrequenciaTab.tsx:49-52 | 0 for a client without records; otherwise the share of the client's records that are Presente, times 100; within 0..100, and 100 exactly when all are Presente |
| Attendance.PercentageOfAll | src/components/ClientProfile/FrequenciaTab.tsx:49-52 | when presences and absences make up all records, the percentage is presences over all records times 100 |
| Attendance.RecordsArePresentOrAbsent | src/components/ClientProfile/FrequenciaTab.tsx:49-52 | presences and absences add up to all of the client's records |
| Attendance.DayClick | src/components/ClientProfile/FrequenciaTab.tsx:69-74 | a record is opened exactly when the client has one on that day, and it is the first such record in the client's stored order |
| NotificationPanel.Select | src/components/NotificationPanel.tsx:38-44 | checking appends the id; unchecking removes every occurrence and keeps the other ids |
| NotificationPanel.CheckThenUncheck | src/components/NotificationPanel.tsx:38-44 | checking then unchecking a box equals only unchecking it |
| NotificationPanel.UncheckKeepsOthers | src/components/NotificationPanel.tsx:38-44 | unchecking keeps the multiplicity of every other id |
| NotificationPanel.DeleteSelection | src/components/NotificationPanel.tsx:46-49 | the selection is forwarded and then cleared |
| NotificationPanel.DeleteRemovesSelected | src/components/NotificationPanel.tsx:46-49 | exactly the unselected notifications remain; a second press removes nothing |
| NotificationPanel.OverduePayment | src/components/NotificationPanel.tsx:60-67 | an instalment is found exactly when a stored Atrasado one belongs to the client's enrollments, and it is the first such instalment in stored order |
| NotificationPanel.Navigate | src/components/NotificationPanel.tsx:51-72 | no navigation without a client (id 0 included); certificate notices open "dados"; overdue notices open "financeiro", highlighting exactly when an overdue instalment exists; others open the plain profile |
| NotificationPanel.OverdueNoticeHighlightsPayment | src/components/NotificationPanel.tsx:60-67 | following an overdue notice, the profile opens on "financeiro" and highlights exactly the overdue instalment's id |
| NotificationPanel.CertificateNoticeOpensRegistration | src/components/NotificationPanel.tsx:58-59 | following a certificate notice, the profile opens on "dados" with nothing highlighted |
| NotificationPanel.TypeLabelsDistinguishKnownKinds | src/components/NotificationPanel.tsx:83-90 | the three known kinds have distinct labels, and "Geral" is exactly the label of every other kind |
| ProfileHeader.ActiveEnrollment | src/components/ClientProfile/ClientProfileHeader.tsx:30-34 | none exactly when no enrollment is Ativa; otherwise an Ativa enrollment with the latest start date |
| ProfileHeader.ActiveEnrollmentFirstStored | src/components/ClientProfile/ClientProfileHeader.tsx:30-34 | of several Ativa enrollments with the latest start, the first stored is shown: every Ativa enrollment stored before it started strictly earlier |
| ProfileHeader.PortalViewExamples | src/components/ClientProfile/ClientProfileHeader.tsx:28 | portal paths are recognised by their prefix; "/portal" and "/client/7" are not |
| ProfileHeader.InviteShown | src/components/ClientProfile/ClientProfileHeader.tsx:90 | the invite button shows exactly while the client has no portal account id |
| Uploads.UploadCertificate | src/components/ClientProfile/DadosCadastraisTab.tsx:64-93 | no file, then wrong type, then too large are refused in that order; an accepted file's name becomes the certificate and nothing else changes |
| Uploads.CertificateLimitInclusive | src/components/ClientProfile/DadosCadastraisTab.tsx:78-85 | exactly 10 MiB is accepted, one byte more is refused |
| Uploads.RemoveCertificate | src/components/ClientProfile/DadosCadastraisTab.tsx:95-98 | the certificate becomes "", which counts as missing, and nothing else changes |
| Uploads.CertificateDecidesFlag | src/components/ClientProfile/DadosCadastraisTab.tsx:87-98 | for a client over forty, removal raises the certificate flag and an accepted upload clears it |
| Uploads.UploadThenRemove | src/components/ClientProfile/DadosCadastraisTab.tsx:87-98 | an upload followed by a removal leaves only the certificate changed, to "" |
| Uploads.Edit | src/components/ClientProfile/DadosCadastraisTab.tsx:32-35 | edit mode with the client in the buffer |
| Uploads.Change | src/components/ClientProfile/DadosCadastraisTab.tsx:60-62 | the change applies to the buffer, which is always present here |
| Uploads.Cancel | src/components/ClientProfile/DadosCadastraisTab.tsx:46-49 | out of edit mode with the buffer reset to the client |
| Uploads.Save | src/components/ClientProfile/DadosCadastraisTab.tsx:37-44 | the buffer is forwarded and edit mode ends |
| Uploads.SaveAfterCancelForwardsClient | src/components/ClientProfile/DadosCadastraisTab.tsx:37-49 | here a save after cancel forwards the client as shown, while the client dialog forwards nothing |
| Uploads.FormatDate | src/components/ClientProfile/DadosCadastraisTab.tsx:100-104 | "" for the empty text, the rendering otherwise |
| Uploads.CheckPhoto | src/components/ImageUploader.tsx:19-41 | no file, then a type not starting with "image/", then more than 5 MiB are refused in that order; otherwise the file passes |
| Uploads.SelectPhoto | src/components/ImageUploader.tsx:19-41 | the photo becomes the data URL exactly when the file passes, and stays otherwise |
| Uploads.RemovePhoto | src/components/ImageUploader.tsx:71-76 | the photo goes back to the placeholder |
| Uploads.RemoveHidesButton | src/components/ImageUploader.tsx:71-88 | after removal the remove button is hidden; after an accepted non-placeholder photo it shows |
| Uploads.PhotoAndCertificateTypesDiffer | src/components/ImageUploader.tsx:24-31 | a GIF passes as a photo but not as a certificate, and a PDF the other way round |

## Left out

- Database I/O is left out because it is not deterministic. This covers loading, inserting, updating and deleting rows, the insert of the generated schedule, storage uploads, the invite edge function, toasts and alerts. The model computes the values these calls send or receive.
- Authentication, routing and the portal pages are left out. They hold no business rule beyond the portal-path test.
- Purely presentational components are left out because they render data computed elsewhere. These are the header, the sidebars, the skeletons, the enrollment and financial tabs of the profile, the enrollment dropdown and the attendance dialog.
- Time zones are left out. Date-only strings are taken as UTC midnight and the local getters as UTC. `toISOString().split('T')[0]` of a computed date is taken to be the civil date itself.
- Locale formatting is left out: currency, `toLocaleDateString`, and the date-fns formatting.
  - PaymentManagement.DateFields: yields the '-'-separated fields the source reads, not their rendering.
  - Uploads.FormatDate: takes the rendering as a parameter.
- `FileReader` is left out; the data URL it produces is a parameter of Uploads.SelectPhoto.
- The timer that clears a payment highlight after three seconds is left out.
- `parseFloat` of the fee input is left out. EnrollmentForm.FeeInput takes the amount the text denotes, in centavos, or None for NaN.
- Floating point is left out. Percentages are exact rationals, so rounding in the display is not modelled.
- React state scheduling and effects are left out. Each handler is a function from the state before to the state after.
- EnrollmentModal.ApplyEdit: a date input cleared to "" is not modelled, because dates are valid civil dates.
- DataContext.Metrics: its own contract states only the bounds on the counts and the goal. Each total and count is fixed instead by the empty law MetricsOfNothing and the one-more laws MetricsAddPayment, MetricsAddClient and MetricsAddEnrollment, which together determine every field for every input.
- src/hooks/useRealSupabaseData is not part of this model. The dashboard (src/components/Dashboard.tsx:17,21) takes getDashboardMetrics, payments, clients, enrollments and getClientById from that hook, and the client dialog (src/components/ClientModal.tsx:15,43) takes addEnrollment. The model assumes the hook serves the data context's stored lists and computes as the data context does: getDashboardMetrics as DataContext.Metrics (src/contexts/SupabaseContext.tsx:482-524), getClientById as DataContext.ClientById (src/contexts/SupabaseContext.tsx:470-472), and addEnrollment with its schedule as src/contexts/SupabaseContext.tsx:268 and 379-426. Dashboard.CertificateList, Dashboard.Recent, Dashboard.Upcoming and Dashboard.ClientByPaymentId rest on these assumptions.
- ProfileHeader.ActiveEnrollment: its only caller, src/pages/ClientProfile.tsx:192-195, passes just `client` and `needsMedicalCertificate`, so `enrollments` is undefined and `enrollments.filter` at src/components/ClientProfile/ClientProfileHeader.tsx:31 fails; as written the profile never shows an active enrollment. The model takes the client's enrollment list as a parameter and states what line 30-34 computes from it.
- ClientForm.SubmitInBrowser: the e-mail field holds the value the input reports, which the browser has already stripped of line breaks and surrounding whitespace. The gender select's `required` is left out; `handleSubmit` refuses an empty gender anyway, so acceptance is unchanged.
- ClientForm.BrowserEmailValid: a domain with non-ASCII letters, which browsers convert to its ASCII (punycode) form before the check, is refused by the model; only ASCII domains are modelled.
- Text.ToLower: lower-cases Basic Latin, Latin-1, Latin Extended-A and the basic Cyrillic capitals, and leaves every other character as it is, whereas JavaScript's `toLowerCase` covers all of Unicode. Greek (with its context-dependent final sigma), "İ" (which lowers to two characters) and the other scripts are not modelled, since the table would be large and Portuguese names fall inside the covered range.
- Attendance: src/components/ClientProfile/FrequenciaTab.tsx:20 takes `presences` from the data context, but src/contexts/SupabaseContext.tsx defines no `presences`, neither in its interface nor in its value, so as written `presences.filter` fails. The model takes a loaded list of attendance records as a parameter and assumes it is the client's stored records.
- ProfileHeader.InviteShown: the loaded client records never carry `user_id`. The type in src/types/index.ts:1-13 has no such field and the loader mapping (src/contexts/SupabaseContext.tsx:98-110) never sets it, so in the program the invite button always shows, and the portal lookup at src/pages/portal/MeusDadosPage.tsx:23 never matches. The model keeps the portal account as an optional field and states the test of line 90 on whatever record it is given.
- Initials.Initials: JavaScript indexes strings by UTF-16 code unit (`n[0]`, `slice(0, 2)`), while a Dafny `char` is a whole scalar value. For a name whose letters lie outside the Basic Multilingual Plane the source takes half of a surrogate pair; the model takes the whole character.
- Reports.StatusCounts: a client status other than Ativo or Inativo is not representable, so the two counts always cover every client.

=== FILE: attendance.dfy ===
/**
 * The attendance tab of a client's profile: the client's records, the
 * history newest first, the counts for the month on view, the overall
 * attendance percentage and the record opened by clicking a calendar day.
 */
module Attendance {
  import opened Wrappers
  import opened Dates
  import opened Types
  import opened Seqs

  function OfClient(clientId: int): Presence -> bool {
    (p: Presence) => p.clientId == clientId
  }

  function WithStatus(st: PresenceStatus): Presence -> bool {
    (p: Presence) => p.status == st
  }

  /** Trained in the given month (1-12) of the given year. */
  function InMonth(year: int, month: int): Presence -> bool {
    (p: Presence) => p.date.year == year && p.date.month == month
  }

  function InMonthWith(year: int, month: int, st: PresenceStatus): Presence -> bool {
    (p: Presence) => p.date.year == year && p.date.month == month && p.status == st
  }

  /** `clientPresences`: the records of that client, in stored order. */
  function ClientPresences(ps: seq<Presence>, clientId: int): (r: seq<Presence>)
    ensures forall p :: p in r <==> p in ps && p.clientId == clientId
  {
    Filter(ps, OfClient(clientId))
  }

  function NewestFirstKey(p: Presence): int {
    -DayNumber(p.date)
  }

  /** `sortedPresences`: the client's records rearranged, latest training date first. */
  function History(ps: seq<Presence>, clientId: int): (r: seq<Presence>)
    ensures multiset(r) == multiset(ClientPresences(ps, clientId))
    ensures forall i, j :: 0 <= i < j < |r| ==> DayNumber(r[j].date) <= DayNumber(r[i].date)
  {
    SortBy(ClientPresences(ps, clientId), NewestFirstKey)
  }

  /** Records of the same training day keep their stored order in the history. */
  lemma HistorySameDayInStoredOrder(ps: seq<Presence>, clientId: int, day: ValidDate)
    ensures Filter(History(ps, clientId), OnDay(day)) == Filter(ClientPresences(ps, clientId), OnDay(day))
  {
    var mine := ClientPresences(ps, clientId);
    var sorted := SortBy(mine, NewestFirstKey);
    var k := -DayNumber(day);
    SortByStable(mine, NewestFirstKey, k);
    forall x | x in sorted ensures KeyIs(NewestFirstKey, k)(x) == OnDay(day)(x) {
      SameKeyIsSameDay(day, x);
    }
    forall x | x in mine ensures KeyIs(NewestFirstKey, k)(x) == OnDay(day)(x) {
      SameKeyIsSameDay(day, x);
    }
    FilterCongruent(sorted, KeyIs(NewestFirstKey, k), OnDay(day));
    FilterCongruent(mine, KeyIs(NewestFirstKey, k), OnDay(day));
  }

  /** Two valid dates share a sort key exactly when they are the same day. */
  lemma SameKeyIsSameDay(day: ValidDate, x: Presence)
    ensures KeyIs(NewestFirstKey, -DayNumber(day))(x) == OnDay(day)(x)
  {
    assert KeyIs(NewestFirstKey, -DayNumber(day))(x) == (NewestFirstKey(x) == -DayNumber(day));
    assert OnDay(day)(x) == (x.date == day);
    if DayNumber(x.date) == DayNumber(day) {
      DayNumberInjective(x.date, day);
    }
  }

  /** In calendar terms: no record in the history is followed by a later one. */
  lemma HistoryNewestFirst(ps: seq<Presence>, clientId: int, i: int, j: int)
    requires 0 <= i < j < |History(ps, clientId)|
    ensures !Before(History(ps, clientId)[i].date, History(ps, clientId)[j].date)
  {
    var r := History(ps, clientId);
    BeforeIffEarlierDayNumber(r[i].date, r[j].date);
  }

  /**
   * `summaryMetrics`' month counts: presences and absences recorded in the
   * month on view. Every record of that month is counted exactly once, and
   * neither count exceeds the client's overall count.
   */
  function MonthCounts(ps: seq<Presence>, clientId: int, year: int, month: int): (r: (nat, nat))
    ensures (var mine := ClientPresences(ps, clientId);
             r.0 + r.1 == |Filter(mine, InMonth(year, month))|
             && r.0 <= |Filter(mine, WithStatus(Presente))|
             && r.1 <= |Filter(mine, WithStatus(Ausente))|)
    ensures r.0 == 0 <==>
      forall p :: p in ps && p.clientId == clientId && p.date.year == year && p.date.month == month ==> p.status != Presente
    ensures r.1 == 0 <==>
      forall p :: p in ps && p.clientId == clientId && p.date.year == year && p.date.month == month ==> p.status != Ausente
  {
    var mine := ClientPresences(ps, clientId);
    FilterLengthDisjoint(mine, InMonthWith(year, month, Presente), InMonthWith(year, month, Ausente), InMonth(year, month));
    FilterLengthMonotone(mine, InMonthWith(year, month, Presente), WithStatus(Presente));
    FilterLengthMonotone(mine, InMonthWith(year, month, Ausente), WithStatus(Ausente));
    var present := Filter(mine, InMonthWith(year, month, Presente));
    var absent := Filter(mine, InMonthWith(year, month, Ausente));
    FilterEmptyIff(mine, InMonthWith(year, month, Presente));
    FilterEmptyIff(mine, InMonthWith(year, month, Ausente));
    (|present|, |absent|)
  }

  /**
   * One more record counts as a presence of the month when it is the
   * client's, dated in that month and Presente, and as an absence when it
   * is Ausente instead; otherwise the counts stay.
   */
  lemma MonthCountsAddRecord(ps: seq<Presence>, p: Presence, clientId: int, year: int, month: int)
    ensures var r := MonthCounts(ps, clientId, year, month);
      var counted := p.clientId == clientId && p.date.year == year && p.date.month == month;
      MonthCounts(ps + [p], clientId, year, month)
        == (r.0 + (if counted && p.status == Presente then 1 else 0),
            r.1 + (if counted && p.status == Ausente then 1 else 0))
  {
    var mine := ClientPresences(ps, clientId);
    FilterSnoc(ps, p, OfClient(clientId));
    if p.clientId == clientId {
      FilterLengthSnoc(mine, p, InMonthWith(year, month, Presente));
      FilterLengthSnoc(mine, p, InMonthWith(year, month, Ausente));
    } else {
      assert ClientPresences(ps + [p], clientId) == mine + [] == mine;
    }
  }

  /** Presences over all records, as a percentage; 0 without records. */
  function Percentage(presences: nat, absences: nat): (r: real)
    ensures 0.0 <= r <= 100.0
    ensures r == 0.0 <==> presences == 0
    ensures r == 100.0 <==> presences > 0 && absences == 0
    ensures presences + absences > 0 ==> r * ((presences + absences) as real) == (presences as real) * 100.0
  {
    var total := presences + absences;
    if total > 0 then (presences as real) / (total as real) * 100.0 else 0.0
  }

  /** `attendancePercentage` over all the client's records: the share of them that are Presente, times 100. */
  function AttendanceRate(ps: seq<Presence>, clientId: int): (r: real)
    ensures 0.0 <= r <= 100.0
    ensures r == 100.0 <==> ClientPresences(ps, clientId) != [] && forall p :: p in ps && p.clientId == clientId ==> p.status == Presente
    ensures ClientPresences(ps, clientId) == [] ==> r == 0.0
    ensures (var mine := ClientPresences(ps, clientId);
             mine != [] ==> r == (|Filter(mine, WithStatus(Presente))| as real) / (|mine| as real) * 100.0)
  {
    var mine := ClientPresences(ps, clientId);
    var present := Filter(mine, WithStatus(Presente));
    var absent := Filter(mine, WithStatus(Ausente));
    FilterLengthSplit(mine, WithStatus(Presente), WithStatus(Ausente));
    NoAbsenceIff(ps, clientId);
    PercentageOfAll(|present|, |absent|, |mine|);
    Percentage(|present|, |absent|)
  }

  /** With every record present or absent, the percentage is the present share of all records. */
  lemma PercentageOfAll(presences: nat, absences: nat, total: nat)
    requires presences + absences == total
    ensures total == 0 ==> Percentage(presences, absences) == 0.0
    ensures total > 0 ==> Percentage(presences, absences) == (presences as real) / (total as real) * 100.0
  {
  }

  lemma NoAbsenceIff(ps: seq<Presence>, clientId: int)
    ensures (|Filter(ClientPresences(ps, clientId), WithStatus(Ausente))| == 0
             <==> forall p :: p in ps && p.clientId == clientId ==> p.status == Presente)
  {
    var absent := Filter(ClientPresences(ps, clientId), WithStatus(Ausente));
    if |absent| > 0 {
      assert absent[0] in absent;
    }
  }

  /** The two status counts cover all of the client's records. */
  lemma RecordsArePresentOrAbsent(ps: seq<Presence>, clientId: int)
    ensures (var mine := ClientPresences(ps, clientId);
             |Filter(mine, WithStatus(Presente))| + |Filter(mine, WithStatus(Ausente))| == |mine|)
  {
    var mine := ClientPresences(ps, clientId);
    FilterLengthSplit(mine, WithStatus(Presente), WithStatus(Ausente));
  }

  function OnDay(day: ValidDate): Presence -> bool {
    (p: Presence) => p.date == day
  }

  /** `handleDayClick`: the client's first record on the clicked day, or none. */
  function DayClick(ps: seq<Presence>, clientId: int, day: ValidDate): (r: Option<Presence>)
    ensures r.Some? <==> exists p :: p in ps && p.clientId == clientId && p.date == day
    ensures r.Some? ==> r.value in ps && r.value.clientId == clientId && r.value.date == day
    ensures (var mine := ClientPresences(ps, clientId);
             r.Some? ==> exists i :: 0 <= i < |mine| && mine[i] == r.value && forall j :: 0 <= j < i ==> mine[j].date != day)
  {
    DayClickFinds(ps, clientId, day);
    Find(ClientPresences(ps, clientId), OnDay(day))
  }

  lemma DayClickFinds(ps: seq<Presence>, clientId: int, day: ValidDate)
    ensures (Find(ClientPresences(ps, clientId), OnDay(day)).Some?
             <==> exists p :: p in ps && p.clientId == clientId && p.date == day)
  {
    var mine := ClientPresences(ps, clientId);
    if exists p :: p in ps && p.clientId == clientId && p.date == day {
      var p :| p in ps && p.clientId == clientId && p.date == day;
      assert p in mine;
      var k :| 0 <= k < |mine| && mine[k] == p;
      assert OnDay(day)(mine[k]);
    }
  }
}

=== FILE: billing.dfy ===
/**
 * The billing engine: the instalment schedule generated for a new
 * enrollment, the contract end date, and marking an instalment paid.
 */
module Billing {
  import opened Wrappers
  import opened Dates
  import opened Types
  import opened Seqs

  /** Months between two instalments; an unknown recurrence bills monthly. */
  function Interval(r: Recurrence): (k: int)
    ensures k == 1 || k == 3 || k == 6
    ensures k == 1 <==> (r.Mensal? || r.OtherRecurrence?)
    ensures r.Trimestral? ==> k == 3
    ensures r.Semestral? ==> k == 6
  {
    match r
    case Mensal => 1
    case Trimestral => 3
    case Semestral => 6
    case OtherRecurrence(_) => 1
  }

  /** The test `i < duration / interval` of the generating loop, evaluated on real numbers. */
  predicate LoopContinues(i: int, duration: int, k: int)
    requires k > 0
  {
    (i as real) < (duration as real) / (k as real)
  }

  /** For a positive divisor, the real comparison is the integer comparison `i * k < duration`. */
  lemma RealBound(i: int, duration: int, k: int)
    requires k > 0
    ensures LoopContinues(i, duration, k) <==> i * k < duration
  {
    var q := (duration as real) / (k as real);
    assert q * (k as real) == duration as real;
    assert (i * k) as real == (i as real) * (k as real);
    if (i as real) < q {
      assert (i as real) * (k as real) < q * (k as real);
    } else {
      assert (i as real) * (k as real) >= q * (k as real);
    }
  }

  /**
   * How many instalments the loop produces: the duration divided by the
   * interval and rounded UP, because the loop bound is a real quotient;
   * nothing for a duration that is not positive.
   */
  function PaymentCount(duration: int, r: Recurrence): (n: nat)
    ensures forall i: nat :: i < n <==> LoopContinues(i, duration, Interval(r))
  {
    var k := Interval(r);
    var n := if duration <= 0 then 0 else CeilDiv(duration, k);
    forall i: nat ensures i < n <==> LoopContinues(i, duration, k) {
      RealBound(i, duration, k);
      RealBound(n, duration, k);
    }
    n
  }

  /** One row of the insert the schedule feeds: the `mensalidades` payload, with no paid date. */
  datatype NewPayment = NewPayment(enrollmentId: int, amount: int, due: ValidDate, paidOn: Option<ValidDate>, status: PaymentStatus)

  /** Instalment i of the schedule: due `i * interval` months after the start, for the full fee, pending. */
  function Instalment(enrollmentId: int, start: ValidDate, fee: int, r: Recurrence, i: int): NewPayment {
    NewPayment(enrollmentId, fee, AddMonths(start, i * Interval(r)), None, Pendente)
  }

  /**
   * The schedule of `generatePaymentsForEnrollmentFunction`, computed with
   * the source's loop and its real-valued bound.
   */
  method GenerateSchedule(enrollmentId: int, start: ValidDate, duration: int, fee: int, r: Recurrence)
    returns (ps: seq<NewPayment>)
    ensures |ps| == PaymentCount(duration, r)
    ensures forall i :: 0 <= i < |ps| ==> ps[i] == Instalment(enrollmentId, start, fee, r, i)
  {
    var k := Interval(r);
    var n := PaymentCount(duration, r);
    ps := [];
    var i := 0;
    while (i as real) < (duration as real) / (k as real)
      invariant 0 <= i <= n
      invariant |ps| == i
      invariant forall j :: 0 <= j < i ==> ps[j] == Instalment(enrollmentId, start, fee, r, j)
      decreases n - i
    {
      assert LoopContinues(i, duration, k);
      var due := AddMonths(start, i * k);
      ps := ps + [NewPayment(enrollmentId, fee, due, None, Pendente)];
      i := i + 1;
    }
    assert !LoopContinues(i, duration, k);
  }

  /** The schedule as a value: instalments 0 to PaymentCount - 1. */
  function Schedule(enrollmentId: int, start: ValidDate, duration: int, fee: int, r: Recurrence): (ps: seq<NewPayment>)
    ensures |ps| == PaymentCount(duration, r)
    ensures forall i :: 0 <= i < |ps| ==>
      (ps[i].enrollmentId == enrollmentId && ps[i].amount == fee && ps[i].status == Pendente && ps[i].paidOn.None?)
  {
    seq(PaymentCount(duration, r), i => Instalment(enrollmentId, start, fee, r, i))
  }

  /** Monthly billing (and any unknown recurrence) bills once per contract month. */
  lemma MonthlyCountIsDuration(duration: nat, r: Recurrence)
    requires r.Mensal? || r.OtherRecurrence?
    ensures PaymentCount(duration, r) == duration
  {
  }

  /** The count is the duration over the interval rounded up: `(n - 1) * k < duration <= n * k`. */
  lemma CountIsCeiling(duration: int, r: Recurrence)
    requires duration > 0
    ensures var n := PaymentCount(duration, r);
      (n - 1) * Interval(r) < duration <= n * Interval(r)
  {
  }

  lemma CountExamples()
    ensures PaymentCount(7, Trimestral) == 3
    ensures PaymentCount(2, Semestral) == 1
    ensures PaymentCount(12, Semestral) == 2
    ensures PaymentCount(0, Mensal) == 0
  {
    assert LoopContinues(2, 7, 3) && !LoopContinues(3, 7, 3);
    assert LoopContinues(0, 2, 6) && !LoopContinues(1, 2, 6);
    assert LoopContinues(1, 12, 6) && !LoopContinues(2, 12, 6);
  }

  /** The first instalment falls on the start date. */
  lemma FirstDueIsStart(enrollmentId: int, start: ValidDate, duration: int, fee: int, r: Recurrence)
    requires duration > 0
    ensures var ps := Schedule(enrollmentId, start, duration, fee, r);
      |ps| > 0 && ps[0].due == start
  {
    RealBound(0, duration, Interval(r));
    AddMonthsZero(start);
  }

  /** Due dates strictly increase along the schedule. */
  lemma DueDatesIncrease(enrollmentId: int, start: ValidDate, duration: int, fee: int, r: Recurrence, i: int, j: int)
    requires 0 <= i < j < PaymentCount(duration, r)
    ensures var ps := Schedule(enrollmentId, start, duration, fee, r);
      Before(ps[i].due, ps[j].due)
  {
    var k := Interval(r);
    assert i * k < j * k;
    AddMonthsStrictlyIncreasing(start, i * k, j * k);
  }

  /** `endDate.setMonth(start.getMonth() + duration)`: the contract end date. */
  function ContractEnd(start: ValidDate, duration: int): (end: ValidDate) {
    AddMonths(start, duration)
  }

  /** The enrollment record stored after the form is submitted: the request, its end date, status Ativa. */
  function CompleteEnrollment(req: EnrollmentRequest): (e: NewEnrollment)
    ensures e.request == req && e.status == Ativa
    ensures e.end == AddMonths(req.start, req.durationMonths)
    ensures req.durationMonths > 0 ==> Before(req.start, e.end)
  {
    if req.durationMonths > 0 then
      AddMonthsZero(req.start);
      AddMonthsStrictlyIncreasing(req.start, 0, req.durationMonths);
      NewEnrollment(req, ContractEnd(req.start, req.durationMonths), Ativa)
    else
      NewEnrollment(req, ContractEnd(req.start, req.durationMonths), Ativa)
  }

  /** Every instalment falls due strictly before the contract ends. */
  lemma InstalmentsBeforeEnd(enrollmentId: int, start: ValidDate, duration: int, fee: int, r: Recurrence, i: int)
    requires 0 <= i < PaymentCount(duration, r)
    ensures Before(Schedule(enrollmentId, start, duration, fee, r)[i].due, ContractEnd(start, duration))
  {
    var k := Interval(r);
    RealBound(i, duration, k);
    AddMonthsStrictlyIncreasing(start, i * k, duration);
  }

  /** The schedule bills the fee once per instalment. */
  lemma {:induction false} ScheduleTotal(ps: seq<NewPayment>, fee: int)
    requires forall i :: 0 <= i < |ps| ==> ps[i].amount == fee
    ensures Sum(ps, (p: NewPayment) => p.amount) == |ps| * fee
  {
    if ps != [] {
      ScheduleTotal(ps[1..], fee);
    }
  }

  /** The update `markPaymentAsPaid` sends: status Pago, paid today. */
  function MarkPaid(p: Payment, today: ValidDate): (q: Payment)
    ensures q.status == Pago && q.paidOn == Some(today)
    ensures q.(status := p.status, paidOn := p.paidOn) == p
  {
    p.(status := Pago, paidOn := Some(today))
  }

  /** Marking paid twice on the same day is marking paid once. */
  lemma MarkPaidIdempotent(p: Payment, today: ValidDate)
    ensures MarkPaid(MarkPaid(p, today), today) == MarkPaid(p, today)
  {
  }
}

=== FILE: client_form.dfy ===
/**
 * The new-client form: its defaults, the required-field check, the
 * e-mail pattern `^[^\s@]+@[^\s@]+\.[^\s@]+$`, and the reset.
 */
module ClientForm {
  import opened Wrappers
  import opened Types
  import opened Seqs
  import opened Text

  /** The form's fields, all text as the inputs hold them. */
  datatype ClientFormData = ClientFormData(
    name: string,
    phone: string,
    email: string,
    gender: string,
    birthDate: string,
    goals: string,
    medicalNotes: string,
    certificate: string,
    status: ClientStatus,
    photo: string)

  const Placeholder: string := "/placeholder.svg"

  /** Empty texts, status Ativo and the placeholder photo. */
  const Initial := ClientFormData("", "", "", "", "", "", "", "", Ativo, Placeholder)

  /** `handleReset`, also run by cancel and after a successful save. */
  function Reset(f: ClientFormData): (r: ClientFormData)
    ensures r.status == Ativo && r.photo == Placeholder
    ensures r.name == "" && r.phone == "" && r.email == "" && r.gender == "" && r.goals == ""
    ensures r.birthDate == "" && r.medicalNotes == "" && r.certificate == ""
  {
    Initial
  }

  lemma ResetIdempotent(f: ClientFormData)
    ensures Reset(Reset(f)) == Reset(f)
  {
  }

  // ---------------------------------------------------------------------
  // The e-mail pattern
  // ---------------------------------------------------------------------

  /** A character `[^\s@]` accepts. */
  predicate PlainChar(c: char) {
    !IsJsWhitespace(c) && c != '@'
  }

  predicate Plain(s: string) {
    forall i :: 0 <= i < |s| ==> PlainChar(s[i])
  }

  /**
   * s is `a@b.c` with a, b, c non-empty runs of plain characters: one way
   * the regular expression can match s.
   */
  predicate EmailShape(s: string, a: string, b: string, c: string) {
    s == a + "@" + b + "." + c && a != [] && b != [] && c != [] && Plain(a) && Plain(b) && Plain(c)
  }

  /** What the regular expression accepts. */
  ghost predicate MatchesEmailPattern(s: string) {
    exists a, b, c :: EmailShape(s, a, b, c)
  }

  function IsAt(c: char): bool { c == '@' }

  /**
   * A direct check: a non-empty plain text before the first '@'; after it
   * a plain text with a '.' that is neither its first nor its last character.
   */
  predicate EmailOk(s: string) {
    match FindIndex(s, IsAt)
    case None => false
    case Some(i) =>
      var rest := s[i + 1..];
      i > 0 && Plain(s[..i]) && Plain(rest) && |rest| >= 3 && '.' in rest[1..|rest| - 1]
  }

  /** The direct check accepts exactly what the regular expression matches. */
  lemma EmailOkIffPattern(s: string)
    ensures EmailOk(s) <==> MatchesEmailPattern(s)
  {
    if EmailOk(s) {
      EmailOkHasShape(s);
    }
    if MatchesEmailPattern(s) {
      var a, b, c :| EmailShape(s, a, b, c);
      ShapePassesEmailOk(s, a, b, c);
    }
  }

  /** A run of plain characters stays plain when cut. */
  lemma PlainSlice(s: string, lo: int, hi: int)
    requires Plain(s) && 0 <= lo <= hi <= |s|
    ensures Plain(s[lo..hi])
  {
    assert forall j :: 0 <= j < hi - lo ==> s[lo..hi][j] == s[lo + j];
  }

  /** Cutting s at an '@' at i and rest = s[i + 1..] at a '.' at j gives the pieces of `a@b.c`. */
  lemma CutTwice(s: string, i: int, j: int)
    requires 0 <= i < |s| && s[i] == '@'
    requires 0 <= j < |s| - i - 1 && s[i + 1 + j] == '.'
    ensures s == s[..i] + "@" + s[i + 1..][..j] + "." + s[i + 1..][j + 1..]
  {
    var rest := s[i + 1..];
    assert rest == rest[..j] + [rest[j]] + rest[j + 1..];
    assert s == s[..i] + [s[i]] + rest;
  }

  /** An address the check accepts splits as `a@b.c`. */
  lemma EmailOkHasShape(s: string)
    requires EmailOk(s)
    ensures MatchesEmailPattern(s)
  {
    var i := FindIndex(s, IsAt).value;
    var rest := s[i + 1..];
    var mid := rest[1..|rest| - 1];
    var k :| 0 <= k < |mid| && mid[k] == '.';
    assert rest[k + 1] == '.';
    CutTwice(s, i, k + 1);
    var a, b, c := s[..i], rest[..k + 1], rest[k + 2..];
    PlainSlice(rest, 0, k + 1);
    PlainSlice(rest, k + 2, |rest|);
    assert EmailShape(s, a, b, c);
  }

  /** Any `a@b.c` split passes the check. */
  lemma ShapePassesEmailOk(s: string, a: string, b: string, c: string)
    requires EmailShape(s, a, b, c)
    ensures EmailOk(s)
  {
    assert s[|a|] == '@';
    assert forall j :: 0 <= j < |a| ==> s[j] == a[j] && !IsAt(s[j]);
    var i := FindIndex(s, IsAt).value;
    assert i == |a|;
    assert s[..i] == a;
    var rest := s[i + 1..];
    assert rest == b + "." + c;
    assert Plain(rest) by {
      forall j | 0 <= j < |rest| ensures PlainChar(rest[j]) {
        if j < |b| { assert rest[j] == b[j]; }
        else if j > |b| { assert rest[j] == c[j - |b| - 1]; }
      }
    }
    assert rest[1..|rest| - 1][|b| - 1] == '.';
  }

  lemma EmailExamples()
    ensures MatchesEmailPattern("a@b.c")
    ensures !MatchesEmailPattern("a@b")
  {
    assert EmailShape("a@b.c", "a", "b", "c");
    EmailOkIffPattern("a@b");
    assert FindIndex("a@b", IsAt) == Some(1);
  }

  // ---------------------------------------------------------------------
  // The browser's e-mail check
  // ---------------------------------------------------------------------

  predicate AsciiAlnum(c: char) {
    'a' <= c <= 'z' || 'A' <= c <= 'Z' || '0' <= c <= '9'
  }

  /** A character the HTML standard's valid e-mail address allows before the '@'. */
  predicate LocalChar(c: char) {
    AsciiAlnum(c) || c in ".!#$%&'*+/=?^_`{|}~-"
  }

  /**
   * The part after the '@' of a valid e-mail address: dot-separated
   * labels of ASCII letters, digits and hyphens, each label opening and
   * closing with a letter or digit and at most 63 characters long.
   */
  predicate DomainOk(d: string) {
    |d| >= 1 && AsciiAlnum(d[0]) && AsciiAlnum(d[|d| - 1])
    && (forall i :: 0 <= i < |d| ==> AsciiAlnum(d[i]) || d[i] == '-' || d[i] == '.')
    && (forall i :: 0 < i < |d| - 1 && d[i] == '.' ==> AsciiAlnum(d[i - 1]) && AsciiAlnum(d[i + 1]))
    && (forall i :: 0 <= i <= |d| ==> RunBefore(d, i) <= 63)
  }

  /** How many characters other than '.' come just before position i of d. */
  function RunBefore(d: string, i: nat): (n: nat)
    requires i <= |d|
    ensures n <= i
    ensures n > 0 ==> d[i - 1] != '.'
  {
    if i == 0 || d[i - 1] == '.' then 0 else RunBefore(d, i - 1) + 1
  }

  /**
   * What an `<input type="email">` accepts as its value, the "valid e-mail
   * address" of the HTML standard: one or more allowed characters, an '@',
   * and a domain. The allowed characters exclude '@', so the first '@'
   * separates the two parts.
   */
  predicate BrowserEmailValid(s: string) {
    match FindIndex(s, IsAt)
    case None => false
    case Some(i) => i > 0 && (forall j :: 0 <= j < i ==> LocalChar(s[j])) && DomainOk(s[i + 1..])
  }

  /**
   * For an address the browser accepts, the regular expression adds one
   * demand: a dot after the '@'.
   */
  lemma BrowserValidMatchesIffDotted(s: string)
    requires BrowserEmailValid(s)
    ensures MatchesEmailPattern(s) <==> '.' in s[FindIndex(s, IsAt).value + 1..]
  {
    var i := FindIndex(s, IsAt).value;
    BrowserValidParts(s);
    if '.' in s[i + 1..] {
      DottedIsEmailOk(s, i);
    } else {
      UndottedIsNotEmailOk(s, i);
    }
    EmailOkIffPattern(s);
  }

  /** The parts of an address the browser accepts are plain characters. */
  lemma BrowserValidParts(s: string)
    requires BrowserEmailValid(s)
    ensures (var i := FindIndex(s, IsAt).value; i > 0 && Plain(s[..i]) && DomainOk(s[i + 1..]))
  {
    var i := FindIndex(s, IsAt).value;
    LocalPartIsPlain(s, i);
  }

  lemma DottedIsEmailOk(s: string, i: nat)
    requires FindIndex(s, IsAt) == Some(i) && i > 0 && Plain(s[..i])
    requires DomainOk(s[i + 1..]) && '.' in s[i + 1..]
    ensures EmailOk(s)
  {
    var rest := s[i + 1..];
    var k :| 0 <= k < |rest| && rest[k] == '.';
    DottedDomainInner(rest, k);
    DomainIsPlain(rest);
    EmailOkOfParts(s, i);
  }

  lemma EmailOkOfParts(s: string, i: nat)
    requires FindIndex(s, IsAt) == Some(i) && i > 0 && Plain(s[..i])
    requires Plain(s[i + 1..]) && |s[i + 1..]| >= 3 && '.' in s[i + 1..][1..|s[i + 1..]| - 1]
    ensures EmailOk(s)
  {
  }

  lemma UndottedIsNotEmailOk(s: string, i: nat)
    requires FindIndex(s, IsAt) == Some(i) && '.' !in s[i + 1..]
    ensures !EmailOk(s)
  {
    var rest := s[i + 1..];
    if |rest| >= 3 {
      assert forall c :: c in rest[1..|rest| - 1] ==> c in rest;
    }
  }

  /** A dot in a valid domain is neither its first nor its last character. */
  lemma DottedDomainInner(d: string, k: int)
    requires DomainOk(d) && 0 <= k < |d| && d[k] == '.'
    ensures |d| >= 3 && '.' in d[1..|d| - 1]
  {
    assert 0 < k < |d| - 1;
    assert d[1..|d| - 1][k - 1] == '.';
  }

  lemma LocalCharIsPlain(c: char)
    requires LocalChar(c)
    ensures PlainChar(c)
  {
  }

  lemma LocalPartIsPlain(s: string, i: int)
    requires 0 <= i <= |s| && forall j :: 0 <= j < i ==> LocalChar(s[j])
    ensures Plain(s[..i])
  {
    forall j | 0 <= j < i ensures PlainChar(s[..i][j]) {
      LocalCharIsPlain(s[j]);
    }
  }

  lemma DomainIsPlain(d: string)
    requires DomainOk(d)
    ensures Plain(d)
  {
    forall j | 0 <= j < |d| ensures PlainChar(d[j]) {
      assert AsciiAlnum(d[j]) || d[j] == '-' || d[j] == '.';
    }
  }

  /** "a@b" passes the browser and fails the pattern, which wants a dot after the '@'. */
  lemma BrowserAcceptsUndotted()
    ensures BrowserEmailValid("a@b") && !MatchesEmailPattern("a@b")
  {
    EmailExamples();
    assert FindIndex("a@b", IsAt) == Some(1);
    assert "a@b"[2..] == "b";
  }

  /** "a@b.c" passes both. */
  lemma BothAcceptDotted()
    ensures BrowserEmailValid("a@b.c") && MatchesEmailPattern("a@b.c")
  {
    EmailExamples();
    assert FindIndex("a@b.c", IsAt) == Some(1);
    assert "a@b.c"[2..] == "b.c";
    DomainBDotC();
    BrowserValidOfParts("a@b.c", 1);
  }

  lemma DomainBDotC()
    ensures DomainOk("b.c")
  {
    var d := "b.c";
    assert forall i :: 0 < i < |d| - 1 && d[i] == '.' ==> i == 1;
  }

  /** "a@b..c", with an empty label, matches the pattern and fails the browser. */
  lemma BrowserRefusesEmptyLabel()
    ensures MatchesEmailPattern("a@b..c") && !BrowserEmailValid("a@b..c")
  {
    PatternOfPieces("a", "b.", "c");
    assert "a" + "@" + "b." + "." + "c" == "a@b..c";
    assert FindIndex("a@b..c", IsAt) == Some(1);
    var d := "a@b..c"[2..];
    assert d == "b..c";
    assert d[1] == '.' && !AsciiAlnum(d[2]);
  }

  /** "a@-b.c", with a label opening with a hyphen, matches the pattern and fails the browser. */
  lemma BrowserRefusesHyphenFirst()
    ensures MatchesEmailPattern("a@-b.c") && !BrowserEmailValid("a@-b.c")
  {
    PatternOfPieces("a", "-b", "c");
    assert "a" + "@" + "-b" + "." + "c" == "a@-b.c";
    assert FindIndex("a@-b.c", IsAt) == Some(1);
    assert "a@-b.c"[2..] == "-b.c";
  }

  /** "joão@x.com", with a non-ASCII letter before the '@', matches the pattern and fails the browser. */
  lemma BrowserRefusesNonAsciiLocal()
    ensures MatchesEmailPattern("joão@x.com") && !BrowserEmailValid("joão@x.com")
  {
    assert Plain("joão") && Plain("x") && Plain("com");
    PatternOfPieces("joão", "x", "com");
    assert "joão" + "@" + "x" + "." + "com" == "joão@x.com";
    NotLocalBeforeAt("joão@x.com", 2);
  }

  /** An address with a character before its first '@' that the browser does not allow fails the browser. */
  lemma NotLocalBeforeAt(s: string, j: nat)
    requires j < |s| && !LocalChar(s[j]) && forall k :: 0 <= k <= j ==> s[k] != '@'
    ensures !BrowserEmailValid(s)
  {
    match FindIndex(s, IsAt)
    case None =>
    case Some(i) =>
      assert i > j;
  }

  /** Any non-empty plain a, b and c make `a@b.c` match the pattern. */
  lemma PatternOfPieces(a: string, b: string, c: string)
    requires a != [] && b != [] && c != [] && Plain(a) && Plain(b) && Plain(c)
    ensures MatchesEmailPattern(a + "@" + b + "." + c)
  {
    assert EmailShape(a + "@" + b + "." + c, a, b, c);
  }

  /** The browser accepts an address whose parts around its first '@' it accepts. */
  lemma BrowserValidOfParts(s: string, i: nat)
    requires FindIndex(s, IsAt) == Some(i) && i > 0
    requires (forall j :: 0 <= j < i ==> LocalChar(s[j])) && DomainOk(s[i + 1..])
    ensures BrowserEmailValid(s)
  {
  }

  // ---------------------------------------------------------------------
  // Submission
  // ---------------------------------------------------------------------

  datatype FormError = MissingFields | InvalidEmail

  /** Name, phone, e-mail, gender and goals are filled in; birth date, medical notes and certificate are optional. */
  predicate RequiredFilled(f: ClientFormData) {
    f.name != "" && f.phone != "" && f.email != "" && f.gender != "" && f.goals != ""
  }

  /**
   * `handleSubmit`'s checks, in order: the required fields first, then the
   * e-mail. An accepted form is handed on unchanged.
   */
  function Validate(f: ClientFormData): (r: Result<ClientFormData, FormError>)
    ensures r == Failure(MissingFields) <==> !RequiredFilled(f)
    ensures r == Failure(InvalidEmail) <==> RequiredFilled(f) && !MatchesEmailPattern(f.email)
    ensures r.Success? <==> RequiredFilled(f) && MatchesEmailPattern(f.email)
    ensures r.Success? ==> r.value == f
  {
    EmailOkIffPattern(f.email);
    if !RequiredFilled(f) then Failure(MissingFields)
    else if !EmailOk(f.email) then Failure(InvalidEmail)
    else Success(f)
  }

  /**
   * The browser's own constraint check, run before `handleSubmit`: the
   * `required` name, phone, e-mail and goals inputs are not empty, and the
   * e-mail input holds a valid e-mail address.
   */
  predicate NativeValid(f: ClientFormData) {
    f.name != "" && f.phone != "" && f.goals != "" && BrowserEmailValid(f.email)
  }

  /**
   * Pressing the submit button: None when the browser stops the submit
   * (no toast, `handleSubmit` does not run), otherwise `handleSubmit`'s
   * verdict. A form goes through only when both the browser and the
   * pattern accept its address.
   */
  function SubmitInBrowser(f: ClientFormData): (r: Option<Result<ClientFormData, FormError>>)
    ensures r.None? <==> !NativeValid(f)
    ensures (r.Some? && r.value.Success?) <==>
            RequiredFilled(f) && MatchesEmailPattern(f.email) && BrowserEmailValid(f.email)
    ensures r.Some? && r.value.Success? ==> r.value.value == f
    ensures r == Some(Failure(InvalidEmail)) <==>
            NativeValid(f) && RequiredFilled(f) && !MatchesEmailPattern(f.email)
  {
    if !NativeValid(f) then None else Some(Validate(f))
  }

  /**
   * Behind the browser's check, the invalid-e-mail toast appears only
   * for an address with no dot after its '@'.
   */
  lemma InvalidEmailToastMeansNoDot(f: ClientFormData)
    requires SubmitInBrowser(f) == Some(Failure(InvalidEmail))
    ensures '.' !in f.email[FindIndex(f.email, IsAt).value + 1..]
  {
    BrowserValidMatchesIffDotted(f.email);
  }

  /** The optional fields and the photo do not affect the outcome. */
  lemma OptionalFieldsIgnored(f: ClientFormData, birthDate: string, notes: string, certificate: string, photo: string, status: ClientStatus)
    ensures (Validate(f.(birthDate := birthDate, medicalNotes := notes, certificate := certificate, photo := photo, status := status)).Success?
             <==> Validate(f).Success?)
  {
  }

  /** The form after submit: reset once the save went through; kept after a toast or a failed save. */
  function AfterSubmit(f: ClientFormData, saveSucceeded: bool): (r: ClientFormData)
    ensures Validate(f).Success? && saveSucceeded ==> r == Initial
    ensures !(Validate(f).Success? && saveSucceeded) ==> r == f
  {
    if Validate(f).Success? && saveSucceeded then Reset(f) else f
  }

  /** The freshly opened or reset form is refused for missing fields. */
  lemma InitialIsRefused()
    ensures Validate(Initial) == Failure(MissingFields)
  {
  }
}

=== FILE: client_list.dfy ===
/** The client list: search and status filter, and the WhatsApp link of each card. */
module ClientList {
  import opened Wrappers
  import opened Types
  import opened Seqs
  import opened Text

  /** The status select: "Todos", or one status. */
  datatype StatusChoice = Todos | OnlyStatus(status: ClientStatus)

  /** Name or email contains the term, ignoring case. */
  predicate MatchesSearch(c: Client, term: string) {
    IncludesIgnoringCase(c.name, term) || IncludesIgnoringCase(c.email, term)
  }

  predicate MatchesStatus(c: Client, choice: StatusChoice) {
    choice.Todos? || c.status == choice.status
  }

  /** `filteredClients`: the clients matching both the search and the status, in stored order. */
  function FilteredClients(clients: seq<Client>, term: string, choice: StatusChoice): (r: seq<Client>)
    ensures forall c :: c in r <==> c in clients && MatchesSearch(c, term) && MatchesStatus(c, choice)
    ensures |r| <= |clients|
  {
    Filter(clients, (c: Client) => MatchesSearch(c, term) && MatchesStatus(c, choice))
  }

  /** An empty search with "Todos" lists every client, in order. */
  lemma EmptySearchListsAll(clients: seq<Client>)
    ensures FilteredClients(clients, "", Todos) == clients
  {
    forall c | c in clients ensures MatchesSearch(c, "") {
      IncludesEmpty(ToLower(c.name));
    }
    FilterAll(clients, (c: Client) => MatchesSearch(c, "") && MatchesStatus(c, Todos));
  }

  /** The link prefix: WhatsApp's click-to-chat with Brazil's country code. */
  const WhatsAppPrefix: string := "https://wa.me/55"

  /** The WhatsApp button: shown only for a non-empty phone, linking to the prefix and the phone's digits. */
  function WhatsAppLink(phone: string): (r: Option<string>)
    ensures r.None? <==> phone == ""
    ensures r.Some? ==>
      (WhatsAppPrefix <= r.value && forall i :: |WhatsAppPrefix| <= i < |r.value| ==> IsDigit(r.value[i]))
    ensures r.Some? ==> r.value == WhatsAppPrefix + Filter(phone, IsDigit)
  {
    DigitsOnlyIsFilter(phone);
    if phone == "" then None else Some(WhatsAppPrefix + DigitsOnly(phone))
  }

  /** Punctuation in the phone does not change the number dialled. */
  lemma LinkIgnoresFormatting(phone: string)
    requires DigitsOnly(phone) != ""
    ensures WhatsAppLink(phone) == WhatsAppLink(DigitsOnly(phone))
  {
  }

  /** Separators in the number are dropped from the link. */
  lemma LinkExample()
    ensures WhatsAppLink("9-8") == Some("https://wa.me/5598")
  {
    assert DigitsOnly("9-8") == "98";
    assert WhatsAppPrefix + "98" == "https://wa.me/5598";
  }
}

=== FILE: client_modal.dfy ===
/**
 * The client details dialog: a nullable edit buffer copied from the
 * client, field changes applied to it, save, cancel, delete, the record
 * shown. Its enrollment form stores `Billing.CompleteEnrollment` of the request.
 */
module ClientModal {
  import opened Wrappers
  import opened Dates
  import opened Types

  /** One change through an input of the dialog. */
  datatype ClientEdit =
    | SetName(name: string)
    | SetPhone(phone: string)
    | SetEmail(email: string)
    | SetGender(gender: string)
    | SetBirthDate(birthDate: Option<ValidDate>)
    | SetStatus(status: ClientStatus)
    | SetGoals(goals: string)
    | SetMedicalNotes(notes: string)
    | SetPhoto(photo: string)

  /** A change sets its own field; the id, the certificate and the portal account are never touched. */
  function ApplyEdit(c: Client, f: ClientEdit): (r: Client)
    ensures r.id == c.id && r.certificate == c.certificate && r.userId == c.userId
    ensures f.SetName? ==> r == c.(name := f.name)
    ensures f.SetPhone? ==> r == c.(phone := f.phone)
    ensures f.SetEmail? ==> r == c.(email := f.email)
    ensures f.SetGender? ==> r == c.(gender := f.gender)
    ensures f.SetBirthDate? ==> r == c.(birthDate := f.birthDate)
    ensures f.SetStatus? ==> r == c.(status := f.status)
    ensures f.SetGoals? ==> r == c.(goals := f.goals)
    ensures f.SetMedicalNotes? ==> r == c.(medicalNotes := Some(f.notes))
    ensures f.SetPhoto? ==> r == c.(photo := f.photo)
  {
    match f
    case SetName(v) => c.(name := v)
    case SetPhone(v) => c.(phone := v)
    case SetEmail(v) => c.(email := v)
    case SetGender(v) => c.(gender := v)
    case SetBirthDate(v) => c.(birthDate := v)
    case SetStatus(v) => c.(status := v)
    case SetGoals(v) => c.(goals := v)
    case SetMedicalNotes(v) => c.(medicalNotes := Some(v))
    case SetPhoto(v) => c.(photo := v)
  }

  function ApplyEdits(c: Client, edits: seq<ClientEdit>): Client
    decreases |edits|
  {
    if edits == [] then c else ApplyEdits(ApplyEdit(c, edits[0]), edits[1..])
  }

  /** However many changes are made, the record keeps its id, certificate and portal account. */
  lemma {:induction false} EditsKeepIdentity(c: Client, edits: seq<ClientEdit>)
    ensures (var r := ApplyEdits(c, edits);
             r.id == c.id && r.certificate == c.certificate && r.userId == c.userId)
    decreases |edits|
  {
    if edits != [] {
      EditsKeepIdentity(ApplyEdit(c, edits[0]), edits[1..]);
    }
  }

  /** Edit mode and the buffer (`editedClient`, null when None). */
  datatype ModalState = ModalState(editing: bool, edited: Option<Client>)

  const Opened := ModalState(false, None)

  /** In edit mode there is always a buffer to show. */
  predicate Valid(st: ModalState) {
    st.editing ==> st.edited.Some?
  }

  /** `handleEdit`: the buffer becomes a copy of the client shown. */
  function Edit(st: ModalState, client: Client): (r: ModalState)
    ensures Valid(r) && r.editing && r.edited == Some(client)
  {
    ModalState(true, Some(client))
  }

  /** `handleInputChange`: applied to the buffer; with no buffer nothing happens. */
  function Change(st: ModalState, f: ClientEdit): (r: ModalState)
    ensures r.editing == st.editing
    ensures r.edited.Some? <==> st.edited.Some?
    ensures st.edited.Some? ==> r.edited.value == ApplyEdit(st.edited.value, f)
  {
    if st.edited.Some? then st.(edited := Some(ApplyEdit(st.edited.value, f))) else st
  }

  function Changes(st: ModalState, edits: seq<ClientEdit>): ModalState
    decreases |edits|
  {
    if edits == [] then st else Changes(Change(st, edits[0]), edits[1..])
  }

  lemma {:induction false} ChangesEditBuffer(st: ModalState, edits: seq<ClientEdit>)
    requires st.edited.Some?
    ensures Changes(st, edits) == st.(edited := Some(ApplyEdits(st.edited.value, edits)))
    decreases |edits|
  {
    if edits != [] {
      ChangesEditBuffer(Change(st, edits[0]), edits[1..]);
    }
  }

  lemma {:induction false} ChangesKeepValid(st: ModalState, edits: seq<ClientEdit>)
    requires Valid(st)
    ensures Valid(Changes(st, edits))
    decreases |edits|
  {
    if edits != [] {
      ChangesKeepValid(Change(st, edits[0]), edits[1..]);
    }
  }

  /** `handleSave`: the buffer, when there is one, is forwarded as it is. */
  function Save(st: ModalState): (forwarded: Option<Client>)
    ensures forwarded == st.edited
  {
    st.edited
  }

  /** After save the dialog leaves edit mode but keeps the buffer. */
  function AfterSave(st: ModalState): (r: ModalState)
    ensures Valid(r) && !r.editing && r.edited == st.edited
  {
    st.(editing := false)
  }

  /** `handleCancel`: out of edit mode, buffer dropped. */
  function Cancel(st: ModalState): (r: ModalState)
    ensures Valid(r) && !r.editing && r.edited.None?
  {
    ModalState(false, None)
  }

  /** The record the dialog displays: the buffer in edit mode, the client otherwise. */
  function Displayed(st: ModalState, client: Client): (r: Client)
    requires Valid(st)
    ensures st.editing ==> Some(r) == st.edited
    ensures !st.editing ==> r == client
  {
    if st.editing then st.edited.value else client
  }

  /**
   * Open the editor on a client, change some fields and save: the update
   * carries the changed record under the client's id, with certificate and
   * portal account untouched, and the dialog then shows the client again.
   */
  lemma SaveAfterEditing(st: ModalState, client: Client, edits: seq<ClientEdit>)
    ensures Save(Changes(Edit(st, client), edits)) == Some(ApplyEdits(client, edits))
    ensures (var r := ApplyEdits(client, edits);
             r.id == client.id && r.certificate == client.certificate && r.userId == client.userId)
    ensures Valid(Changes(Edit(st, client), edits))
    ensures Displayed(AfterSave(Changes(Edit(st, client), edits)), client) == client
  {
    ChangesEditBuffer(Edit(st, client), edits);
    EditsKeepIdentity(client, edits);
    ChangesKeepValid(Edit(st, client), edits);
  }

  /** After cancelling, changes are dropped and save forwards nothing. */
  lemma SaveAfterCancelForwardsNothing(st: ModalState, edits: seq<ClientEdit>)
    ensures Changes(Cancel(st), edits) == Cancel(st)
    ensures Save(Changes(Cancel(st), edits)).None?
  {
    CancelledChangesDropped(Cancel(st), edits);
  }

  lemma {:induction false} CancelledChangesDropped(st: ModalState, edits: seq<ClientEdit>)
    requires st.edited.None?
    ensures Changes(st, edits) == st
    decreases |edits|
  {
    if edits != [] {
      CancelledChangesDropped(Change(st, edits[0]), edits[1..]);
    }
  }

  /** `handleDelete`: the shown client's id is forwarded for deletion. */
  function Delete(client: Option<Client>): (r: Option<int>)
    ensures r.Some? <==> client.Some?
    ensures r.Some? ==> r.value == client.value.id
  {
    if client.Some? then Some(client.value.id) else None
  }
}

=== FILE: client_profile.dfy ===
/**
 * The client profile page's local state: the client's payments, the
 * local mark-paid update, enrollment replace and remove, and the tab and
 * highlight chosen from the query string.
 */
module ClientProfile {
  import opened Wrappers
  import opened Dates
  import opened Types
  import opened Seqs
  import opened DataContext
  import opened Text
  import Billing

  /**
   * `handlePaymentMarkAsPaid`'s local update: the payment with that id
   * becomes what the stored row becomes (Pago, paid today); every other
   * entry, and the length, stay as they were.
   */
  function MarkPaidLocally(ps: seq<Payment>, paymentId: int, today: ValidDate): (r: seq<Payment>)
    ensures |r| == |ps|
    ensures forall i :: 0 <= i < |ps| && ps[i].id == paymentId ==> r[i] == Billing.MarkPaid(ps[i], today)
    ensures forall i :: 0 <= i < |ps| && ps[i].id != paymentId ==> r[i] == ps[i]
  {
    seq(|ps|, i requires 0 <= i < |ps| => if ps[i].id == paymentId then ps[i].(status := Pago, paidOn := Some(today)) else ps[i])
  }

  /** Marking the same payment twice on one day changes nothing more. */
  lemma MarkPaidLocallyIdempotent(ps: seq<Payment>, paymentId: int, today: ValidDate)
    ensures MarkPaidLocally(MarkPaidLocally(ps, paymentId, today), paymentId, today) == MarkPaidLocally(ps, paymentId, today)
  {
  }

  /** `handleEnrollmentUpdate`: the entry with the record's id is replaced by it; nothing else changes. */
  function ReplaceById(es: seq<Enrollment>, updated: Enrollment): (r: seq<Enrollment>)
    ensures |r| == |es|
    ensures forall i :: 0 <= i < |es| ==> r[i].id == es[i].id
    ensures forall i :: 0 <= i < |es| ==> r[i] == if es[i].id == updated.id then updated else es[i]
  {
    seq(|es|, i requires 0 <= i < |es| => if es[i].id == updated.id then updated else es[i])
  }

  /** `handleEnrollmentDelete`: every entry with that id goes. */
  function RemoveById(es: seq<Enrollment>, id: int): (r: seq<Enrollment>)
    ensures forall e :: e in r <==> e in es && e.id != id
    ensures |r| <= |es|
  {
    Filter(es, (e: Enrollment) => e.id != id)
  }

  /** Editing a record that is then deleted leaves the same list as deleting it straight away. */
  lemma {:induction false} RemoveAfterReplace(es: seq<Enrollment>, updated: Enrollment)
    ensures RemoveById(ReplaceById(es, updated), updated.id) == RemoveById(es, updated.id)
  {
    if es != [] {
      RemoveAfterReplace(es[1..], updated);
      assert ReplaceById(es, updated)[1..] == ReplaceById(es[1..], updated);
    }
  }

  /** The tab the page opens on: the `tab` parameter when present and non-empty, else "dados". */
  function InitialTab(tabParam: Option<string>): (tab: string)
    ensures tab != ""
    ensures Filled(tabParam) ==> tab == tabParam.value
  {
    if Filled(tabParam) then tabParam.value else "dados"
  }

  /**
   * The payment to highlight after a notification redirect: the
   * `highlight_payment` parameter, but only when it is non-empty and the
   * tab is "financeiro".
   */
  function Highlight(tabParam: Option<string>, highlightParam: Option<string>): (r: Option<string>)
    ensures r.Some? <==> Filled(highlightParam) && tabParam == Some("financeiro")
    ensures r.Some? ==> r == highlightParam && InitialTab(tabParam) == "financeiro"
  {
    if Filled(highlightParam) && tabParam == Some("financeiro") then highlightParam else None
  }

  /**
   * The id the page highlights: the `highlight_payment` parameter read with
   * `parseInt`, under the same conditions as Highlight. Text without a
   * leading number gives NaN, which matches no payment (None).
   */
  function HighlightedPaymentId(tabParam: Option<string>, highlightParam: Option<string>): (r: Option<int>)
    ensures r.Some? ==> Filled(highlightParam) && tabParam == Some("financeiro")
    ensures r.Some? ==> ParseInt(highlightParam.value) == r
    ensures Filled(highlightParam) && tabParam == Some("financeiro") ==> r == ParseInt(highlightParam.value)
  {
    match Highlight(tabParam, highlightParam)
    case Some(text) => ParseInt(text)
    case None => None
  }
}

=== FILE: context.dfy ===
/**
 * The pure part of the data context: lookups by id, the dashboard metrics,
 * and the two notification transforms.
 */
module DataContext {
  import opened Wrappers
  import opened Dates
  import opened Types
  import opened Seqs
  import opened Medical

  // ---------------------------------------------------------------------
  // Lookups
  // ---------------------------------------------------------------------

  /** `getClientById`: the first client with that id, if any. */
  function ClientById(clients: seq<Client>, id: int): (r: Option<Client>)
    ensures r.Some? <==> exists i :: 0 <= i < |clients| && clients[i].id == id
    ensures r.Some? ==> r.value in clients && r.value.id == id
  {
    Find(clients, (c: Client) => c.id == id)
  }

  /** `find(e => e.id === id)` over the enrollments. */
  function EnrollmentById(enrollments: seq<Enrollment>, id: int): (r: Option<Enrollment>)
    ensures r.Some? <==> exists i :: 0 <= i < |enrollments| && enrollments[i].id == id
    ensures r.Some? ==> r.value in enrollments && r.value.id == id
  {
    Find(enrollments, (e: Enrollment) => e.id == id)
  }

  /** `find(p => p.id === id)` over the payments. */
  function PaymentById(payments: seq<Payment>, id: int): (r: Option<Payment>)
    ensures r.Some? <==> exists i :: 0 <= i < |payments| && payments[i].id == id
    ensures r.Some? ==> r.value in payments && r.value.id == id
  {
    Find(payments, (p: Payment) => p.id == id)
  }

  /** Ids are primary keys: no two stored clients share one. */
  predicate UniqueClientIds(clients: seq<Client>) {
    forall i, j :: 0 <= i < j < |clients| ==> clients[i].id != clients[j].id
  }

  predicate UniqueEnrollmentIds(enrollments: seq<Enrollment>) {
    forall i, j :: 0 <= i < j < |enrollments| ==> enrollments[i].id != enrollments[j].id
  }

  predicate UniquePaymentIds(payments: seq<Payment>) {
    forall i, j :: 0 <= i < j < |payments| ==> payments[i].id != payments[j].id
  }

  /** With unique ids, looking a stored client up by its id finds that very client. */
  lemma ClientByIdFinds(clients: seq<Client>, c: Client)
    requires UniqueClientIds(clients) && c in clients
    ensures ClientById(clients, c.id) == Some(c)
  {
    var j :| 0 <= j < |clients| && clients[j] == c;
    var r := ClientById(clients, c.id);
    var i :| 0 <= i < |clients| && clients[i] == r.value;
    assert !(i < j) && !(j < i);
  }

  lemma EnrollmentByIdFinds(enrollments: seq<Enrollment>, e: Enrollment)
    requires UniqueEnrollmentIds(enrollments) && e in enrollments
    ensures EnrollmentById(enrollments, e.id) == Some(e)
  {
    var j :| 0 <= j < |enrollments| && enrollments[j] == e;
    var r := EnrollmentById(enrollments, e.id);
    var i :| 0 <= i < |enrollments| && enrollments[i] == r.value;
    assert !(i < j) && !(j < i);
  }

  lemma PaymentByIdFinds(payments: seq<Payment>, p: Payment)
    requires UniquePaymentIds(payments) && p in payments
    ensures PaymentById(payments, p.id) == Some(p)
  {
    var j :| 0 <= j < |payments| && payments[j] == p;
    var r := PaymentById(payments, p.id);
    var i :| 0 <= i < |payments| && payments[i] == r.value;
    assert !(i < j) && !(j < i);
  }

  /** `getEnrollmentsByClientId`: the client's enrollments, in stored order. */
  function EnrollmentsOfClient(enrollments: seq<Enrollment>, clientId: int): (r: seq<Enrollment>)
    ensures forall e :: e in r <==> e in enrollments && e.clientId == clientId
  {
    Filter(enrollments, (e: Enrollment) => e.clientId == clientId)
  }

  /** `getPaymentsByEnrollmentId`: the enrollment's payments, in stored order. */
  function PaymentsOfEnrollment(payments: seq<Payment>, enrollmentId: int): (r: seq<Payment>)
    ensures forall p :: p in r <==> p in payments && p.enrollmentId == enrollmentId
  {
    Filter(payments, (p: Payment) => p.enrollmentId == enrollmentId)
  }

  /** `enrollments.map(e => e.id)`. */
  function EnrollmentIds(es: seq<Enrollment>): (ids: seq<int>)
    ensures |ids| == |es|
    ensures forall id :: id in ids <==> exists i :: 0 <= i < |es| && es[i].id == id
  {
    var ids := seq(|es|, i requires 0 <= i < |es| => es[i].id);
    assert forall i :: 0 <= i < |es| ==> ids[i] == es[i].id;
    ids
  }

  /**
   * The payments billed to some enrollment of the list, in stored order
   * (`enrollmentIds.includes(p.id_matricula)`, or `some(e => e.id === p.id_matricula)`).
   */
  function PaymentsOfEnrollments(payments: seq<Payment>, es: seq<Enrollment>): (r: seq<Payment>)
    ensures forall p :: p in r <==> p in payments && exists i :: 0 <= i < |es| && es[i].id == p.enrollmentId
  {
    Filter(payments, BilledTo(es))
  }

  function BilledTo(es: seq<Enrollment>): Payment -> bool {
    (p: Payment) => p.enrollmentId in EnrollmentIds(es)
  }

  /** One more payment joins the list at the end exactly when it is billed to one of the enrollments. */
  lemma PaymentsOfEnrollmentsSnoc(payments: seq<Payment>, p: Payment, es: seq<Enrollment>)
    ensures PaymentsOfEnrollments(payments + [p], es)
         == PaymentsOfEnrollments(payments, es)
            + (if exists i :: 0 <= i < |es| && es[i].id == p.enrollmentId then [p] else [])
  {
    FilterSnoc(payments, p, BilledTo(es));
  }

  /**
   * The client's payments: those billed to one of the client's
   * enrollments, in stored order (`clientEnrollments.some(e => e.id === p.id_matricula)`).
   */
  function ClientPayments(enrollments: seq<Enrollment>, payments: seq<Payment>, clientId: int): (r: seq<Payment>)
    ensures forall p :: p in r <==>
      (p in payments && exists e :: e in enrollments && e.clientId == clientId && e.id == p.enrollmentId)
  {
    var mine := EnrollmentsOfClient(enrollments, clientId);
    var r := PaymentsOfEnrollments(payments, mine);
    assert forall p :: p in r <==> p in payments && exists e :: e in enrollments && e.clientId == clientId && e.id == p.enrollmentId by {
      forall p ensures p in r <==> p in payments && exists e :: e in enrollments && e.clientId == clientId && e.id == p.enrollmentId {
        if p in payments && exists e :: e in enrollments && e.clientId == clientId && e.id == p.enrollmentId {
          var e :| e in enrollments && e.clientId == clientId && e.id == p.enrollmentId;
          assert e in mine;
          var i :| 0 <= i < |mine| && mine[i] == e;
        }
      }
    }
    r
  }

  /** One more payment joins the client's payments, at the end, exactly when it is billed to one of their enrollments. */
  lemma ClientPaymentsSnoc(enrollments: seq<Enrollment>, payments: seq<Payment>, clientId: int, p: Payment)
    ensures ClientPayments(enrollments, payments + [p], clientId)
         == ClientPayments(enrollments, payments, clientId)
            + (if exists e :: e in enrollments && e.clientId == clientId && e.id == p.enrollmentId then [p] else [])
  {
    var es := EnrollmentsOfClient(enrollments, clientId);
    PaymentsOfEnrollmentsSnoc(payments, p, es);
    if exists e :: e in enrollments && e.clientId == clientId && e.id == p.enrollmentId {
      var e :| e in enrollments && e.clientId == clientId && e.id == p.enrollmentId;
      assert e in es;
      var i :| 0 <= i < |es| && es[i] == e;
    } else {
      assert forall i :: 0 <= i < |es| ==> es[i] in es;
    }
  }

  // ---------------------------------------------------------------------
  // Dashboard metrics
  // ---------------------------------------------------------------------

  /** The fixed monthly revenue goal, R$ 50.000,00 in centavos. */
  const MonthlyGoal: int := 5_000_000

  datatype DashboardMetrics = DashboardMetrics(
    totalReceived: int,
    totalPending: int,
    totalOverdue: int,
    activeClients: nat,
    newEnrollments: nat,
    monthlyGoal: int,
    medicalCertificatePending: nat)

  function Amount(p: Payment): int {
    p.amount
  }

  predicate IsPaid(p: Payment) {
    p.status == Pago
  }

  predicate IsPending(p: Payment) {
    p.status == Pendente
  }

  /** Paid, with the paid date on record: what the dashboard's activity list and the punctuality report look at. */
  predicate PaidWithDate(p: Payment) {
    p.status == Pago && p.paidOn.Some?
  }

  predicate IsActive(c: Client) {
    c.status == Ativo
  }

  /** The overdue test of getDashboardMetrics: pending, and the due date's midnight is already behind us. */
  predicate IsOverdue(p: Payment, now: Clock) {
    p.status == Pendente && MidnightHasPassed(p.due, now)
  }

  function OverdueAt(now: Clock): Payment -> bool {
    (p: Payment) => IsOverdue(p, now)
  }

  /** The enrollment started in the current month of the current year. */
  predicate StartedThisMonth(e: Enrollment, now: Clock) {
    e.start.month == now.date.month && e.start.year == now.date.year
  }

  function StartedIn(now: Clock): Enrollment -> bool {
    (e: Enrollment) => StartedThisMonth(e, now)
  }

  function CountedForCertificate(today: ValidDate): Client -> bool {
    (c: Client) => NeedsCertificateAsCounted(c, today)
  }

  /** `getDashboardMetrics`. */
  function Metrics(clients: seq<Client>, enrollments: seq<Enrollment>, payments: seq<Payment>, now: Clock): (m: DashboardMetrics)
    ensures m.activeClients <= |clients| && m.medicalCertificatePending <= |clients|
    ensures m.newEnrollments <= |enrollments|
    ensures m.monthlyGoal == MonthlyGoal
  {
    DashboardMetrics(
      Sum(Filter(payments, IsPaid), Amount),
      Sum(Filter(payments, IsPending), Amount),
      Sum(Filter(payments, OverdueAt(now)), Amount),
      |Filter(clients, IsActive)|,
      |Filter(enrollments, StartedIn(now))|,
      MonthlyGoal,
      |Filter(clients, CountedForCertificate(now.date))|)
  }

  /** With nothing stored, every total and every count is zero. */
  lemma MetricsOfNothing(now: Clock)
    ensures Metrics([], [], [], now) == DashboardMetrics(0, 0, 0, 0, 0, MonthlyGoal, 0)
  {
  }

  /**
   * One more payment adds its amount to the received total when Pago, to
   * the pending total when Pendente, and to the overdue total when overdue;
   * the three counts stay.
   */
  lemma MetricsAddPayment(clients: seq<Client>, enrollments: seq<Enrollment>, payments: seq<Payment>, p: Payment, now: Clock)
    ensures var m := Metrics(clients, enrollments, payments, now);
      var m' := Metrics(clients, enrollments, payments + [p], now);
      && m'.totalReceived == m.totalReceived + (if p.status == Pago then p.amount else 0)
      && m'.totalPending == m.totalPending + (if p.status == Pendente then p.amount else 0)
      && m'.totalOverdue == m.totalOverdue + (if IsOverdue(p, now) then p.amount else 0)
      && m'.activeClients == m.activeClients
      && m'.newEnrollments == m.newEnrollments
      && m'.medicalCertificatePending == m.medicalCertificatePending
  {
    SumFilterSnoc(payments, p, IsPaid, Amount);
    SumFilterSnoc(payments, p, IsPending, Amount);
    SumFilterSnoc(payments, p, OverdueAt(now), Amount);
  }

  /**
   * One more client adds one to the active count when Ativo, and one to
   * the certificate count when they owe a certificate; nothing else changes.
   */
  lemma MetricsAddClient(clients: seq<Client>, enrollments: seq<Enrollment>, payments: seq<Payment>, c: Client, now: Clock)
    ensures var m := Metrics(clients, enrollments, payments, now);
      var m' := Metrics(clients + [c], enrollments, payments, now);
      && m'.activeClients == m.activeClients + (if c.status == Ativo then 1 else 0)
      && m'.medicalCertificatePending == m.medicalCertificatePending + (if NeedsCertificate(c, now.date) then 1 else 0)
      && m'.totalReceived == m.totalReceived && m'.totalPending == m.totalPending && m'.totalOverdue == m.totalOverdue
      && m'.newEnrollments == m.newEnrollments
  {
    FilterLengthSnoc(clients, c, IsActive);
    FilterLengthSnoc(clients, c, CountedForCertificate(now.date));
  }

  /** One more enrollment adds one to the new-enrollment count exactly when it started this month. */
  lemma MetricsAddEnrollment(clients: seq<Client>, enrollments: seq<Enrollment>, payments: seq<Payment>, e: Enrollment, now: Clock)
    ensures var m := Metrics(clients, enrollments, payments, now);
      var m' := Metrics(clients, enrollments + [e], payments, now);
      && m'.newEnrollments == m.newEnrollments
           + (if e.start.month == now.date.month && e.start.year == now.date.year then 1 else 0)
      && m'.totalReceived == m.totalReceived && m'.totalPending == m.totalPending && m'.totalOverdue == m.totalOverdue
      && m'.activeClients == m.activeClients && m'.medicalCertificatePending == m.medicalCertificatePending
  {
    FilterLengthSnoc(enrollments, e, StartedIn(now));
  }

  /** A pending payment is counted overdue from the first millisecond of its due day on. */
  lemma OverdueIff(p: Payment, now: Clock)
    ensures IsOverdue(p, now) <==> p.status == Pendente && (Before(p.due, now.date) || (p.due == now.date && now.millis > 0))
  {
    MidnightHasPassedIff(p.due, now);
  }

  /** With non-negative amounts, the overdue total never exceeds the pending total. */
  lemma OverdueAtMostPending(clients: seq<Client>, enrollments: seq<Enrollment>, payments: seq<Payment>, now: Clock)
    requires forall p :: p in payments ==> p.amount >= 0
    ensures var m := Metrics(clients, enrollments, payments, now);
      0 <= m.totalOverdue <= m.totalPending
  {
    SumFilterMonotone(payments, OverdueAt(now), IsPending, Amount);
    forall p | p in Filter(payments, OverdueAt(now)) ensures p.amount >= 0 { }
    SumNonNegative(Filter(payments, OverdueAt(now)), Amount);
  }

  /** A payment stored as Atrasado counts in none of the three money totals. */
  lemma StoredOverdueCountsNowhere(clients: seq<Client>, enrollments: seq<Enrollment>, payments: seq<Payment>, p: Payment, now: Clock)
    requires p.status == Atrasado
    ensures var m := Metrics(clients, enrollments, payments, now);
      var m' := Metrics(clients, enrollments, payments + [p], now);
      m'.totalReceived == m.totalReceived && m'.totalPending == m.totalPending && m'.totalOverdue == m.totalOverdue
  {
    MetricsAddPayment(clients, enrollments, payments, p, now);
  }

  /** A pending instalment due today already counts as overdue once the day has begun. */
  lemma DueTodayIsOverdue(p: Payment, now: Clock)
    requires p.status == Pendente && p.due == now.date && now.millis > 0
    ensures IsOverdue(p, now)
  {
    OverdueIff(p, now);
  }

  /** The received total adds exactly the amount of one more paid payment. */
  lemma ReceivedGrowsByPaid(clients: seq<Client>, enrollments: seq<Enrollment>, payments: seq<Payment>, p: Payment, now: Clock)
    requires p.status == Pago
    ensures Metrics(clients, enrollments, payments + [p], now).totalReceived
         == Metrics(clients, enrollments, payments, now).totalReceived + p.amount
  {
    MetricsAddPayment(clients, enrollments, payments, p, now);
  }

  // ---------------------------------------------------------------------
  // Notifications
  // ---------------------------------------------------------------------

  /** `markAllNotificationsAsRead`: every notification, in order, now read. */
  function MarkAllRead(ns: seq<Notification>): (r: seq<Notification>)
    ensures |r| == |ns|
    ensures forall i :: 0 <= i < |ns| ==> r[i].read && r[i].(read := ns[i].read) == ns[i]
  {
    seq(|ns|, i requires 0 <= i < |ns| => ns[i].(read := true))
  }

  /** The notifications `deleteSelectedNotifications` keeps: those whose id is not listed. */
  function NotListed(ids: seq<int>): Notification -> bool {
    (n: Notification) => n.id !in ids
  }

  /** `deleteSelectedNotifications`: drops the notifications whose id is listed. */
  function DeleteSelected(ns: seq<Notification>, ids: seq<int>): (r: seq<Notification>)
    ensures forall n :: n in r <==> n in ns && n.id !in ids
    ensures |r| <= |ns|
  {
    Filter(ns, NotListed(ids))
  }

  lemma MarkAllReadIdempotent(ns: seq<Notification>)
    ensures MarkAllRead(MarkAllRead(ns)) == MarkAllRead(ns)
  {
  }

  /**
   * Deletion works notification by notification: a single one is kept or
   * dropped by its id, and a list splits into its parts, so the kept ones
   * stay in their order and as often as they were.
   */
  lemma DeleteSelectedPiecewise(a: seq<Notification>, b: seq<Notification>, n: Notification, ids: seq<int>)
    ensures DeleteSelected([n], ids) == if n.id in ids then [] else [n]
    ensures DeleteSelected(a + b, ids) == DeleteSelected(a, ids) + DeleteSelected(b, ids)
  {
    FilterAppend(a, b, NotListed(ids));
    assert [n][1..] == [];
  }

  /** Deleting nothing keeps the list; deleting the same ids twice is deleting them once. */
  lemma {:induction false} DeleteSelectedLaws(ns: seq<Notification>, ids: seq<int>)
    ensures DeleteSelected(ns, []) == ns
    ensures DeleteSelected(DeleteSelected(ns, ids), ids) == DeleteSelected(ns, ids)
  {
    if ns != [] {
      DeleteSelectedLaws(ns[1..], ids);
      var p := NotListed(ids);
      assert ns == [ns[0]] + ns[1..];
      FilterAppend(if p(ns[0]) then [ns[0]] else [], Filter(ns[1..], p), p);
    }
  }
}

=== FILE: dashboard.dfy ===
/**
 * The dashboard's selections: the clients owing a medical certificate, the
 * three latest payments received, the three next instalments due, the
 * client behind a payment, and the relative date label.
 */
module Dashboard {
  import opened Wrappers
  import opened Dates
  import opened Types
  import opened Seqs
  import opened Medical
  import opened DataContext

  // ---------------------------------------------------------------------
  // Medical certificates
  // ---------------------------------------------------------------------

  /**
   * The dashboard's copy of the certificate rule: a missing birth date or
   * a client who is not Ativo rules the client out; otherwise the
   * birthday-adjusted age must exceed forty with no certificate on file.
   */
  function NeedsCertificateOnDashboard(c: Client, today: ValidDate): (flag: bool)
    ensures flag <==> c.status == Ativo && NeedsCertificate(c, today)
  {
    if c.birthDate.None? || c.status != Ativo then false
    else
      var b := c.birthDate.value;
      var age := today.year - b.year;
      var monthDiff := today.month - b.month;
      var actualAge := if monthDiff < 0 || (monthDiff == 0 && today.day < b.day) then age - 1 else age;
      actualAge > 40 && (c.certificate.None? || c.certificate.value == "")
  }

  /** `clientsNeedingMedicalCertificate`, in client order. */
  function CertificateList(clients: seq<Client>, today: ValidDate): (r: seq<Client>)
    ensures forall c :: c in r <==> c in clients && c.status == Ativo && NeedsCertificate(c, today)
  {
    Filter(clients, (c: Client) => NeedsCertificateOnDashboard(c, today))
  }

  /** At most five names are listed. */
  const ShownNames: nat := 5

  /** The "+N outros alunos" note: present only when more than five clients are flagged. */
  function OverflowNote(flagged: seq<Client>): (note: Option<nat>)
    ensures note.Some? <==> |flagged| > ShownNames
    ensures |Take(flagged, ShownNames)| + note.GetOr(0) == |flagged|
  {
    if |flagged| > ShownNames then Some(|flagged| - ShownNames) else None
  }

  // ---------------------------------------------------------------------
  // Recent and upcoming payments
  // ---------------------------------------------------------------------

  /** The day number of the paid date (0 stands in for a payment without one; they are filtered out first). */
  function PaidDay(p: Payment): int {
    if p.paidOn.Some? then DayNumber(p.paidOn.value) else 0
  }

  /** The sort key of the recent list: later paid dates first. */
  function PaidKey(p: Payment): int {
    -PaidDay(p)
  }

  /** The sort key of the upcoming list: earlier due dates first. */
  function DueKey(p: Payment): int {
    DayNumber(p.due)
  }

  /**
   * `recentActivities`: paid payments with a paid date, latest first, at
   * most three; any such payment left out was paid no later than each one shown.
   */
  function Recent(payments: seq<Payment>): (r: seq<Payment>)
    ensures |r| == if |Filter(payments, PaidWithDate)| < 3 then |Filter(payments, PaidWithDate)| else 3
    ensures multiset(r) <= multiset(Filter(payments, PaidWithDate))
    ensures forall i :: 0 <= i < |r| ==> r[i] in payments && PaidWithDate(r[i])
    ensures forall i, j :: 0 <= i < j < |r| ==> PaidDay(r[j]) <= PaidDay(r[i])
    ensures forall y :: y in payments && PaidWithDate(y) ==>
      y in r || forall z :: z in r ==> PaidDay(y) <= PaidDay(z)
  {
    var paid := Filter(payments, PaidWithDate);
    var r := SmallestN(paid, PaidKey, 3);
    LatestFirst(payments, paid, r);
    r
  }

  /** Ascending in PaidKey is latest paid date first, over the payments paid with a date. */
  lemma LatestFirst(payments: seq<Payment>, paid: seq<Payment>, r: seq<Payment>)
    requires forall x :: x in paid <==> x in payments && PaidWithDate(x)
    requires SortedBy(r, PaidKey)
    requires forall x :: x in r ==> x in paid
    requires forall y :: y in paid ==> y in r || forall z :: z in r ==> PaidKey(z) <= PaidKey(y)
    ensures forall i :: 0 <= i < |r| ==> r[i] in payments && PaidWithDate(r[i])
    ensures forall i, j :: 0 <= i < j < |r| ==> PaidDay(r[j]) <= PaidDay(r[i])
    ensures forall y :: y in payments && PaidWithDate(y) ==> y in r || forall z :: z in r ==> PaidDay(y) <= PaidDay(z)
  {
    assert forall i :: 0 <= i < |r| ==> r[i] in r;
    assert forall i, j :: 0 <= i < j < |r| ==> PaidKey(r[i]) <= PaidKey(r[j]);
  }

  /** Paid on the day with that day number. */
  function PaidOnDay(d: int): Payment -> bool {
    (p: Payment) => PaidDay(p) == d
  }

  /** Payments paid on the same day are shown in stored order, and only the earliest stored of them make the cut. */
  lemma RecentSameDayInStoredOrder(payments: seq<Payment>, d: int)
    ensures Filter(Recent(payments), PaidOnDay(d)) <= Filter(Filter(payments, PaidWithDate), PaidOnDay(d))
  {
    var paid := Filter(payments, PaidWithDate);
    assert Recent(payments) == SmallestN(paid, PaidKey, 3);
    SmallestNTies(paid, PaidKey, 3, -d, PaidOnDay(d));
  }

  /**
   * `upcomingPayments`: pending payments, earliest due first, at most
   * three; any pending payment left out falls due no earlier than each one shown.
   */
  function Upcoming(payments: seq<Payment>): (r: seq<Payment>)
    ensures |r| == if |Filter(payments, IsPending)| < 3 then |Filter(payments, IsPending)| else 3
    ensures multiset(r) <= multiset(Filter(payments, IsPending))
    ensures forall p :: p in r ==> p in payments && p.status == Pendente
    ensures forall i, j :: 0 <= i < j < |r| ==> DayNumber(r[i].due) <= DayNumber(r[j].due)
    ensures forall y :: y in payments && y.status == Pendente ==>
      y in r || forall z :: z in r ==> DayNumber(z.due) <= DayNumber(y.due)
  {
    var pending := Filter(payments, IsPending);
    var r := SmallestN(pending, DueKey, 3);
    EarliestFirst(payments, pending, r);
    r
  }

  /** Ascending in DueKey is earliest due date first, over the pending payments. */
  lemma EarliestFirst(payments: seq<Payment>, pending: seq<Payment>, r: seq<Payment>)
    requires forall x :: x in pending <==> x in payments && IsPending(x)
    requires SortedBy(r, DueKey)
    requires forall x :: x in r ==> x in pending
    requires forall y :: y in pending ==> y in r || forall z :: z in r ==> DueKey(z) <= DueKey(y)
    ensures forall p :: p in r ==> p in payments && p.status == Pendente
    ensures forall i, j :: 0 <= i < j < |r| ==> DayNumber(r[i].due) <= DayNumber(r[j].due)
    ensures forall y :: y in payments && y.status == Pendente ==> y in r || forall z :: z in r ==> DayNumber(z.due) <= DayNumber(y.due)
  {
    assert forall i, j :: 0 <= i < j < |r| ==> DueKey(r[i]) <= DueKey(r[j]);
  }

  /** Due on the day with that day number. */
  function DueOnDay(d: int): Payment -> bool {
    (p: Payment) => DayNumber(p.due) == d
  }

  /** Pending payments due on the same day are shown in stored order, and only the earliest stored of them make the cut. */
  lemma UpcomingSameDayInStoredOrder(payments: seq<Payment>, d: int)
    ensures Filter(Upcoming(payments), DueOnDay(d)) <= Filter(Filter(payments, IsPending), DueOnDay(d))
  {
    var pending := Filter(payments, IsPending);
    assert Upcoming(payments) == SmallestN(pending, DueKey, 3);
    SmallestNTies(pending, DueKey, 3, d, DueOnDay(d));
  }

  // ---------------------------------------------------------------------
  // From a payment to its client
  // ---------------------------------------------------------------------

  /**
   * `getClientByPaymentId`: the first payment with the id, the first
   * enrollment it is billed to, and the first client of that enrollment;
   * nothing as soon as one of the three is missing.
   */
  function ClientByPaymentId(clients: seq<Client>, enrollments: seq<Enrollment>, payments: seq<Payment>, paymentId: int): (r: Option<Client>)
    ensures r.Some? ==> r.value in clients && exists p, e ::
      (p in payments && e in enrollments && p.id == paymentId && e.id == p.enrollmentId && e.clientId == r.value.id)
    ensures (forall i :: 0 <= i < |payments| ==> payments[i].id != paymentId) ==> r.None?
    ensures r.None? <==> (var p := PaymentById(payments, paymentId);
      p.None? || EnrollmentById(enrollments, p.value.enrollmentId).None?
      || ClientById(clients, EnrollmentById(enrollments, p.value.enrollmentId).value.clientId).None?)
  {
    match PaymentById(payments, paymentId)
    case None => None
    case Some(p) =>
      match EnrollmentById(enrollments, p.enrollmentId)
      case None => None
      case Some(e) => ClientById(clients, e.clientId)
  }

  /** With unique ids, the client of a stored payment's enrollment is found from the payment's id. */
  lemma ClientByPaymentIdFinds(clients: seq<Client>, enrollments: seq<Enrollment>, payments: seq<Payment>,
                               c: Client, e: Enrollment, p: Payment)
    requires UniqueClientIds(clients) && UniqueEnrollmentIds(enrollments) && UniquePaymentIds(payments)
    requires p in payments && e in enrollments && c in clients
    requires p.enrollmentId == e.id && e.clientId == c.id
    ensures ClientByPaymentId(clients, enrollments, payments, p.id) == Some(c)
  {
    PaymentByIdFinds(payments, p);
    EnrollmentByIdFinds(enrollments, e);
    ClientByIdFinds(clients, c);
  }

  // ---------------------------------------------------------------------
  // Relative dates
  // ---------------------------------------------------------------------

  /** What `formatDate` shows: "Hoje", "Amanhã", "Em N dias", or the date itself. */
  datatype DateLabel = Today | Tomorrow | InDays(n: int) | FullDate(d: ValidDate)

  /** `formatDate` of the dashboard: the label for the whole-day distance from now to the date. */
  function RelativeLabel(d: ValidDate, now: Clock): (l: DateLabel)
    ensures l.Today? <==> d == now.date
    ensures l.Tomorrow? <==> DayNumber(d) == DayNumber(now.date) + 1
    ensures l.InDays? ==> 2 <= l.n <= 7 && l.n == DayNumber(d) - DayNumber(now.date)
    ensures l.FullDate? <==> (Before(d, now.date) || DayNumber(d) > DayNumber(now.date) + 7)
  {
    DaysUntilIsCalendarDifference(d, now);
    BeforeIffEarlierDayNumber(d, now.date);
    DayNumberEqualIff(d, now.date);
    var diffDays := DaysUntil(d, now);
    if diffDays == 0 then Today
    else if diffDays == 1 then Tomorrow
    else if diffDays > 1 && diffDays <= 7 then InDays(diffDays)
    else FullDate(d)
  }
}

=== FILE: dates.dfy ===
/**
 * Civil calendar dates as the application stores them ('YYYY-MM-DD'), the
 * day count that JavaScript's `getTime()` orders them by, the month
 * arithmetic of `Date.prototype.setMonth`, and the current instant.
 */
module Dates {

  datatype Date = Date(year: int, month: int, day: int)

  predicate IsLeapYear(y: int) {
    y % 4 == 0 && (y % 100 != 0 || y % 400 == 0)
  }

  function DaysInMonth(y: int, m: int): (n: int)
    ensures 28 <= n <= 31
  {
    if m == 2 then (if IsLeapYear(y) then 29 else 28)
    else if m == 4 || m == 6 || m == 9 || m == 11 then 30
    else 31
  }

  function DaysInYear(y: int): int {
    if IsLeapYear(y) then 366 else 365
  }

  predicate IsValid(d: Date) {
    1 <= d.month <= 12 && 1 <= d.day <= DaysInMonth(d.year, d.month)
  }

  /** A date that exists in the proleptic Gregorian calendar. */
  type ValidDate = d: Date | IsValid(d) witness Date(1970, 1, 1)

  /** Strict calendar order: by year, then month, then day. */
  predicate Before(a: Date, b: Date) {
    a.year < b.year
    || (a.year == b.year && (a.month < b.month || (a.month == b.month && a.day < b.day)))
  }

  predicate OnOrBefore(a: Date, b: Date) {
    a == b || Before(a, b)
  }

  // ---------------------------------------------------------------------
  // Day numbers: the count of days since 0001-01-01, which orders dates the
  // way the millisecond timestamps of their UTC midnights do.
  // ---------------------------------------------------------------------

  function DaysBeforeYear(y: int): int {
    var p := y - 1;
    365 * p + p / 4 - p / 100 + p / 400
  }

  function DaysBeforeMonth(y: int, m: int): int {
    (if IsLeapYear(y) && m > 2 then 1 else 0)
    + (if m <= 1 then 0 else if m == 2 then 31 else if m == 3 then 59
       else if m == 4 then 90 else if m == 5 then 120 else if m == 6 then 151
       else if m == 7 then 181 else if m == 8 then 212 else if m == 9 then 243
       else if m == 10 then 273 else if m == 11 then 304 else if m == 12 then 334
       else 365)
  }

  function DayNumber(d: Date): int {
    DaysBeforeYear(d.year) + DaysBeforeMonth(d.year, d.month) + d.day - 1
  }

  lemma DaysBeforeMonthStep(y: int, m: int)
    requires 1 <= m <= 12
    ensures DaysBeforeMonth(y, m + 1) == DaysBeforeMonth(y, m) + DaysInMonth(y, m)
  {
  }

  lemma QuarterStep(y: int)
    ensures y / 4 - (y - 1) / 4 == if y % 4 == 0 then 1 else 0
  {
  }

  lemma CenturyStep(y: int)
    ensures y / 100 - (y - 1) / 100 == if y % 100 == 0 then 1 else 0
  {
  }

  lemma FourCenturyStep(y: int)
    ensures y / 400 - (y - 1) / 400 == if y % 400 == 0 then 1 else 0
  {
  }

  lemma CenturyIsQuarter(y: int)
    requires y % 100 == 0
    ensures y % 4 == 0
  {
    var q := y / 100;
    assert y == 100 * q;
    assert y == 4 * (25 * q);
  }

  lemma FourCenturyIsCentury(y: int)
    requires y % 400 == 0
    ensures y % 100 == 0
  {
    var q := y / 400;
    assert y == 400 * q;
    assert y == 100 * (4 * q);
  }

  /** A year adds exactly its own length to the running day count (leap-year rule of the Gregorian calendar). */
  lemma {:induction false} DaysBeforeYearStep(y: int)
    ensures DaysBeforeYear(y + 1) == DaysBeforeYear(y) + DaysInYear(y)
  {
    QuarterStep(y);
    CenturyStep(y);
    FourCenturyStep(y);
    if y % 400 == 0 {
      FourCenturyIsCentury(y);
      CenturyIsQuarter(y);
    } else if y % 100 == 0 {
      CenturyIsQuarter(y);
    }
  }

  lemma {:induction false} DaysBeforeYearMonotone(a: int, b: int)
    requires a < b
    ensures DaysBeforeYear(a) + DaysInYear(a) <= DaysBeforeYear(b)
    decreases b - a
  {
    DaysBeforeYearStep(a);
    if a + 1 < b {
      DaysBeforeYearMonotone(a + 1, b);
    }
  }

  /** Calendar order and day-number order agree on valid dates, so comparing timestamps compares calendar dates. */
  lemma {:induction false} BeforeIffEarlierDayNumber(a: ValidDate, b: ValidDate)
    ensures Before(a, b) <==> DayNumber(a) < DayNumber(b)
  {
    if Before(a, b) {
      EarlierDayNumber(a, b);
    } else if a != b {
      assert Before(b, a);
      EarlierDayNumber(b, a);
    }
  }

  lemma {:induction false} EarlierDayNumber(a: ValidDate, b: ValidDate)
    requires Before(a, b)
    ensures DayNumber(a) < DayNumber(b)
  {
    DaysBeforeMonthStep(a.year, a.month);
    if a.year < b.year {
      DaysBeforeYearMonotone(a.year, b.year);
    }
  }

  /** Distinct valid dates have distinct day numbers. */
  lemma DayNumberInjective(a: ValidDate, b: ValidDate)
    requires DayNumber(a) == DayNumber(b)
    ensures a == b
  {
    BeforeIffEarlierDayNumber(a, b);
    BeforeIffEarlierDayNumber(b, a);
  }

  // ---------------------------------------------------------------------
  // Month arithmetic
  // ---------------------------------------------------------------------

  /** Months counted from January of year 0, so that consecutive months differ by one. */
  function MonthIndex(y: int, m: int): int {
    y * 12 + (m - 1)
  }

  function YearOfIndex(n: int): int {
    n / 12
  }

  function MonthOfIndex(n: int): (m: int)
    ensures 1 <= m <= 12
  {
    n % 12 + 1
  }

  lemma MonthIndexRoundTrip(n: int)
    ensures MonthIndex(YearOfIndex(n), MonthOfIndex(n)) == n
  {
  }

  lemma IndexOfMonthRoundTrip(y: int, m: int)
    requires 1 <= m <= 12
    ensures YearOfIndex(MonthIndex(y, m)) == y && MonthOfIndex(MonthIndex(y, m)) == m
  {
  }

  function FirstOfMonth(n: int): ValidDate {
    Date(YearOfIndex(n), MonthOfIndex(n), 1)
  }

  /**
   * `new Date(d)` followed by `setMonth(getMonth() + k)`: the month moves by
   * k (carrying into the year), the day of the month is kept, and a day the
   * target month does not have rolls over into the following month.
   */
  function AddMonths(d: ValidDate, k: int): (r: ValidDate)
    ensures var n := MonthIndex(d.year, d.month) + k;
      if d.day <= DaysInMonth(YearOfIndex(n), MonthOfIndex(n))
      then MonthIndex(r.year, r.month) == n && r.day == d.day
      else MonthIndex(r.year, r.month) == n + 1 && r.day < d.day
  {
    var n := MonthIndex(d.year, d.month) + k;
    var y := YearOfIndex(n);
    var m := MonthOfIndex(n);
    if d.day <= DaysInMonth(y, m) then
      Date(y, m, d.day)
    else
      MonthIndexRoundTrip(n + 1);
      Date(YearOfIndex(n + 1), MonthOfIndex(n + 1), d.day - DaysInMonth(y, m))
  }

  lemma DayNumberOfFirst(n: int)
    ensures DayNumber(FirstOfMonth(n)) == DaysBeforeYear(YearOfIndex(n)) + DaysBeforeMonth(YearOfIndex(n), MonthOfIndex(n))
  {
  }

  /**
   * The JavaScript engine computes the shifted date as "the first of the
   * target month, plus day - 1 days" (MakeDay in ECMA-262); AddMonths is
   * exactly that day.
   */
  lemma {:induction false} AddMonthsCountsDaysFromFirst(d: ValidDate, k: int)
    ensures DayNumber(AddMonths(d, k)) == DayNumber(FirstOfMonth(MonthIndex(d.year, d.month) + k)) + d.day - 1
  {
    var n := MonthIndex(d.year, d.month) + k;
    var y := YearOfIndex(n);
    var m := MonthOfIndex(n);
    var first := DaysBeforeYear(y) + DaysBeforeMonth(y, m);
    DayNumberOfFirst(n);
    if d.day > DaysInMonth(y, m) {
      // December has 31 days, so only months before it can overflow.
      assert m < 12;
      MonthIndexRoundTrip(n + 1);
      assert YearOfIndex(n + 1) == y && MonthOfIndex(n + 1) == m + 1;
      assert AddMonths(d, k) == Date(y, m + 1, d.day - DaysInMonth(y, m));
      DaysBeforeMonthStep(y, m);
      assert DayNumber(AddMonths(d, k)) == first + d.day - 1;
    } else {
      assert AddMonths(d, k) == Date(y, m, d.day);
    }
  }

  lemma AddMonthsZero(d: ValidDate)
    ensures AddMonths(d, 0) == d
  {
    IndexOfMonthRoundTrip(d.year, d.month);
  }

  /** Calendar order of valid dates through their month index. */
  lemma MonthIndexOrder(a: ValidDate, b: ValidDate)
    ensures MonthIndex(a.year, a.month) < MonthIndex(b.year, b.month) ==> Before(a, b)
    ensures MonthIndex(a.year, a.month) == MonthIndex(b.year, b.month) ==> a.year == b.year && a.month == b.month
  {
  }

  /** Moving further forward in months never lands on an earlier or equal date. */
  lemma {:induction false} AddMonthsStrictlyIncreasing(d: ValidDate, j: int, k: int)
    requires j < k
    ensures Before(AddMonths(d, j), AddMonths(d, k))
  {
    var a := AddMonths(d, j);
    var b := AddMonths(d, k);
    MonthIndexOrder(a, b);
  }

  // ---------------------------------------------------------------------
  // The current instant
  // ---------------------------------------------------------------------

  const MillisPerDay: int := 86_400_000

  /** `new Date()`: a UTC calendar date and the milliseconds elapsed since its midnight. */
  datatype Instant = Instant(date: ValidDate, millis: int)

  type Clock = i: Instant | 0 <= i.millis < MillisPerDay witness Instant(Date(1970, 1, 1), 0)

  /** `getTime()` of a date-only string (parsed as UTC midnight), up to a constant epoch offset. */
  function MidnightTime(d: Date): int {
    DayNumber(d) * MillisPerDay
  }

  /** `getTime()` of the current instant, on the same scale as MidnightTime. */
  function NowTime(now: Clock): int {
    DayNumber(now.date) * MillisPerDay + now.millis
  }

  /** `new Date(d) < new Date()`: the date's midnight has already passed. */
  predicate MidnightHasPassed(d: ValidDate, now: Clock) {
    MidnightTime(d) < NowTime(now)
  }

  /** Valid dates are equal exactly when their day numbers are. */
  lemma DayNumberEqualIff(a: ValidDate, b: ValidDate)
    ensures DayNumber(a) == DayNumber(b) <==> a == b
  {
    if DayNumber(a) == DayNumber(b) {
      DayNumberInjective(a, b);
    }
  }

  /**
   * A date's midnight has passed exactly when the date is before today, or is
   * today and the day has begun; so a date equal to today counts after 00:00.
   */
  lemma MidnightHasPassedIff(d: ValidDate, now: Clock)
    ensures MidnightHasPassed(d, now) <==> Before(d, now.date) || (d == now.date && now.millis > 0)
  {
    BeforeIffEarlierDayNumber(d, now.date);
    if DayNumber(d) == DayNumber(now.date) {
      DayNumberInjective(d, now.date);
    }
  }

  /** `Math.ceil(x / y)` for a positive divisor. */
  function CeilDiv(x: int, y: int): (q: int)
    requires y > 0
    ensures (q - 1) * y < x <= q * y
  {
    -((-x) / y)
  }

  /** `Math.ceil((new Date(d).getTime() - new Date().getTime()) / (1000 * 60 * 60 * 24))`. */
  function DaysUntil(d: ValidDate, now: Clock): int {
    CeilDiv(MidnightTime(d) - NowTime(now), MillisPerDay)
  }

  /** Rounding up the fractional day makes the difference a plain count of calendar days. */
  lemma DaysUntilIsCalendarDifference(d: ValidDate, now: Clock)
    ensures DaysUntil(d, now) == DayNumber(d) - DayNumber(now.date)
  {
    var x := MidnightTime(d) - NowTime(now);
    var k := DayNumber(d) - DayNumber(now.date);
    assert x == k * MillisPerDay - now.millis;
    var q := DaysUntil(d, now);
    assert (q - 1) * MillisPerDay < x <= q * MillisPerDay;
    assert (q - 1) * MillisPerDay < k * MillisPerDay;
    assert (k - 1) * MillisPerDay < q * MillisPerDay;
  }
}

=== FILE: enrollment_form.dfy ===
/**
 * The new-enrollment form: its initial values, the number inputs'
 * fallbacks, the required-field check on submit, the request it hands
 * on, and the reset after a successful submit.
 */
module EnrollmentForm {
  import opened Wrappers
  import opened Dates
  import opened Types
  import opened Text
  import Billing

  /** The form's fields; an unset start date or selection is None (the form holds ""). */
  datatype FormState = FormState(
    start: Option<ValidDate>,
    mode: Option<TrainingMode>,
    weeklyFrequency: int,
    durationMonths: int,
    fee: int,
    recurrence: Option<Recurrence>)

  /** Nothing chosen, once a week, one month, no fee. */
  const Initial := FormState(None, None, 1, 1, 0, None)

  const ValidationError := "Por favor, preencha todos os campos obrigatórios."

  /**
   * The duration input's handler: `parseInt(text) || 1`. Text without a
   * leading number and a parsed 0 both become 1; anything after the
   * digits is ignored.
   */
  function DurationInput(text: string): (r: int)
    ensures r != 0
    ensures ParseInt(text).Some? && ParseInt(text).value != 0 ==> r == ParseInt(text).value
    ensures ParseInt(text).None? || ParseInt(text).value == 0 ==> r == 1
  {
    match ParseInt(text)
    case Some(v) => if v != 0 then v else 1
    case None => 1
  }

  /** A typed positive numeral is taken as is. */
  lemma DurationInputTakesNumeral(n: nat)
    requires n > 0
    ensures DurationInput(Decimal(n)) == n
  {
    ParseIntOfDecimal(n, "");
    assert Decimal(n) + "" == Decimal(n);
  }

  /** An empty input or "0" gives one month; "2.5" gives 2. */
  lemma DurationInputExamples()
    ensures DurationInput("") == 1
    ensures DurationInput("0") == 1
    ensures DurationInput("2.5") == 2
  {
    assert Decimal(0) == "0" && Decimal(2) == "2";
    ParseIntOfDecimal(0, "");
    assert "0" + "" == "0";
    ParseIntOfDecimal(2, ".5");
    assert "2" + ".5" == "2.5";
  }

  /**
   * The fee input's handler, `parseFloat(text) || 0`, given the amount the
   * text denotes in centavos (None for NaN): a missing or zero amount is 0.
   */
  function FeeInput(amount: Option<int>): (r: int)
    ensures amount.None? ==> r == 0
    ensures amount.Some? ==> r == amount.value
  {
    amount.GetOr(0)
  }

  /** `handleInputChange` for the two number inputs. */
  function SetDuration(f: FormState, text: string): FormState {
    f.(durationMonths := DurationInput(text))
  }

  function SetFee(f: FormState, amount: Option<int>): FormState {
    f.(fee := FeeInput(amount))
  }

  /** The form passes its check: start date, mode and recurrence chosen and a positive fee. */
  predicate Complete(f: FormState) {
    f.start.Some? && f.mode.Some? && f.recurrence.Some? && f.fee > 0
  }

  /**
   * `handleSubmit`: refused with the validation toast unless every
   * required field is set and the fee is positive; otherwise the request
   * carries the form's values and the client's id, unchanged.
   */
  function Submit(f: FormState, client: Client): (r: Result<EnrollmentRequest, string>)
    ensures r.Success? <==> Complete(f)
    ensures r.Failure? ==> r.error == ValidationError
    ensures (r.Success? ==>
      r.value.clientId == client.id
      && Some(r.value.start) == f.start && Some(r.value.mode) == f.mode
      && Some(r.value.recurrence) == f.recurrence
      && r.value.weeklyFrequency == f.weeklyFrequency
      && r.value.durationMonths == f.durationMonths
      && r.value.fee == f.fee && r.value.fee > 0)
  {
    if !Complete(f) then Failure(ValidationError)
    else Success(EnrollmentRequest(client.id, f.start.value, f.mode.value, f.weeklyFrequency,
                                   f.durationMonths, f.fee, f.recurrence.value))
  }

  /**
   * The browser's own constraint check, run before `handleSubmit`: the
   * `required` start date is set, the duration input (`min` 1, `max` 24)
   * holds a number in range, and the fee input (`min` 0, `required`) is
   * neither negative nor shown empty, which it is for a fee of 0. A fee
   * in whole centavos always meets the input's `step` of 0.01.
   */
  predicate NativeValid(f: FormState) {
    f.start.Some? && 1 <= f.durationMonths <= 24 && f.fee > 0
  }

  /**
   * Pressing the submit button: None when the browser stops the submit
   * (no toast, `handleSubmit` does not run), otherwise `handleSubmit`'s
   * verdict. A request goes out exactly when the form is complete and its
   * duration lies between 1 and 24 months.
   */
  function SubmitInBrowser(f: FormState, client: Client): (r: Option<Result<EnrollmentRequest, string>>)
    ensures r.None? <==> !NativeValid(f)
    ensures (r.Some? && r.value.Success?) <==> Complete(f) && 1 <= f.durationMonths <= 24
    ensures r.Some? && r.value.Success? ==> 1 <= r.value.value.durationMonths <= 24
    ensures r.Some? && r.value.Success? ==> Submit(f, client) == r.value
    ensures r.Some? && r.value.Failure? ==> r.value.error == ValidationError
  {
    if !NativeValid(f) then None else Some(Submit(f, client))
  }

  /**
   * A complete form with a duration of 30 or -3 months passes
   * `handleSubmit`'s own check, but the browser stops it first.
   */
  lemma BrowserRefusesOutOfRangeDuration(f: FormState, client: Client)
    requires Complete(f)
    ensures Submit(f.(durationMonths := 30), client).Success?
    ensures SubmitInBrowser(f.(durationMonths := 30), client).None?
    ensures Submit(f.(durationMonths := -3), client).Success?
    ensures SubmitInBrowser(f.(durationMonths := -3), client).None?
  {
  }

  /** The form after pressing submit: reset after a request went out, untouched after the toast. */
  function AfterSubmit(f: FormState, client: Client): (r: FormState)
    ensures Submit(f, client).Success? ==> r == Initial
    ensures Submit(f, client).Failure? ==> r == f
  {
    if Submit(f, client).Success? then Initial else f
  }

  /** The untouched form, and so every form just after a submit went out, is refused. */
  lemma ResetFormIsRefused(f: FormState, client: Client)
    ensures Submit(Initial, client).Failure?
    ensures Submit(AfterSubmit(f, client), client).Failure?
  {
  }

  /** An empty or unparseable fee always leaves the form refused. */
  lemma MissingFeeIsRefused(f: FormState, client: Client)
    ensures Submit(SetFee(f, None), client).Failure?
    ensures Submit(SetFee(f, Some(0)), client).Failure?
  {
  }

  /**
   * A submitted request is stored with the end date computed from its
   * start and duration and the status Ativa, and its schedule holds one
   * instalment per billing period.
   */
  lemma SubmittedRequestIsStoredActive(f: FormState, client: Client)
    requires Submit(f, client).Success?
    ensures (var req := Submit(f, client).value;
             var stored := Billing.CompleteEnrollment(req);
             stored.request == req && stored.status == Ativa
             && stored.end == Billing.ContractEnd(f.start.value, f.durationMonths)
             && stored.request.clientId == client.id)
  {
  }
}

=== FILE: enrollment_list.dfy ===
/**
 * The enrollment list: search by client name with a status filter, the
 * "expiring soon" mark on each card, and the update forwarded from the
 * details dialog. Its badge colours are `EnrollmentModal.StatusTone`.
 */
module EnrollmentList {
  import opened Wrappers
  import opened Dates
  import opened Types
  import opened Seqs
  import opened Text
  import opened DataContext
  import ClientProfile

  /** The status select: "all", or one status. */
  datatype StatusChoice = AllStatuses | OnlyStatus(status: EnrollmentStatus)

  /** The enrollment's client exists and its name contains the term, ignoring case. */
  predicate MatchesSearch(e: Enrollment, clients: seq<Client>, term: string) {
    var c := ClientById(clients, e.clientId);
    c.Some? && IncludesIgnoringCase(c.value.name, term)
  }

  predicate MatchesStatus(e: Enrollment, choice: StatusChoice) {
    choice.AllStatuses? || e.status == choice.status
  }

  /** `filteredEnrollments`: the enrollments matching both the search and the status, in stored order. */
  function FilteredEnrollments(es: seq<Enrollment>, clients: seq<Client>, term: string, choice: StatusChoice): (r: seq<Enrollment>)
    ensures forall e :: e in r <==> e in es && MatchesSearch(e, clients, term) && MatchesStatus(e, choice)
    ensures |r| <= |es|
  {
    Filter(es, (e: Enrollment) => MatchesSearch(e, clients, term) && MatchesStatus(e, choice))
  }

  /** An enrollment whose client is not loaded is never listed, not even for an empty search. */
  lemma UnknownClientNeverListed(es: seq<Enrollment>, clients: seq<Client>, term: string, choice: StatusChoice, e: Enrollment)
    requires forall c :: c in clients ==> c.id != e.clientId
    ensures e !in FilteredEnrollments(es, clients, term, choice)
  {
  }

  /** With an empty search and "all", exactly the enrollments of loaded clients are listed, in order. */
  lemma EmptySearchListsKnownClients(es: seq<Enrollment>, clients: seq<Client>)
    ensures (FilteredEnrollments(es, clients, "", AllStatuses)
             == Filter(es, (e: Enrollment) => ClientById(clients, e.clientId).Some?))
  {
    forall e | e in es
      ensures (MatchesSearch(e, clients, "") && MatchesStatus(e, AllStatuses)) == ClientById(clients, e.clientId).Some?
    {
      var c := ClientById(clients, e.clientId);
      if c.Some? {
        IncludesEmpty(ToLower(c.value.name));
      }
    }
    FilterCongruent(es, (e: Enrollment) => MatchesSearch(e, clients, "") && MatchesStatus(e, AllStatuses),
                        (e: Enrollment) => ClientById(clients, e.clientId).Some?);
  }

  /** `isExpiringSoon`: the end date is between 1 and 15 days away, rounding the difference up. */
  predicate ExpiringSoon(e: Enrollment, now: Clock) {
    var days := DaysUntil(e.end, now);
    0 < days <= 15
  }

  /**
   * In calendar terms: the contract ends after today and at most fifteen
   * days from today. An enrollment ending today is not marked.
   */
  lemma ExpiringSoonIff(e: Enrollment, now: Clock)
    ensures ExpiringSoon(e, now) <==> (Before(now.date, e.end) && DayNumber(e.end) <= DayNumber(now.date) + 15)
    ensures e.end == now.date ==> !ExpiringSoon(e, now)
  {
    DaysUntilIsCalendarDifference(e.end, now);
    BeforeIffEarlierDayNumber(now.date, e.end);
  }

  /** What `handleUpdateEnrollment` sends: the id to update and the record, which also becomes the selection. */
  datatype UpdateCall = UpdateCall(id: int, record: Enrollment)

  function ForwardUpdate(updated: Enrollment): (r: UpdateCall)
    ensures r.id == r.record.id
    ensures r.record == updated
  {
    UpdateCall(updated.id, updated)
  }

  /**
   * Applying a forwarded update to a list replaces every entry with the
   * record's id by the record and nothing else.
   */
  lemma ForwardedUpdateReplacesOnlyThatRecord(es: seq<Enrollment>, updated: Enrollment, i: int)
    requires 0 <= i < |es|
    ensures (var call := ForwardUpdate(updated);
             var r := ClientProfile.ReplaceById(es, call.record);
             |r| == |es| && (es[i].id == call.id ==> r[i] == updated) && (es[i].id != call.id ==> r[i] == es[i]))
  {
  }
}

=== FILE: enrollment_modal.dfy ===
/**
 * The enrollment details dialog: an edit buffer copied from the record,
 * field changes applied to the copy, a save that demands a non-blank
 * change note, cancel, delete, and the status badge colour.
 */
module EnrollmentModal {
  import opened Wrappers
  import opened Dates
  import opened Types
  import opened Text

  /** One change made through an input of the edit form. The end date has no input. */
  datatype FieldEdit =
    | SetStart(start: ValidDate)
    | SetMode(mode: TrainingMode)
    | SetFrequency(frequency: int)
    | SetDuration(duration: int)
    | SetFee(fee: int)
    | SetRecurrence(recurrence: Recurrence)

  /** A field change lands on its own field and leaves every other field of the copy alone. */
  function ApplyEdit(e: Enrollment, f: FieldEdit): (r: Enrollment)
    ensures r.id == e.id && r.clientId == e.clientId && r.end == e.end
    ensures r.status == e.status && r.changeNote == e.changeNote
    ensures f.SetStart? ==> r == e.(start := f.start)
    ensures f.SetMode? ==> r == e.(mode := f.mode)
    ensures f.SetFrequency? ==> r == e.(weeklyFrequency := f.frequency)
    ensures f.SetDuration? ==> r == e.(durationMonths := f.duration)
    ensures f.SetFee? ==> r == e.(fee := f.fee)
    ensures f.SetRecurrence? ==> r == e.(recurrence := f.recurrence)
  {
    match f
    case SetStart(d) => e.(start := d)
    case SetMode(m) => e.(mode := m)
    case SetFrequency(n) => e.(weeklyFrequency := n)
    case SetDuration(n) => e.(durationMonths := n)
    case SetFee(n) => e.(fee := n)
    case SetRecurrence(k) => e.(recurrence := k)
  }

  /** Field changes in the order they were made. */
  function ApplyEdits(e: Enrollment, edits: seq<FieldEdit>): Enrollment
    decreases |edits|
  {
    if edits == [] then e else ApplyEdits(ApplyEdit(e, edits[0]), edits[1..])
  }

  /** The value the latest edit that `pick` recognises gave, if any edit did. */
  function Latest<T>(edits: seq<FieldEdit>, pick: FieldEdit -> Option<T>): Option<T>
    decreases |edits|
  {
    if edits == [] then None
    else match Latest(edits[1..], pick)
      case Some(v) => Some(v)
      case None => pick(edits[0])
  }

  function StartOf(f: FieldEdit): Option<ValidDate> { if f.SetStart? then Some(f.start) else None }
  function ModeOf(f: FieldEdit): Option<TrainingMode> { if f.SetMode? then Some(f.mode) else None }
  function FrequencyOf(f: FieldEdit): Option<int> { if f.SetFrequency? then Some(f.frequency) else None }
  function DurationOf(f: FieldEdit): Option<int> { if f.SetDuration? then Some(f.duration) else None }
  function FeeOf(f: FieldEdit): Option<int> { if f.SetFee? then Some(f.fee) else None }
  function RecurrenceOf(f: FieldEdit): Option<Recurrence> { if f.SetRecurrence? then Some(f.recurrence) else None }

  /** The record with each editable field taken from its latest edit; the other fields are e's. */
  function Overridden(e: Enrollment, edits: seq<FieldEdit>): Enrollment {
    e.(start := Latest(edits, StartOf).GetOr(e.start),
       mode := Latest(edits, ModeOf).GetOr(e.mode),
       weeklyFrequency := Latest(edits, FrequencyOf).GetOr(e.weeklyFrequency),
       durationMonths := Latest(edits, DurationOf).GetOr(e.durationMonths),
       fee := Latest(edits, FeeOf).GetOr(e.fee),
       recurrence := Latest(edits, RecurrenceOf).GetOr(e.recurrence))
  }

  /** Every field ends up holding the value of its latest edit, whatever the order of edits to other fields. */
  lemma {:induction false} EditsKeepLatest(e: Enrollment, edits: seq<FieldEdit>)
    ensures ApplyEdits(e, edits) == Overridden(e, edits)
    decreases |edits|
  {
    if edits != [] {
      EditsKeepLatest(ApplyEdit(e, edits[0]), edits[1..]);
    }
  }

  /** The dialog's state: whether it is in edit mode, the edit buffer, and the change note. */
  datatype ModalState = ModalState(editing: bool, buffer: Option<Enrollment>, note: string)

  /** Freshly opened, cancelled or saved: not editing, empty buffer, empty note. */
  const Closed := ModalState(false, None, "")

  /** `handleEdit`: with a record shown, the buffer becomes a copy of it; without one nothing happens. */
  function BeginEdit(st: ModalState, current: Option<Enrollment>): (r: ModalState)
    ensures current.None? ==> r == st
    ensures current.Some? ==> r.editing && r.buffer == current && r.note == st.note
  {
    if current.Some? then st.(editing := true, buffer := current) else st
  }

  /**
   * An input's change handler. The inputs exist only in edit mode, when the
   * buffer holds a copy; without a copy the change is dropped.
   */
  function Change(st: ModalState, f: FieldEdit): (r: ModalState)
    ensures r.editing == st.editing && r.note == st.note
    ensures r.buffer.Some? <==> st.buffer.Some?
    ensures st.buffer.Some? ==> r.buffer.value == ApplyEdit(st.buffer.value, f)
  {
    if st.buffer.Some? then st.(buffer := Some(ApplyEdit(st.buffer.value, f))) else st
  }

  function Changes(st: ModalState, edits: seq<FieldEdit>): ModalState
    decreases |edits|
  {
    if edits == [] then st else Changes(Change(st, edits[0]), edits[1..])
  }

  lemma {:induction false} ChangesEditBuffer(st: ModalState, edits: seq<FieldEdit>)
    requires st.buffer.Some?
    ensures Changes(st, edits) == st.(buffer := Some(ApplyEdits(st.buffer.value, edits)))
    decreases |edits|
  {
    if edits != [] {
      ChangesEditBuffer(Change(st, edits[0]), edits[1..]);
    }
  }

  function SetNote(st: ModalState, note: string): ModalState {
    st.(note := note)
  }

  /** `handleCancel`: back to the closed state, dropping the buffer and the note. */
  function Cancel(st: ModalState): (r: ModalState)
    ensures !r.editing && r.buffer.None? && r.note == ""
  {
    Closed
  }

  const NoteRequired := "Por favor, preencha a observação da alteração."

  /**
   * `handleSave`: refused with an alert when no record is shown or the
   * note is blank; otherwise the record forwarded for update is the shown
   * record overlaid with the buffer and then the note. The end date is
   * never recomputed.
   */
  function Save(st: ModalState, current: Option<Enrollment>): (r: Result<Enrollment, string>)
    ensures r.Failure? <==> current.None? || AllWhitespace(st.note)
    ensures r.Failure? ==> r.error == NoteRequired
    ensures r.Success? ==> r.value.changeNote == Some(st.note)
    ensures r.Success? && st.buffer.None? ==> r.value == current.value.(changeNote := Some(st.note))
    ensures r.Success? && st.buffer.Some? ==> r.value == st.buffer.value.(changeNote := Some(st.note))
  {
    TrimEmptyIffAllWhitespace(st.note);
    if current.None? || Trim(st.note) == "" then Failure(NoteRequired)
    else Success(st.buffer.GetOr(current.value).(changeNote := Some(st.note)))
  }

  /** The state after pressing save: closed when the update went out, unchanged after the alert. */
  function AfterSave(st: ModalState, current: Option<Enrollment>): (r: ModalState)
    ensures Save(st, current).Success? ==> r == Closed
    ensures Save(st, current).Failure? ==> r == st
  {
    if Save(st, current).Success? then Closed else st
  }

  /**
   * Open the editor on e, make some field changes, write a non-blank note
   * and save: the update carries each field's latest edit, e's id, client,
   * status and end date, and the note.
   */
  lemma SaveAfterEditing(e: Enrollment, edits: seq<FieldEdit>, note: string)
    requires !AllWhitespace(note)
    ensures Save(SetNote(Changes(BeginEdit(Closed, Some(e)), edits), note), Some(e))
         == Success(Overridden(e, edits).(changeNote := Some(note)))
    ensures Overridden(e, edits).end == e.end
  {
    ChangesEditBuffer(BeginEdit(Closed, Some(e)), edits);
    EditsKeepLatest(e, edits);
  }

  /** After cancelling, saving is refused: the note is gone. */
  lemma SaveAfterCancelIsRefused(st: ModalState, current: Option<Enrollment>)
    ensures Save(Cancel(st), current).Failure?
    ensures AfterSave(Cancel(st), current) == Closed
  {
  }

  /** A save that went out leaves nothing behind: a second press is refused. */
  lemma SaveTwiceIsRefused(st: ModalState, current: Option<Enrollment>)
    requires Save(st, current).Success?
    ensures Save(AfterSave(st, current), current).Failure?
  {
  }

  /**
   * `handleDelete`: the id forwarded for deletion, when a record is shown.
   * The client dialog forwards its client's id the same way (ClientModal.Delete).
   */
  function Delete(current: Option<Enrollment>): (r: Option<int>)
    ensures r.Some? <==> current.Some?
    ensures r.Some? ==> r.value == current.value.id
  {
    if current.Some? then Some(current.value.id) else None
  }

  /**
   * The number an input shows: `formData.x || enrollment.x`. A buffered 0
   * is falsy in JavaScript, so the input shows the record's value instead.
   */
  function Shown(st: ModalState, current: Enrollment, field: Enrollment -> int): int {
    if st.buffer.Some? && field(st.buffer.value) != 0 then field(st.buffer.value) else field(current)
  }

  function DurationField(e: Enrollment): int { e.durationMonths }
  function FeeField(e: Enrollment): int { e.fee }

  /**
   * What the duration input shows agrees with what a save would send
   * exactly when the buffered duration is not 0 or the record's is 0 too:
   * a cleared duration input shows the old value but saves 0.
   */
  lemma ShownDurationMatchesSave(st: ModalState, current: Enrollment)
    requires st.buffer.Some? && !AllWhitespace(st.note)
    ensures Save(st, Some(current)).Success?
    ensures (Shown(st, current, DurationField) == Save(st, Some(current)).value.durationMonths
            <==> st.buffer.value.durationMonths != 0 || current.durationMonths == 0)
  {
  }

  /** The same holds for the fee input. */
  lemma ShownFeeMatchesSave(st: ModalState, current: Enrollment)
    requires st.buffer.Some? && !AllWhitespace(st.note)
    ensures Save(st, Some(current)).Success?
    ensures (Shown(st, current, FeeField) == Save(st, Some(current)).value.fee
            <==> st.buffer.value.fee != 0 || current.fee == 0)
  {
  }

  /** Badge colours of `getStatusColor`. */
  datatype Tone = SuccessTone | WarningTone | DestructiveTone | SecondaryTone

  function StatusTone(s: EnrollmentStatus): Tone {
    match s
    case Ativa => SuccessTone
    case Expirada => WarningTone
    case Cancelada => DestructiveTone
    case OtherStatus(_) => SecondaryTone
  }

  /**
   * The three known statuses get three different colours, none of them
   * the fallback; every unknown status gets the fallback.
   */
  lemma StatusToneSeparatesKnownStatuses(a: EnrollmentStatus, b: EnrollmentStatus)
    ensures !a.OtherStatus? && !b.OtherStatus? ==> (StatusTone(a) == StatusTone(b) <==> a == b)
    ensures StatusTone(a) == SecondaryTone <==> a.OtherStatus?
  {
  }
}

=== FILE: initials.dfy ===
/**
 * The avatar fallback of the client list and the profile header:
 * `nome.split(' ').map(n => n[0]).join('').slice(0, 2)`.
 */
module Initials {
  import opened Seqs
  import opened Text

  /** `w[0]` as `join` renders it: the first character, or nothing for an empty word (undefined joins as ""). */
  function Head(w: string): (r: string)
    ensures |r| <= 1
    ensures r == [] <==> w == []
  {
    if w == [] then [] else [w[0]]
  }

  /** `words.map(n => n[0]).join('')`. */
  function Heads(words: seq<string>): string {
    if words == [] then [] else Head(words[0]) + Heads(words[1..])
  }

  /**
   * The reference reading: the characters that open a word, i.e. that are
   * not a space and follow a space or the start of the text.
   * `afterSpace` says whether the previous character was a space.
   */
  function WordStarts(s: string, afterSpace: bool): string {
    if s == [] then []
    else (if s[0] != ' ' && afterSpace then [s[0]] else []) + WordStarts(s[1..], s[0] == ' ')
  }

  /** Splitting on spaces and taking first characters picks out exactly the word-opening characters. */
  lemma {:induction false} HeadsOfSplit(s: string)
    ensures Heads(Split(s, ' ')) == WordStarts(s, true)
    ensures Heads(Split(s, ' ')[1..]) == WordStarts(s, false)
  {
    if s != [] {
      HeadsOfSplit(s[1..]);
      var rest := Split(s[1..], ' ');
      if s[0] == ' ' {
        assert Split(s, ' ') == [""] + rest;
        assert ([""] + rest)[1..] == rest;
      } else {
        var ps := Split(s, ' ');
        assert ps == [[s[0]] + rest[0]] + rest[1..];
        assert ps[1..] == rest[1..];
        assert Head(ps[0]) == [s[0]];
      }
    }
  }

  /** The avatar initials: at most two characters, the first two word-opening characters of the name. */
  function Initials(name: string): (r: string)
    ensures |r| <= 2
    ensures r == Take(WordStarts(name, true), 2)
  {
    HeadsOfSplit(name);
    Take(Heads(Split(name, ' ')), 2)
  }

  /** A two-word name gives both first letters; a leading space opens no word. */
  lemma InitialsExamples()
    ensures Initials("A B") == "AB"
    ensures Initials(" J") == "J"
  {
    assert "A B"[1..] == " B" && " B"[1..] == "B" && "B"[1..] == [];
    assert WordStarts("B", true) == "B";
    assert WordStarts(" B", false) == "B";
    assert WordStarts("A B", true) == "AB";
    assert " J"[1..] == "J" && "J"[1..] == [];
    assert WordStarts("J", true) == "J";
    assert WordStarts(" J", true) == "J";
  }
}

=== FILE: medical.dfy ===
/**
 * Age from a birth date, and the rule that flags clients over forty who
 * have not handed in a medical certificate. The rule is written out in
 * four places (the data context, the dashboard, the client list and the
 * client profile); they all agree with NeedsCertificate below.
 */
module Medical {
  import opened Wrappers
  import opened Dates
  import opened Types

  /** The a-th birthday: the birth day and month, a years on. */
  function Anniversary(birth: Date, a: int): Date {
    Date(birth.year + a, birth.month, birth.day)
  }

  /**
   * `calculateAge`: the difference of the years, less one while this
   * year's birthday (month, then day) is still ahead. The result is the
   * number of birthdays reached: the a-th is on or before today, the next
   * one is after it.
   */
  function Age(birth: Date, today: Date): (a: int)
    ensures OnOrBefore(Anniversary(birth, a), today)
    ensures Before(today, Anniversary(birth, a + 1))
  {
    var age := today.year - birth.year;
    var monthDiff := today.month - birth.month;
    if monthDiff < 0 || (monthDiff == 0 && today.day < birth.day) then age - 1 else age
  }

  /** The birthday count is the only age with that property. */
  lemma AgeUnique(birth: Date, today: Date, a: int)
    requires OnOrBefore(Anniversary(birth, a), today) && Before(today, Anniversary(birth, a + 1))
    ensures a == Age(birth, today)
  {
  }

  /** Someone born on or before today has a non-negative age. */
  lemma AgeNonNegative(birth: Date, today: Date)
    requires OnOrBefore(birth, today)
    ensures Age(birth, today) >= 0
  {
  }

  /** Age never decreases as today advances. */
  lemma AgeMonotone(birth: Date, t1: Date, t2: Date)
    requires OnOrBefore(t1, t2)
    ensures Age(birth, t1) <= Age(birth, t2)
  {
  }

  /** The certificate is missing: `!client.atestadoMedico || client.atestadoMedico === ''`. */
  predicate CertificateMissing(c: Client) {
    !Filled(c.certificate)
  }

  /** The flag: a known birth date, more than forty birthdays reached, and no certificate. */
  predicate NeedsCertificate(c: Client, today: ValidDate) {
    c.birthDate.Some? && Age(c.birthDate.value, today) > 40 && CertificateMissing(c)
  }

  /**
   * `needsMedicalCertificate` as the client list and the client profile
   * write it: the unadjusted year difference, with the birthday check
   * choosing between `age - 1 > 40` and `age > 40`.
   */
  function NeedsCertificateAsListed(c: Client, today: ValidDate): (flag: bool)
    ensures flag <==> NeedsCertificate(c, today)
  {
    if c.birthDate.None? then false
    else
      var b := c.birthDate.value;
      var age := today.year - b.year;
      var monthDiff := today.month - b.month;
      if monthDiff < 0 || (monthDiff == 0 && today.day < b.day) then
        (age - 1) > 40 && (c.certificate.None? || c.certificate.value == "")
      else
        age > 40 && (c.certificate.None? || c.certificate.value == "")
  }

  /**
   * The data context's count: `!dataNascimento || atestadoMedico` rules a
   * client out, otherwise `calculateAge(...) > 40`.
   */
  function NeedsCertificateAsCounted(c: Client, today: ValidDate): (flag: bool)
    ensures flag <==> NeedsCertificate(c, today)
  {
    if c.birthDate.None? || Filled(c.certificate) then false
    else Age(c.birthDate.value, today) > 40
  }

  /** Someone who has exactly forty birthdays behind them is not flagged. */
  lemma FortyIsNotFlagged(c: Client, today: ValidDate)
    requires c.birthDate.Some? && Age(c.birthDate.value, today) == 40
    ensures !NeedsCertificate(c, today)
  {
  }

  /** A filed certificate, of any non-empty name, clears the flag. */
  lemma CertificateClearsFlag(c: Client, today: ValidDate, name: string)
    requires name != ""
    ensures !NeedsCertificate(c.(certificate := Some(name)), today)
  {
  }
}

=== FILE: month_filter.dfy ===
/**
 * The dashboard's year and month filter: a year, and the months selected
 * (0 for January to 11 for December), with toggling, select-all, "TODOS"
 * and the list of years the payments offer.
 */
module MonthFilter {
  import opened Dates
  import opened Types
  import opened Seqs

  /** The month buttons JAN..DEZ carry the values 0..11. */
  const MonthCount: nat := 12

  datatype FilterState = FilterState(year: int, months: seq<int>)

  predicate NoDuplicates(s: seq<int>) {
    forall i, j :: 0 <= i < j < |s| ==> s[i] != s[j]
  }

  /** Every selected value is a month button, and none is selected twice. */
  predicate Valid(f: FilterState) {
    NoDuplicates(f.months) && forall i :: 0 <= i < |f.months| ==> 0 <= f.months[i] < MonthCount
  }

  /** On opening: the current year and the current month. */
  function Initial(today: ValidDate): (f: FilterState)
    ensures Valid(f)
    ensures f.year == today.year && f.months == [today.month - 1]
  {
    FilterState(today.year, [today.month - 1])
  }

  /** `handleMonthClick`: a selected month is dropped, any other is appended. */
  function ToggleMonth(f: FilterState, m: int): (r: FilterState)
    ensures r.year == f.year
    ensures m in f.months ==> m !in r.months && forall x :: x in r.months <==> x in f.months && x != m
    ensures m !in f.months ==> r.months == f.months + [m]
  {
    if m in f.months then FilterState(f.year, Filter(f.months, (x: int) => x != m))
    else FilterState(f.year, f.months + [m])
  }

  /** Clicking a month button keeps the selection valid. */
  lemma ToggleKeepsValid(f: FilterState, m: int)
    requires Valid(f) && 0 <= m < MonthCount
    ensures Valid(ToggleMonth(f, m))
  {
    var r := ToggleMonth(f, m);
    if m in f.months {
      FilterKeepsDistinct(f.months, (x: int) => x != m);
      forall i | 0 <= i < |r.months| ensures 0 <= r.months[i] < MonthCount {
        assert r.months[i] in f.months;
      }
    }
  }

  /** Filtering never introduces a repeat. */
  lemma {:induction false} FilterKeepsDistinct(s: seq<int>, p: int -> bool)
    requires NoDuplicates(s)
    ensures NoDuplicates(Filter(s, p))
  {
    if s != [] {
      FilterKeepsDistinct(s[1..], p);
      var rest := Filter(s[1..], p);
      assert s[0] !in s[1..];
      assert s[0] !in rest;
    }
  }

  /** Clicking an unselected month twice restores the selection exactly. */
  lemma ToggleTwiceRestores(f: FilterState, m: int)
    requires m !in f.months
    ensures ToggleMonth(ToggleMonth(f, m), m) == f
  {
    var g := ToggleMonth(f, m);
    assert m in g.months;
    FilterRemovesLast(f.months, m);
  }

  /** Dropping m from `s + [m]`, where s lacks m, gives s back. */
  lemma {:induction false} FilterRemovesLast(s: seq<int>, m: int)
    requires m !in s
    ensures Filter(s + [m], (x: int) => x != m) == s
  {
    var p := (x: int) => x != m;
    FilterAppend(s, [m], p);
    FilterNone([m], p);
    FilterAll(s, p);
  }

  /** Clicking a selected month twice selects the same months again (that month moves to the end). */
  lemma ToggleTwiceSameMonths(f: FilterState, m: int)
    requires m in f.months
    ensures forall x :: x in ToggleMonth(ToggleMonth(f, m), m).months <==> x in f.months
  {
  }

  /** The twelve month values, in button order. */
  function AllMonths(): (r: seq<int>)
    ensures |r| == MonthCount
    ensures forall i :: 0 <= i < |r| ==> r[i] == i
  {
    seq(MonthCount, i => i)
  }

  /** `handleSelectAllMonths`: with twelve months selected, select none; otherwise select all twelve. */
  function SelectAll(f: FilterState): (r: FilterState)
    ensures r.year == f.year
    ensures Valid(r)
    ensures |f.months| == MonthCount ==> r.months == []
    ensures |f.months| != MonthCount ==> r.months == AllMonths()
  {
    FilterState(f.year, if |f.months| == MonthCount then [] else AllMonths())
  }

  /** "TODOS": clears the month selection and keeps the year. */
  function ClearMonths(f: FilterState): (r: FilterState)
    ensures r.year == f.year && r.months == [] && Valid(r)
  {
    FilterState(f.year, [])
  }

  /** `handleYearChange`: the year changes, the months stay as they are. */
  function ChangeYear(f: FilterState, year: int): (r: FilterState)
    ensures r.year == year && r.months == f.months
    ensures Valid(f) ==> Valid(r)
  {
    FilterState(year, f.months)
  }

  /** Distinct values have as many elements in their set as in their list. */
  lemma {:induction false} DistinctCardinality(s: seq<int>)
    requires NoDuplicates(s)
    ensures |set x | x in s| == |s|
  {
    if s != [] {
      DistinctCardinality(s[1..]);
      assert (set x | x in s) == {s[0]} + (set x | x in s[1..]);
      assert s[0] !in s[1..];
    }
  }

  /**
   * The select-all test compares only the length, which is sound: a valid
   * selection of twelve months holds every month.
   */
  lemma TwelveSelectedMeansAll(f: FilterState)
    requires Valid(f) && |f.months| == MonthCount
    ensures forall m :: 0 <= m < MonthCount ==> m in f.months
  {
    DistinctCardinality(f.months);
    forall m | 0 <= m < MonthCount ensures m in f.months {
      if m !in f.months {
        MissingMonthLeavesEleven(f, m);
      }
    }
  }

  /** Without month m, a valid selection draws on at most eleven values. */
  lemma MissingMonthLeavesEleven(f: FilterState, m: int)
    requires Valid(f) && 0 <= m < MonthCount && m !in f.months
    ensures |set x | x in f.months| <= 11
  {
    var chosen := set x | x in f.months;
    var all: set<int> := {0, 1, 2, 3, 4, 5, 6, 7, 8, 9, 10, 11};
    TwelveMonths(all);
    var others := all - {m};
    RemoveOne(all, m);
    forall x | x in chosen ensures x in others {
      var i :| 0 <= i < |f.months| && f.months[i] == x;
      assert 0 <= x < MonthCount && x != m;
    }
    SubsetCardinality(chosen, others);
  }

  lemma TwelveMonths(all: set<int>)
    requires all == {0, 1, 2, 3, 4, 5, 6, 7, 8, 9, 10, 11}
    ensures |all| == 12 && forall x :: 0 <= x < MonthCount ==> x in all
  {
  }

  lemma RemoveOne(a: set<int>, m: int)
    requires m in a
    ensures |a - {m}| == |a| - 1
  {
    assert a == (a - {m}) + {m};
  }

  lemma SubsetCardinality(a: set<int>, b: set<int>)
    requires a <= b
    ensures |a| <= |b|
  {
    assert b == a + (b - a);
  }

  // ---------------------------------------------------------------------
  // Years on offer
  // ---------------------------------------------------------------------

  predicate StrictlyDescending(s: seq<int>) {
    forall i, j :: 0 <= i < j < |s| ==> s[i] > s[j]
  }

  /** Adds y to a strictly descending list unless it is already there. */
  function InsertDescending(y: int, s: seq<int>): (r: seq<int>)
    requires StrictlyDescending(s)
    ensures StrictlyDescending(r)
    ensures forall x :: x in r <==> x == y || x in s
    ensures forall i :: 0 <= i < |r| ==> r[i] <= (if s != [] && s[0] > y then s[0] else y)
  {
    if s == [] || y > s[0] then [y] + s
    else if y == s[0] then s
    else [s[0]] + InsertDescending(y, s[1..])
  }

  /** The years of a list of numbers, once each, latest first: `Array.from(new Set(ys)).sort((a, b) => b - a)`. */
  function DistinctDescending(ys: seq<int>): (r: seq<int>)
    ensures StrictlyDescending(r)
    ensures forall y :: y in r <==> y in ys
  {
    if ys == [] then [] else InsertDescending(ys[0], DistinctDescending(ys[1..]))
  }

  /** `payments.map(p => new Date(p.dataVencimento).getFullYear())`. */
  function DueYears(payments: seq<Payment>): (ys: seq<int>)
    ensures |ys| == |payments|
    ensures forall i :: 0 <= i < |payments| ==> ys[i] == payments[i].due.year
  {
    seq(|payments|, i requires 0 <= i < |payments| => payments[i].due.year)
  }

  /** `availableYears`: each year some due date falls in, once, latest first. */
  function AvailableYears(payments: seq<Payment>): (r: seq<int>)
    ensures StrictlyDescending(r) && NoDuplicates(r)
    ensures forall y :: y in r <==> exists i :: 0 <= i < |payments| && payments[i].due.year == y
  {
    var ys := DueYears(payments);
    assert forall y :: y in ys <==> exists i :: 0 <= i < |payments| && payments[i].due.year == y by {
      forall y ensures y in ys ==> exists i :: 0 <= i < |payments| && payments[i].due.year == y {
        if y in ys {
          var i :| 0 <= i < |ys| && ys[i] == y;
          assert payments[i].due.year == y;
        }
      }
    }
    DistinctDescending(ys)
  }
}

=== FILE: notification_panel.dfy ===
/**
 * The notification panel: the checkbox selection, delete-selected, where
 * a click on a notification leads, and the type labels.
 */
module NotificationPanel {
  import opened Wrappers
  import opened Types
  import opened Seqs
  import opened Text
  import opened DataContext
  import ClientProfile

  // ---------------------------------------------------------------------
  // Selection
  // ---------------------------------------------------------------------

  function Differs(id: int): int -> bool {
    (x: int) => x != id
  }

  /** `handleSelectNotification`: checking appends the id; unchecking drops every occurrence of it. */
  function Select(sel: seq<int>, id: int, checked: bool): (r: seq<int>)
    ensures checked ==> r == sel + [id]
    ensures !checked ==> forall x :: x in r <==> x in sel && x != id
    ensures !checked ==> |r| <= |sel|
  {
    if checked then sel + [id] else Filter(sel, Differs(id))
  }

  /** Checking then unchecking a box leaves the id out, as if only unchecked; the other ids are untouched. */
  lemma CheckThenUncheck(sel: seq<int>, id: int)
    ensures Select(Select(sel, id, true), id, false) == Select(sel, id, false)
  {
    FilterAppend(sel, [id], Differs(id));
    assert Filter([id], Differs(id)) == [];
    assert Filter(sel, Differs(id)) + [] == Filter(sel, Differs(id));
  }

  /** Unchecking keeps every other id as often as it was selected. */
  lemma UncheckKeepsOthers(sel: seq<int>, id: int, x: int)
    requires x != id
    ensures multiset(Select(sel, id, false))[x] == multiset(sel)[x]
  {
    FilterCounts(sel, Differs(id), x);
  }

  /** What pressing delete does: the ids forwarded for deletion and the selection afterwards. */
  datatype DeleteCall = DeleteCall(forwarded: seq<int>, selection: seq<int>)

  /** `handleDeleteSelected`: forwards the current selection, then clears it. */
  function DeleteSelection(sel: seq<int>): (r: DeleteCall)
    ensures r.forwarded == sel && r.selection == []
  {
    DeleteCall(sel, [])
  }

  /**
   * The stored list after the delete: exactly the notifications that were
   * not selected; pressing delete again forwards nothing and removes nothing.
   */
  lemma DeleteRemovesSelected(ns: seq<Notification>, sel: seq<int>)
    ensures (var call := DeleteSelection(sel);
             forall n :: n in DeleteSelected(ns, call.forwarded) <==> n in ns && n.id !in sel)
    ensures (var again := DeleteSelection(DeleteSelection(sel).selection);
             DeleteSelected(ns, again.forwarded) == ns)
  {
    DeleteSelectedLaws(ns, sel);
  }

  // ---------------------------------------------------------------------
  // Navigation
  // ---------------------------------------------------------------------

  /** A profile page address: `/client/{id}`, with an optional `tab` and `highlight_payment`. */
  datatype Target = Target(clientId: int, tab: Option<string>, highlight: Option<int>)

  /** The payment is stored as Atrasado and billed to an enrollment of that client. */
  function OverdueOf(enrollments: seq<Enrollment>, clientId: int): Payment -> bool {
    (p: Payment) => p.status == Atrasado && exists e :: e in enrollments && e.id == p.enrollmentId && e.clientId == clientId
  }

  /** The payment an overdue notification points at: the first stored Atrasado one of the client's enrollments. */
  function OverduePayment(payments: seq<Payment>, enrollments: seq<Enrollment>, clientId: int): (r: Option<Payment>)
    ensures r.Some? <==> exists i :: 0 <= i < |payments| && OverdueOf(enrollments, clientId)(payments[i])
    ensures (r.Some? ==>
      r.value in payments && r.value.status == Atrasado
      && exists e :: e in enrollments && e.id == r.value.enrollmentId && e.clientId == clientId)
    ensures r.Some? ==> exists i :: 0 <= i < |payments| && payments[i] == r.value
                          && forall j :: 0 <= j < i ==> !OverdueOf(enrollments, clientId)(payments[j])
  {
    Find(payments, OverdueOf(enrollments, clientId))
  }

  /** `if (notification.clientId)`: a missing id and the id 0 are both falsy. */
  predicate HasClient(n: Notification) {
    n.clientId.Some? && n.clientId.value != 0
  }

  /**
   * `handleNotificationClick`'s navigation: none without a client;
   * certificate notices open the registration tab; overdue notices open
   * the financial tab, highlighting the overdue payment when there is one;
   * anything else opens the profile as it is.
   */
  function Navigate(n: Notification, payments: seq<Payment>, enrollments: seq<Enrollment>): (r: Option<Target>)
    ensures r.None? <==> !HasClient(n)
    ensures r.Some? ==> r.value.clientId == n.clientId.value
    ensures r.Some? && n.kind == MedicalCertificate ==> r.value.tab == Some("dados") && r.value.highlight.None?
    ensures r.Some? && n.kind == Overdue ==> r.value.tab == Some("financeiro")
    ensures (r.Some? && n.kind == Overdue ==>
      (r.value.highlight.Some? <==> OverduePayment(payments, enrollments, n.clientId.value).Some?))
    ensures r.Some? && !n.kind.MedicalCertificate? && !n.kind.Overdue? ==> r.value.tab.None? && r.value.highlight.None?
  {
    if !HasClient(n) then None
    else
      var id := n.clientId.value;
      match n.kind
      case MedicalCertificate => Some(Target(id, Some("dados"), None))
      case Overdue =>
        var p := OverduePayment(payments, enrollments, id);
        Some(Target(id, Some("financeiro"), if p.Some? then Some(p.value.id) else None))
      case _ => Some(Target(id, None, None))
  }

  /** The query parameters of a target, as the profile page reads them. */
  function HighlightParam(t: Target): Option<string> {
    match t.highlight
    case Some(id) => Some(IntText(id))
    case None => None
  }

  /**
   * Following an overdue notice with a client to the profile page: the
   * page opens on the financial tab, and highlights exactly the id of the
   * overdue payment, when there is one.
   */
  lemma OverdueNoticeHighlightsPayment(n: Notification, payments: seq<Payment>, enrollments: seq<Enrollment>)
    requires HasClient(n) && n.kind == Overdue
    ensures (var t := Navigate(n, payments, enrollments).value;
             var p := OverduePayment(payments, enrollments, n.clientId.value);
             ClientProfile.InitialTab(t.tab) == "financeiro"
             && (p.Some? ==> ClientProfile.HighlightedPaymentId(t.tab, HighlightParam(t)) == Some(p.value.id))
             && (p.None? ==> ClientProfile.HighlightedPaymentId(t.tab, HighlightParam(t)).None?))
  {
    var p := OverduePayment(payments, enrollments, n.clientId.value);
    if p.Some? {
      ParseIntOfIntText(p.value.id);
    }
  }

  /** A certificate notice opens the registration tab with nothing highlighted. */
  lemma CertificateNoticeOpensRegistration(n: Notification, payments: seq<Payment>, enrollments: seq<Enrollment>)
    requires HasClient(n) && n.kind == MedicalCertificate
    ensures (var t := Navigate(n, payments, enrollments).value;
             ClientProfile.InitialTab(t.tab) == "dados"
             && ClientProfile.HighlightedPaymentId(t.tab, HighlightParam(t)).None?)
  {
  }

  // ---------------------------------------------------------------------
  // Labels
  // ---------------------------------------------------------------------

  /** `getTypeLabel`. */
  function TypeLabel(k: NotificationKind): string {
    match k
    case Overdue => "Atrasado"
    case Expiring => "Expirando"
    case MedicalCertificate => "Atestado"
    case OtherKind(_) => "Geral"
  }

  /** The three known kinds have distinct labels, none of them "Geral"; every other kind reads "Geral". */
  lemma TypeLabelsDistinguishKnownKinds(a: NotificationKind, b: NotificationKind)
    ensures !a.OtherKind? && !b.OtherKind? ==> (TypeLabel(a) == TypeLabel(b) <==> a == b)
    ensures TypeLabel(a) == "Geral" <==> a.OtherKind?
  {
  }
}

=== FILE: payment_management.dfy ===
/**
 * The payments screen: search and filters over the payment list, the
 * summary of the filtered list by stored status, the date formatting, and
 * when the mark-paid action is offered.
 */
module PaymentManagement {
  import opened Wrappers
  import opened Dates
  import opened Types
  import opened Seqs
  import opened Text
  import opened DataContext
  import Billing

  /** The status select: "all", or one stored status. */
  datatype StatusFilter = AllStatuses | Only(status: PaymentStatus)

  /** The date range picker: either end may be unset. */
  datatype DateRange = DateRange(from: Option<ValidDate>, to: Option<ValidDate>)

  /** `getClientByPayment`: the client of the payment's enrollment, when both can be found. */
  function ClientOfPayment(clients: seq<Client>, enrollments: seq<Enrollment>, p: Payment): (r: Option<Client>)
    ensures r.Some? ==> r.value in clients && exists e :: e in enrollments && e.id == p.enrollmentId && e.clientId == r.value.id
    ensures EnrollmentById(enrollments, p.enrollmentId).None? ==> r.None?
    ensures r.None? <==> (EnrollmentById(enrollments, p.enrollmentId).None?
                          || ClientById(clients, EnrollmentById(enrollments, p.enrollmentId).value.clientId).None?)
  {
    match EnrollmentById(enrollments, p.enrollmentId)
    case None => None
    case Some(e) => ClientById(clients, e.clientId)
  }

  /** With unique ids, the client of the payment's stored enrollment is the one found. */
  lemma ClientOfPaymentFinds(clients: seq<Client>, enrollments: seq<Enrollment>, c: Client, e: Enrollment, p: Payment)
    requires UniqueClientIds(clients) && UniqueEnrollmentIds(enrollments)
    requires e in enrollments && c in clients
    requires p.enrollmentId == e.id && e.clientId == c.id
    ensures ClientOfPayment(clients, enrollments, p) == Some(c)
  {
    EnrollmentByIdFinds(enrollments, e);
    ClientByIdFinds(clients, c);
  }

  /** The client's name contains the term, ignoring case; a payment whose client cannot be found never matches. */
  predicate MatchesSearch(clients: seq<Client>, enrollments: seq<Enrollment>, p: Payment, term: string) {
    var c := ClientOfPayment(clients, enrollments, p);
    c.Some? && IncludesIgnoringCase(c.value.name, term)
  }

  predicate MatchesStatus(p: Payment, f: StatusFilter) {
    f.AllStatuses? || p.status == f.status
  }

  /** The due date lies in the range, ends included; the range only counts once both ends are set. */
  predicate MatchesRange(p: Payment, range: DateRange) {
    range.from.Some? && range.to.Some? ==> OnOrBefore(range.from.value, p.due) && OnOrBefore(p.due, range.to.value)
  }

  predicate Listed(clients: seq<Client>, enrollments: seq<Enrollment>, p: Payment, term: string, f: StatusFilter, range: DateRange) {
    MatchesSearch(clients, enrollments, p, term) && MatchesStatus(p, f) && MatchesRange(p, range)
  }

  /** `filteredPayments`: the payments passing all three tests, in stored order. */
  function FilteredPayments(clients: seq<Client>, enrollments: seq<Enrollment>, payments: seq<Payment>,
                            term: string, f: StatusFilter, range: DateRange): (r: seq<Payment>)
    ensures forall p :: p in r <==> p in payments && Listed(clients, enrollments, p, term, f, range)
    ensures |r| <= |payments|
  {
    Filter(payments, (p: Payment) => Listed(clients, enrollments, p, term, f, range))
  }

  /** With an empty term, "all" statuses and no complete range, exactly the payments whose client resolves are listed. */
  lemma EmptyFiltersKeepResolvable(clients: seq<Client>, enrollments: seq<Enrollment>, p: Payment, range: DateRange)
    requires range.from.None? || range.to.None?
    ensures Listed(clients, enrollments, p, "", AllStatuses, range) <==> ClientOfPayment(clients, enrollments, p).Some?
  {
    var c := ClientOfPayment(clients, enrollments, p);
    if c.Some? {
      IncludesEmpty(ToLower(c.value.name));
    }
  }

  /** `dateRangeSummary`: the filtered amounts by stored status. */
  datatype Summary = Summary(received: int, pending: int, overdue: int)

  predicate StoredOverdue(p: Payment) {
    p.status == Atrasado
  }

  predicate NotPaid(p: Payment) {
    p.status != Pago
  }

  function Summarize(filtered: seq<Payment>): (s: Summary)
    ensures s.received + s.pending + s.overdue == Sum(filtered, Amount)
    ensures filtered == [] ==> s == Summary(0, 0, 0)
  {
    SumFilterSplit(filtered, IsPaid, NotPaid, Amount);
    SumFilterDisjoint(filtered, IsPending, StoredOverdue, NotPaid, Amount);
    Summary(Sum(Filter(filtered, IsPaid), Amount), Sum(Filter(filtered, IsPending), Amount), Sum(Filter(filtered, StoredOverdue), Amount))
  }

  /**
   * One more payment adds its amount to the bucket of its stored status:
   * received for Pago, pending for Pendente, overdue for Atrasado.
   */
  lemma SummarizeAddPayment(filtered: seq<Payment>, p: Payment)
    ensures var s := Summarize(filtered);
      Summarize(filtered + [p]) == match p.status
        case Pago => s.(received := s.received + p.amount)
        case Pendente => s.(pending := s.pending + p.amount)
        case Atrasado => s.(overdue := s.overdue + p.amount)
  {
    SumFilterSnoc(filtered, p, IsPaid, Amount);
    SumFilterSnoc(filtered, p, IsPending, Amount);
    SumFilterSnoc(filtered, p, StoredOverdue, Amount);
  }

  /**
   * This screen and the data context's getDashboardMetrics disagree on what
   * is overdue: a pending instalment whose due date has passed is overdue in
   * the metrics but pending here, while a stored Atrasado instalment is
   * overdue here and counted in no total of the metrics.
   */
  lemma OverdueRulesDiffer(p: Payment, q: Payment, now: Clock)
    requires p.status == Pendente && MidnightHasPassed(p.due, now)
    requires q.status == Atrasado
    ensures Summarize([p]).overdue == 0 && Summarize([p]).pending == p.amount
    ensures Metrics([], [], [p], now).totalOverdue == p.amount
    ensures Summarize([q]).overdue == q.amount
    ensures Metrics([], [], [q], now).totalOverdue == 0
  {
    assert Filter([p], IsPending) == [p];
    assert Filter([p], StoredOverdue) == [];
    assert Filter([p], OverdueAt(now)) == [p];
    assert Filter([q], StoredOverdue) == [q];
    assert Filter([q], OverdueAt(now)) == [];
  }

  // ---------------------------------------------------------------------
  // Dates and actions
  // ---------------------------------------------------------------------

  /**
   * `formatDate`: nothing for an empty string; otherwise the '-'-separated
   * fields that are read as year, month and day (their locale rendering is
   * not modelled).
   */
  function DateFields(s: string): (r: Option<seq<string>>)
    ensures r.None? <==> s == ""
    ensures r.Some? ==> |r.value| >= 1 && Join(r.value, '-') == s
    ensures r.Some? ==> forall f :: f in r.value ==> '-' !in f
  {
    if s == "" then None
    else
      JoinSplit(s, '-');
      Some(Split(s, '-'))
  }

  /** A stored `YYYY-MM-DD` date yields exactly its year, month and day fields. */
  lemma DateFieldsOfIsoDate(y: string, m: string, d: string)
    requires y != "" && '-' !in y && '-' !in m && '-' !in d
    ensures DateFields(y + "-" + m + "-" + d) == Some([y, m, d])
  {
    var rest := m + ['-'] + d;
    SplitWithoutSeparator(d, '-');
    SplitAtSeparator(m, d, '-');
    assert Split(rest, '-') == [m, d];
    assert y + "-" + m + "-" + d == y + ['-'] + rest;
    SplitAtSeparator(y, rest, '-');
    assert Split(y + ['-'] + rest, '-') == [y] + [m, d] == [y, m, d];
    assert y + "-" + m + "-" + d != "";
  }

  /** The "Marcar como Paga" button is offered for every payment not yet Pago. */
  predicate MarkPaidOffered(p: Payment) {
    p.status != Pago
  }

  /** Once marked paid, a payment no longer offers the action, and stays listed under "Pago". */
  lemma MarkPaidWithdrawsAction(p: Payment, today: ValidDate)
    ensures !MarkPaidOffered(Billing.MarkPaid(p, today))
    ensures MatchesStatus(Billing.MarkPaid(p, today), Only(Pago))
  {
  }
}

=== FILE: profile_header.dfy ===
/** The client profile header: the enrollment on show, the portal test and the invite button. */
module ProfileHeader {
  import opened Wrappers
  import opened Dates
  import opened Types
  import opened Seqs
  import opened Text

  function StartKey(e: Enrollment): int {
    -DayNumber(e.start)
  }

  predicate IsAtiva(e: Enrollment) {
    e.status == Ativa
  }

  /**
   * `activeEnrollment`: the first of the Ativa enrollments sorted by start
   * date, latest first; none when no enrollment is Ativa.
   */
  function ActiveEnrollment(es: seq<Enrollment>): (r: Option<Enrollment>)
    ensures r.None? <==> forall e :: e in es ==> e.status != Ativa
    ensures r.Some? ==> r.value in es && r.value.status == Ativa
    ensures r.Some? ==> forall e :: e in es && e.status == Ativa ==> DayNumber(e.start) <= DayNumber(r.value.start)
  {
    var top := SmallestN(Filter(es, IsAtiva), StartKey, 1);
    SmallestOne(Filter(es, IsAtiva), StartKey);
    LatestActive(es, top);
    if top == [] then None else Some(top[0])
  }

  /** Reads the Ativa enrollments' first element in key order back in terms of all enrollments. */
  lemma LatestActive(es: seq<Enrollment>, top: seq<Enrollment>)
    requires top == [] <==> Filter(es, IsAtiva) == []
    requires (top != [] ==>
      top[0] in Filter(es, IsAtiva) && forall y :: y in Filter(es, IsAtiva) ==> StartKey(top[0]) <= StartKey(y))
    ensures top == [] <==> forall e :: e in es ==> e.status != Ativa
    ensures (top != [] ==>
      top[0] in es && top[0].status == Ativa
      && forall e :: e in es && e.status == Ativa ==> DayNumber(e.start) <= DayNumber(top[0].start))
  {
    var act := Filter(es, IsAtiva);
    if top == [] {
      forall e | e in es ensures e.status != Ativa {
        assert e !in act;
      }
    } else {
      forall e | e in es && e.status == Ativa
        ensures DayNumber(e.start) <= DayNumber(top[0].start)
      {
        assert e in act;
      }
    }
  }

  /**
   * Among Ativa enrollments sharing the latest start date, the one shown is
   * the first stored: every Ativa enrollment stored before it started
   * strictly earlier.
   */
  lemma ActiveEnrollmentFirstStored(es: seq<Enrollment>)
    ensures (var r := ActiveEnrollment(es);
      r.Some? ==>
        exists i :: 0 <= i < |es| && es[i] == r.value
                      && forall j :: 0 <= j < i && es[j].status == Ativa ==> DayNumber(es[j].start) < DayNumber(es[i].start))
  {
    SmallestOfFilterIsFirst(es, IsAtiva, StartKey);
  }

  /** The portal route prefix. */
  const PortalPrefix: string := "/portal_aluno"

  /** The header is in portal view (no "Voltar" button) when the path starts with the portal prefix. */
  predicate IsPortalView(path: string) {
    StartsWith(path, PortalPrefix)
  }

  lemma PortalViewExamples()
    ensures IsPortalView("/portal_aluno/dados")
    ensures !IsPortalView("/client/7")
    ensures !IsPortalView("/portal")
  {
  }

  /** The "Convidar para o Portal" button shows while the client has no portal account (`!client.user_id`). */
  function InviteShown(c: Client): (shown: bool)
    ensures shown <==> c.userId.None? || c.userId.value == ""
  {
    !Filled(c.userId)
  }
}

=== FILE: reports.dfy ===
/**
 * The reports page: revenue per month over the last twelve months, the
 * active/inactive split, and the per-client payment punctuality table.
 */
module Reports {
  import opened Wrappers
  import opened Dates
  import opened Types
  import opened Seqs
  import opened DataContext

  // ---------------------------------------------------------------------
  // Monthly revenue
  // ---------------------------------------------------------------------

  /** A chart bar: a calendar month and what was received in it. */
  datatype Bucket = Bucket(year: int, month: int, revenue: int)

  /** The payment was paid, has a paid date, and that date lies in month m of year y. */
  predicate PaidIn(p: Payment, y: int, m: int) {
    p.status == Pago && p.paidOn.Some? && p.paidOn.value.year == y && p.paidOn.value.month == m
  }

  function PaidInMonth(y: int, m: int): Payment -> bool {
    (p: Payment) => PaidIn(p, y, m)
  }

  /** The bar for month index n (the month `new Date(year, month - i, 1)` normalises to). */
  function MonthBucket(payments: seq<Payment>, n: int): Bucket {
    var y := YearOfIndex(n);
    var m := MonthOfIndex(n);
    Bucket(y, m, Sum(Filter(payments, PaidInMonth(y, m)), Amount))
  }

  /** The bars for `count` consecutive months starting at month index lo. */
  function BucketsFrom(payments: seq<Payment>, lo: int, count: nat): (r: seq<Bucket>)
    ensures |r| == count
    decreases count
  {
    if count == 0 then [] else [MonthBucket(payments, lo)] + BucketsFrom(payments, lo + 1, count - 1)
  }

  /** The j-th bar is the bar of month lo + j. */
  lemma {:induction false} BucketsFromAt(payments: seq<Payment>, lo: int, count: nat, j: int)
    requires 0 <= j < count
    ensures BucketsFrom(payments, lo, count)[j] == MonthBucket(payments, lo + j)
    decreases count
  {
    if j > 0 {
      BucketsFromAt(payments, lo + 1, count - 1, j - 1);
    }
  }

  /** Growing the window by one month appends that month's bar. */
  lemma {:induction false} BucketsFromSnoc(payments: seq<Payment>, lo: int, count: nat)
    ensures BucketsFrom(payments, lo, count + 1) == BucketsFrom(payments, lo, count) + [MonthBucket(payments, lo + count)]
    decreases count
  {
    if count > 0 {
      BucketsFromSnoc(payments, lo + 1, count - 1);
    }
  }

  /** One pass of the loop below: appending the bar of month cur - i to the bars before it. */
  lemma NextBar(payments: seq<Payment>, cur: int, i: int, r: seq<Bucket>)
    requires 0 <= i <= 11
    requires r == BucketsFrom(payments, cur - 11, 11 - i)
    ensures r + [MonthBucket(payments, cur - i)] == BucketsFrom(payments, cur - 11, 11 - (i - 1))
  {
    var count: nat := 11 - i;
    BucketsFromSnoc(payments, cur - 11, count);
    assert cur - 11 + count == cur - i;
  }

  /**
   * `getMonthlyRevenue`: twelve bars, oldest first, built by the source's
   * loop from i = 11 down to 0.
   */
  method MonthlyRevenue(payments: seq<Payment>, today: ValidDate) returns (r: seq<Bucket>)
    ensures |r| == 12
    ensures r == BucketsFrom(payments, MonthIndex(today.year, today.month) - 11, 12)
  {
    var cur := MonthIndex(today.year, today.month);
    r := [];
    var i := 11;
    while i >= 0
      invariant -1 <= i <= 11
      invariant r == BucketsFrom(payments, cur - 11, 11 - i)
    {
      NextBar(payments, cur, i, r);
      r := r + [MonthBucket(payments, cur - i)];
      i := i - 1;
    }
  }

  /** The last of the twelve bars is the current month. */
  lemma LastBucketIsCurrentMonth(payments: seq<Payment>, today: ValidDate)
    ensures var r := BucketsFrom(payments, MonthIndex(today.year, today.month) - 11, 12);
      r[11].year == today.year && r[11].month == today.month
  {
    BucketsFromAt(payments, MonthIndex(today.year, today.month) - 11, 12, 11);
    IndexOfMonthRoundTrip(today.year, today.month);
  }

  /** The bars run through consecutive calendar months, oldest first. */
  lemma BucketsConsecutive(payments: seq<Payment>, lo: int, count: nat, j: int)
    requires 0 <= j < count - 1
    ensures var r := BucketsFrom(payments, lo, count);
      MonthIndex(r[j].year, r[j].month) + 1 == MonthIndex(r[j + 1].year, r[j + 1].month)
  {
    BucketsFromAt(payments, lo, count, j);
    BucketsFromAt(payments, lo, count, j + 1);
    MonthIndexRoundTrip(lo + j);
    MonthIndexRoundTrip(lo + j + 1);
  }

  /** The payment was paid with a paid date in a month with index in [lo, hi). */
  predicate PaidInWindow(p: Payment, lo: int, hi: int) {
    p.status == Pago && p.paidOn.Some? && lo <= MonthIndex(p.paidOn.value.year, p.paidOn.value.month) < hi
  }

  /** A paid date lies in the month of index n exactly when its month index is n. */
  lemma PaidInIndex(p: Payment, n: int)
    ensures PaidIn(p, YearOfIndex(n), MonthOfIndex(n)) <==> PaidInWindow(p, n, n + 1)
  {
    MonthIndexRoundTrip(n);
    if p.paidOn.Some? {
      IndexOfMonthRoundTrip(p.paidOn.value.year, p.paidOn.value.month);
    }
  }

  function Revenue(b: Bucket): int {
    b.revenue
  }

  /**
   * Each paid payment lands in the one bar of its paid month, so the bars
   * of a window add up to what was received over the whole window.
   */
  lemma {:induction false} WindowRevenue(payments: seq<Payment>, lo: int, count: nat)
    ensures Sum(BucketsFrom(payments, lo, count), Revenue)
         == Sum(Filter(payments, (p: Payment) => PaidInWindow(p, lo, lo + count)), Amount)
    decreases count
  {
    var window := (p: Payment) => PaidInWindow(p, lo, lo + count);
    if count == 0 {
      FilterNone(payments, window);
    } else {
      var y := YearOfIndex(lo);
      var m := MonthOfIndex(lo);
      var first := PaidInMonth(y, m);
      var rest := (p: Payment) => PaidInWindow(p, lo + 1, lo + count);
      WindowRevenue(payments, lo + 1, count - 1);
      forall p | p in payments ensures first(p) <==> PaidInWindow(p, lo, lo + 1) {
        PaidInIndex(p, lo);
      }
      SumFilterDisjoint(payments, first, rest, window, Amount);
    }
  }

  /** `totalRevenue`: the twelve bars add up to all payments received over the twelve months. */
  lemma TotalRevenue(payments: seq<Payment>, today: ValidDate)
    ensures var lo := MonthIndex(today.year, today.month) - 11;
      Sum(BucketsFrom(payments, lo, 12), Revenue) == Sum(Filter(payments, (p: Payment) => PaidInWindow(p, lo, lo + 12)), Amount)
  {
    WindowRevenue(payments, MonthIndex(today.year, today.month) - 11, 12);
  }

  /** A paid payment without a paid date is in no bar. */
  lemma UndatedCountsNowhere(p: Payment, y: int, m: int)
    requires p.paidOn.None?
    ensures !PaidIn(p, y, m)
  {
  }

  // ---------------------------------------------------------------------
  // Active versus inactive
  // ---------------------------------------------------------------------

  predicate IsInactive(c: Client) {
    c.status == Inativo
  }

  /** `getClientStatusData`: how many clients are Ativo and how many Inativo; together, all of them. */
  function StatusCounts(clients: seq<Client>): (r: (nat, nat))
    ensures r.0 + r.1 == |clients|
  {
    FilterLengthSplit(clients, IsActive, IsInactive);
    (|Filter(clients, IsActive)|, |Filter(clients, IsInactive)|)
  }

  /** The first count is zero exactly when no client is Ativo, the second exactly when none is Inativo. */
  lemma StatusCountsZeroIff(clients: seq<Client>)
    ensures StatusCounts(clients).0 == 0 <==> forall c :: c in clients ==> c.status != Ativo
    ensures StatusCounts(clients).1 == 0 <==> forall c :: c in clients ==> c.status != Inativo
  {
    FilterEmptyIff(clients, IsActive);
    FilterEmptyIff(clients, IsInactive);
  }

  /** No clients, no counts. */
  lemma StatusCountsOfNone()
    ensures StatusCounts([]) == (0, 0)
  {
  }

  /** One more client adds one to the count of its status and leaves the other count. */
  lemma StatusCountsAddClient(clients: seq<Client>, c: Client)
    ensures StatusCounts(clients + [c]).0 == StatusCounts(clients).0 + (if c.status == Ativo then 1 else 0)
    ensures StatusCounts(clients + [c]).1 == StatusCounts(clients).1 + (if c.status == Inativo then 1 else 0)
  {
    FilterLengthSnoc(clients, c, IsActive);
    FilterLengthSnoc(clients, c, IsInactive);
  }

  // ---------------------------------------------------------------------
  // Payment punctuality
  // ---------------------------------------------------------------------

  datatype PerformanceRow = PerformanceRow(name: string, onTime: nat, late: nat, totalPaid: nat)

  /** Paid on or before the due date. */
  predicate PaidOnTime(p: Payment) {
    PaidWithDate(p) && OnOrBefore(p.paidOn.value, p.due)
  }

  /** Paid after the due date. */
  predicate PaidLate(p: Payment) {
    PaidWithDate(p) && Before(p.due, p.paidOn.value)
  }

  /** A paid payment is on time or late, never both: a later-than test and its negation. */
  lemma PaidOnTimeOrLate(p: Payment)
    requires PaidWithDate(p)
    ensures PaidOnTime(p) <==> !PaidLate(p)
  {
  }

  /** The counts of one row over a list of payments: those paid with a paid date, split into on time and late. */
  function Tally(name: string, ps: seq<Payment>): (row: PerformanceRow)
    ensures row.name == name
    ensures row.totalPaid == row.onTime + row.late
    ensures row.totalPaid == |Filter(ps, PaidWithDate)|
  {
    FilterLengthDisjoint(ps, PaidOnTime, PaidLate, PaidWithDate);
    var onTime := |Filter(ps, PaidOnTime)|;
    var late := |Filter(ps, PaidLate)|;
    PerformanceRow(name, onTime, late, onTime + late)
  }

  /** No late payment means every paid one was paid by its due date; no on-time payment means every paid one was late. */
  lemma TallyZeroIff(name: string, ps: seq<Payment>)
    ensures Tally(name, ps).late == 0 <==> forall p :: p in ps && PaidWithDate(p) ==> OnOrBefore(p.paidOn.value, p.due)
    ensures Tally(name, ps).onTime == 0 <==> forall p :: p in ps && PaidWithDate(p) ==> Before(p.due, p.paidOn.value)
  {
    FilterEmptyIff(ps, PaidOnTime);
    FilterEmptyIff(ps, PaidLate);
  }

  /** One more payment adds one to the on-time or the late count when it is paid with a date, and to the total. */
  lemma TallySnoc(name: string, ps: seq<Payment>, p: Payment)
    ensures var row := Tally(name, ps);
      Tally(name, ps + [p])
        == PerformanceRow(name,
             row.onTime + (if PaidOnTime(p) then 1 else 0),
             row.late + (if PaidLate(p) then 1 else 0),
             row.totalPaid + (if PaidWithDate(p) then 1 else 0))
  {
    FilterLengthSnoc(ps, p, PaidOnTime);
    FilterLengthSnoc(ps, p, PaidLate);
  }

  /** One row of `getPaymentPerformance`: the tally of the client's payments, under the client's name. */
  function RowFor(c: Client, enrollments: seq<Enrollment>, payments: seq<Payment>): (row: PerformanceRow)
    ensures row.name == c.name
    ensures row.totalPaid == row.onTime + row.late
    ensures row.totalPaid == |Filter(ClientPayments(enrollments, payments, c.id), PaidWithDate)|
  {
    Tally(c.name, ClientPayments(enrollments, payments, c.id))
  }

  /**
   * The client has no late payment exactly when every paid one of theirs
   * was paid by its due date, and no on-time payment exactly when every
   * paid one was late.
   */
  lemma RowForZeroIff(c: Client, enrollments: seq<Enrollment>, payments: seq<Payment>)
    ensures var ps := ClientPayments(enrollments, payments, c.id);
      RowFor(c, enrollments, payments).late == 0 <==> forall p :: p in ps && PaidWithDate(p) ==> OnOrBefore(p.paidOn.value, p.due)
    ensures var ps := ClientPayments(enrollments, payments, c.id);
      RowFor(c, enrollments, payments).onTime == 0 <==> forall p :: p in ps && PaidWithDate(p) ==> Before(p.due, p.paidOn.value)
  {
    TallyZeroIff(c.name, ClientPayments(enrollments, payments, c.id));
  }

  /**
   * One more payment billed to one of the client's enrollments adds one to
   * the on-time or the late count when it is paid with a date, and to the
   * total; a payment of some other client's enrollment changes nothing.
   */
  lemma RowForAddPayment(c: Client, enrollments: seq<Enrollment>, payments: seq<Payment>, p: Payment)
    ensures var row := RowFor(c, enrollments, payments);
      var mine := exists e :: e in enrollments && e.clientId == c.id && e.id == p.enrollmentId;
      RowFor(c, enrollments, payments + [p])
        == PerformanceRow(c.name,
             row.onTime + (if mine && PaidOnTime(p) then 1 else 0),
             row.late + (if mine && PaidLate(p) then 1 else 0),
             row.totalPaid + (if mine && PaidWithDate(p) then 1 else 0))
  {
    var ps := ClientPayments(enrollments, payments, c.id);
    var ps' := ClientPayments(enrollments, payments + [p], c.id);
    assert RowFor(c, enrollments, payments) == Tally(c.name, ps);
    assert RowFor(c, enrollments, payments + [p]) == Tally(c.name, ps');
    ClientPaymentsSnoc(enrollments, payments, c.id, p);
    if exists e :: e in enrollments && e.clientId == c.id && e.id == p.enrollmentId {
      assert ps' == ps + [p];
      TallySnoc(c.name, ps, p);
    } else {
      assert ps' == ps;
    }
  }

  /** `getPaymentPerformance`: one row per Ativo client, in client order. */
  function Performance(clients: seq<Client>, enrollments: seq<Enrollment>, payments: seq<Payment>): (rows: seq<PerformanceRow>)
    ensures var active := Filter(clients, IsActive);
      |rows| == |active| && forall i :: 0 <= i < |rows| ==> rows[i] == RowFor(active[i], enrollments, payments)
  {
    var active := Filter(clients, IsActive);
    seq(|active|, i requires 0 <= i < |active| => RowFor(active[i], enrollments, payments))
  }

  /** The percentage of paid instalments paid on time; 0 for a client with none paid. */
  function Rate(row: PerformanceRow): (r: real)
    ensures row.totalPaid == 0 ==> r == 0.0
    ensures row.totalPaid > 0 ==> r * (row.totalPaid as real) == (row.onTime as real) * 100.0
    ensures row.totalPaid == row.onTime + row.late ==> 0.0 <= r <= 100.0
    ensures row.totalPaid == row.onTime + row.late && row.totalPaid > 0 ==> (r == 100.0 <==> row.late == 0)
  {
    if row.totalPaid > 0 then (row.onTime as real) / (row.totalPaid as real) * 100.0 else 0.0
  }

  /** The badge variant of the performance column. */
  datatype Tier = Default | Secondary | Destructive

  /** The badge of a rate: Default from 80 on, Secondary from 60 up to 80, Destructive below 60. */
  function TierOf(rate: real): (r: Tier)
    ensures r == Default <==> rate >= 80.0
    ensures r == Secondary <==> 60.0 <= rate < 80.0
    ensures r == Destructive <==> rate < 60.0
  {
    if rate >= 80.0 then Default else if rate >= 60.0 then Secondary else Destructive
  }

  /** Default ranks above Secondary, which ranks above Destructive. */
  function Rank(t: Tier): int {
    match t
    case Default => 2
    case Secondary => 1
    case Destructive => 0
  }

  /** A better rate never earns a worse badge; the thresholds are 80 and 60 inclusive. */
  lemma TierMonotone(a: real, b: real)
    requires a <= b
    ensures Rank(TierOf(a)) <= Rank(TierOf(b))
    ensures TierOf(80.0) == Default && TierOf(60.0) == Secondary
  {
  }
}

=== FILE: seqs.dfy ===
/**
 * The array operations the components are written with: `filter`, `find`,
 * `reduce` for sums, the stable `sort` of ES2019, and `slice(0, n)`.
 */
module Seqs {
  import opened Wrappers

  /** `s.filter(p)`: keeps exactly the elements satisfying p, each as often as it occurs. */
  function Filter<T(!new)>(s: seq<T>, p: T -> bool): (r: seq<T>)
    ensures |r| <= |s|
    ensures forall x :: x in r <==> x in s && p(x)
  {
    if s == [] then []
    else
      (if p(s[0]) then [s[0]] else []) + Filter(s[1..], p)
  }

  /** Each element passing p is kept as many times as it occurs; the others are all dropped. */
  lemma {:induction false} FilterCounts<T(!new)>(s: seq<T>, p: T -> bool, x: T)
    ensures multiset(Filter(s, p))[x] == if p(x) then multiset(s)[x] else 0
  {
    if s != [] {
      FilterCounts(s[1..], p, x);
      assert s == [s[0]] + s[1..];
    }
  }

  lemma FilterAppend<T(!new)>(a: seq<T>, b: seq<T>, p: T -> bool)
    ensures Filter(a + b, p) == Filter(a, p) + Filter(b, p)
  {
    if a == [] {
      assert a + b == b;
    } else {
      assert (a + b)[1..] == a[1..] + b;
      FilterAppend(a[1..], b, p);
    }
  }

  /** A filter keeps nothing exactly when no element passes. */
  lemma FilterEmptyIff<T(!new)>(s: seq<T>, p: T -> bool)
    ensures |Filter(s, p)| == 0 <==> forall x :: x in s ==> !p(x)
  {
    if |Filter(s, p)| > 0 {
      assert Filter(s, p)[0] in Filter(s, p);
    }
  }

  /** One more element is kept at the end exactly when it passes. */
  lemma FilterSnoc<T(!new)>(s: seq<T>, x: T, p: T -> bool)
    ensures Filter(s + [x], p) == Filter(s, p) + (if p(x) then [x] else [])
  {
    FilterAppend(s, [x], p);
    assert [x][1..] == [];
  }

  /** `s.reduce((sum, x) => sum + f(x), 0)`. */
  function Sum<T>(s: seq<T>, f: T -> int): int {
    if s == [] then 0 else f(s[0]) + Sum(s[1..], f)
  }

  lemma {:induction false} SumAppend<T>(a: seq<T>, b: seq<T>, f: T -> int)
    ensures Sum(a + b, f) == Sum(a, f) + Sum(b, f)
  {
    if a == [] {
      assert a + b == b;
    } else {
      assert (a + b)[1..] == a[1..] + b;
      SumAppend(a[1..], b, f);
    }
  }

  /** One more element adds its term. */
  lemma SumSnoc<T>(s: seq<T>, x: T, f: T -> int)
    ensures Sum(s + [x], f) == Sum(s, f) + f(x)
  {
    SumAppend(s, [x], f);
    assert [x][1..] == [];
  }

  /** One more element adds one to a filter's count exactly when it passes. */
  lemma FilterLengthSnoc<T(!new)>(s: seq<T>, x: T, p: T -> bool)
    ensures |Filter(s + [x], p)| == |Filter(s, p)| + (if p(x) then 1 else 0)
  {
    FilterSnoc(s, x, p);
  }

  /** One more element adds its term to a filtered sum exactly when it passes. */
  lemma SumFilterSnoc<T(!new)>(s: seq<T>, x: T, p: T -> bool, f: T -> int)
    ensures Sum(Filter(s + [x], p), f) == Sum(Filter(s, p), f) + (if p(x) then f(x) else 0)
  {
    FilterSnoc(s, x, p);
    if p(x) {
      SumSnoc(Filter(s, p), x, f);
    } else {
      assert Filter(s, p) + [] == Filter(s, p);
    }
  }

  lemma {:induction false} SumNonNegative<T>(s: seq<T>, f: T -> int)
    requires forall x :: x in s ==> f(x) >= 0
    ensures Sum(s, f) >= 0
  {
    if s != [] {
      SumNonNegative(s[1..], f);
    }
  }

  /** Splitting a list by a predicate and its negation splits its sum. */
  lemma {:induction false} SumFilterSplit<T(!new)>(s: seq<T>, p: T -> bool, q: T -> bool, f: T -> int)
    requires forall x :: x in s ==> (q(x) <==> !p(x))
    ensures Sum(Filter(s, p), f) + Sum(Filter(s, q), f) == Sum(s, f)
  {
    if s != [] {
      SumFilterSplit(s[1..], p, q, f);
      SumAppend(if p(s[0]) then [s[0]] else [], Filter(s[1..], p), f);
      SumAppend(if q(s[0]) then [s[0]] else [], Filter(s[1..], q), f);
    }
  }

  /** With non-negative terms, a stricter filter never sums to more. */
  lemma {:induction false} SumFilterMonotone<T(!new)>(s: seq<T>, p: T -> bool, q: T -> bool, f: T -> int)
    requires forall x :: x in s && p(x) ==> q(x)
    requires forall x :: x in s ==> f(x) >= 0
    ensures Sum(Filter(s, p), f) <= Sum(Filter(s, q), f)
  {
    if s != [] {
      SumFilterMonotone(s[1..], p, q, f);
      SumAppend(if p(s[0]) then [s[0]] else [], Filter(s[1..], p), f);
      SumAppend(if q(s[0]) then [s[0]] else [], Filter(s[1..], q), f);
    }
  }

  /** Sum of a filter, written as a sum of guarded terms. */
  lemma {:induction false} SumFilterGuarded<T(!new)>(s: seq<T>, p: T -> bool, f: T -> int)
    ensures Sum(Filter(s, p), f) == Sum(s, x => if p(x) then f(x) else 0)
  {
    if s != [] {
      SumFilterGuarded(s[1..], p, f);
      SumAppend(if p(s[0]) then [s[0]] else [], Filter(s[1..], p), f);
    }
  }

  /** Nothing passes, nothing is kept. */
  lemma {:induction false} FilterNone<T(!new)>(s: seq<T>, p: T -> bool)
    requires forall x :: x in s ==> !p(x)
    ensures Filter(s, p) == []
  {
    if s != [] {
      FilterNone(s[1..], p);
    }
  }

  /** Everything passes, everything is kept. */
  lemma {:induction false} FilterAll<T(!new)>(s: seq<T>, p: T -> bool)
    requires forall x :: x in s ==> p(x)
    ensures Filter(s, p) == s
  {
    if s != [] {
      FilterAll(s[1..], p);
      assert s[0] in s;
      assert s == [s[0]] + s[1..];
    }
  }

  /** Filtering looks only at the predicate's answers on the list's elements. */
  lemma {:induction false} FilterCongruent<T(!new)>(s: seq<T>, p: T -> bool, q: T -> bool)
    requires forall x :: x in s ==> p(x) == q(x)
    ensures Filter(s, p) == Filter(s, q)
  {
    if s != [] {
      FilterCongruent(s[1..], p, q);
    }
  }

  /** A stricter filter keeps no more elements. */
  lemma {:induction false} FilterLengthMonotone<T(!new)>(s: seq<T>, p: T -> bool, q: T -> bool)
    requires forall x :: x in s && p(x) ==> q(x)
    ensures |Filter(s, p)| <= |Filter(s, q)|
  {
    if s != [] {
      FilterLengthMonotone(s[1..], p, q);
    }
  }

  /** When no element passes both p and q, "p or q" keeps as many elements as p and q together. */
  lemma {:induction false} FilterLengthDisjoint<T(!new)>(s: seq<T>, p: T -> bool, q: T -> bool, pq: T -> bool)
    requires forall x :: x in s ==> !(p(x) && q(x)) && (pq(x) <==> p(x) || q(x))
    ensures |Filter(s, pq)| == |Filter(s, p)| + |Filter(s, q)|
  {
    if s != [] {
      FilterLengthDisjoint(s[1..], p, q, pq);
    }
  }

  /** An element passes p or fails it: the two filters share the list out between them. */
  lemma {:induction false} FilterLengthSplit<T(!new)>(s: seq<T>, p: T -> bool, q: T -> bool)
    requires forall x :: x in s ==> (q(x) <==> !p(x))
    ensures |Filter(s, p)| + |Filter(s, q)| == |s|
  {
    if s != [] {
      FilterLengthSplit(s[1..], p, q);
    }
  }

  /** When no element passes both p and q, filtering by "p or q" sums to the two sums added. */
  lemma {:induction false} SumFilterDisjoint<T(!new)>(s: seq<T>, p: T -> bool, q: T -> bool, pq: T -> bool, f: T -> int)
    requires forall x :: x in s ==> !(p(x) && q(x)) && (pq(x) <==> p(x) || q(x))
    ensures Sum(Filter(s, pq), f) == Sum(Filter(s, p), f) + Sum(Filter(s, q), f)
  {
    if s != [] {
      SumFilterDisjoint(s[1..], p, q, pq, f);
      SumAppend(if pq(s[0]) then [s[0]] else [], Filter(s[1..], pq), f);
      SumAppend(if p(s[0]) then [s[0]] else [], Filter(s[1..], p), f);
      SumAppend(if q(s[0]) then [s[0]] else [], Filter(s[1..], q), f);
    }
  }

  /** The position `s.findIndex(p)` reports: the first element satisfying p, if any. */
  function FindIndex<T>(s: seq<T>, p: T -> bool): (r: Option<nat>)
    ensures r.Some? ==> r.value < |s| && p(s[r.value])
    ensures r.Some? ==> forall j :: 0 <= j < r.value ==> !p(s[j])
    ensures r.None? <==> forall j :: 0 <= j < |s| ==> !p(s[j])
  {
    if s == [] then None
    else if p(s[0]) then Some(0)
    else match FindIndex(s[1..], p)
      case None => None
      case Some(i) => Some(i + 1)
  }

  /** `s.find(p)`: the first element satisfying p, or undefined. */
  function Find<T>(s: seq<T>, p: T -> bool): (r: Option<T>)
    ensures r.Some? <==> exists j :: 0 <= j < |s| && p(s[j])
    ensures r.Some? ==> r.value in s && p(r.value)
    ensures r.Some? ==> exists i :: 0 <= i < |s| && s[i] == r.value && forall j :: 0 <= j < i ==> !p(s[j])
  {
    match FindIndex(s, p)
    case None => None
    case Some(i) => Some(s[i])
  }

  /** `s.slice(0, n)`. */
  function Take<T>(s: seq<T>, n: nat): (r: seq<T>)
    ensures |r| == if n < |s| then n else |s|
    ensures r <= s
  {
    if n < |s| then s[..n] else s
  }

  // ---------------------------------------------------------------------
  // Stable sorting by an integer key
  // ---------------------------------------------------------------------

  predicate SortedBy<T>(s: seq<T>, key: T -> int) {
    forall i, j :: 0 <= i < j < |s| ==> key(s[i]) <= key(s[j])
  }

  /** Inserts x before the first element whose key is not smaller, so earlier elements stay ahead of equal ones. */
  function InsertSorted<T(!new)>(x: T, s: seq<T>, key: T -> int): (r: seq<T>)
    requires SortedBy(s, key)
    ensures |r| == |s| + 1
    ensures SortedBy(r, key)
    ensures multiset(r) == multiset(s) + multiset{x}
  {
    if s == [] || key(x) <= key(s[0]) then [x] + s
    else
      assert s == [s[0]] + s[1..];
      var t := InsertSorted(x, s[1..], key);
      HeadBelowInsertion(x, s, key, t);
      [s[0]] + t
  }

  /** Every element of s[1..] with x added has a key no smaller than the head's, when x's key is larger. */
  lemma HeadBelowInsertion<T>(x: T, s: seq<T>, key: T -> int, t: seq<T>)
    requires SortedBy(s, key) && s != [] && key(s[0]) < key(x)
    requires multiset(t) == multiset(s[1..]) + multiset{x}
    ensures forall i :: 0 <= i < |t| ==> key(s[0]) <= key(t[i])
  {
    forall i | 0 <= i < |t| ensures key(s[0]) <= key(t[i]) {
      assert t[i] in multiset(t);
      if t[i] != x {
        assert t[i] in multiset(s[1..]);
        var k :| 0 <= k < |s[1..]| && s[1..][k] == t[i];
        assert s[k + 1] == t[i];
      }
    }
  }

  /**
   * `[...s].sort((a, b) => key(a) - key(b))` with a stable sort: a
   * rearrangement of s in ascending key order.
   */
  function SortBy<T(!new)>(s: seq<T>, key: T -> int): (r: seq<T>)
    ensures SortedBy(r, key)
    ensures multiset(r) == multiset(s)
    ensures |r| == |s|
  {
    if s == [] then []
    else
      assert s == [s[0]] + s[1..];
      InsertSorted(s[0], SortBy(s[1..], key), key)
  }

  /** The test "has key k", for stating the order among equal keys. */
  function KeyIs<T>(key: T -> int, k: int): T -> bool {
    (x: T) => key(x) == k
  }

  /** Inserting x leaves the elements of every key in their order, with x at the head of its own key's run. */
  lemma {:induction false} InsertSortedStable<T(!new)>(x: T, t: seq<T>, key: T -> int, k: int)
    requires SortedBy(t, key)
    ensures Filter(InsertSorted(x, t, key), KeyIs(key, k))
         == (if key(x) == k then [x] else []) + Filter(t, KeyIs(key, k))
  {
    if t == [] || key(x) <= key(t[0]) {
      assert InsertSorted(x, t, key) == [x] + t;
      assert ([x] + t)[1..] == t;
    } else {
      var u := InsertSorted(x, t[1..], key);
      InsertSortedStable(x, t[1..], key, k);
      assert InsertSorted(x, t, key) == [t[0]] + u;
      assert t == [t[0]] + t[1..];
      FilterPastHead(x, t[0], u, t[1..], KeyIs(key, k));
    }
  }

  /** Moving x past a head that the filter cannot keep alongside it does not change what the filter keeps. */
  lemma FilterPastHead<T(!new)>(x: T, h: T, u: seq<T>, rest: seq<T>, p: T -> bool)
    requires !(p(x) && p(h))
    requires Filter(u, p) == (if p(x) then [x] else []) + Filter(rest, p)
    ensures Filter([h] + u, p) == (if p(x) then [x] else []) + Filter([h] + rest, p)
  {
    assert ([h] + u)[0] == h && ([h] + u)[1..] == u;
    assert ([h] + rest)[0] == h && ([h] + rest)[1..] == rest;
    if p(h) {
      assert Filter([h] + u, p) == [h] + Filter(u, p);
      assert Filter([h] + rest, p) == [h] + Filter(rest, p);
    } else {
      assert Filter([h] + u, p) == Filter(u, p);
      assert Filter([h] + rest, p) == Filter(rest, p);
    }
  }

  /** The sort is stable: among elements of equal key, the input order is kept. */
  lemma {:induction false} SortByStable<T(!new)>(s: seq<T>, key: T -> int, k: int)
    ensures Filter(SortBy(s, key), KeyIs(key, k)) == Filter(s, KeyIs(key, k))
  {
    if s != [] {
      SortByStable(s[1..], key, k);
      InsertSortedStable(s[0], SortBy(s[1..], key), key, k);
    }
  }

  /** Filtering a prefix gives a prefix of the filtered list. */
  lemma FilterOfPrefix<T(!new)>(a: seq<T>, b: seq<T>, p: T -> bool)
    requires a <= b
    ensures Filter(a, p) <= Filter(b, p)
  {
    assert b == a + b[|a|..];
    FilterAppend(a, b[|a|..], p);
  }

  /**
   * Of the elements q picks out, where q agrees with "has key k", the n
   * smallest keep their order and are the earliest stored.
   */
  lemma SmallestNTies<T(!new)>(s: seq<T>, key: T -> int, n: nat, k: int, q: T -> bool)
    requires forall x :: x in s ==> KeyIs(key, k)(x) == q(x)
    ensures Filter(SmallestN(s, key, n), q) <= Filter(s, q)
  {
    var r := SmallestN(s, key, n);
    assert Filter(r, KeyIs(key, k)) <= Filter(s, KeyIs(key, k));
    FilterCongruent(r, KeyIs(key, k), q);
    FilterCongruent(s, KeyIs(key, k), q);
  }

  /** The head of a filtered list is the first element that passes. */
  lemma {:induction false} FilterHeadIsFirst<T(!new)>(s: seq<T>, p: T -> bool)
    requires Filter(s, p) != []
    ensures exists i :: 0 <= i < |s| && s[i] == Filter(s, p)[0] && p(s[i]) && forall j :: 0 <= j < i ==> !p(s[j])
  {
    if p(s[0]) {
      assert s[0] == Filter(s, p)[0];
    } else {
      FilterHeadIsFirst(s[1..], p);
      var i :| 0 <= i < |s[1..]| && s[1..][i] == Filter(s[1..], p)[0] && p(s[1..][i])
               && forall j :: 0 <= j < i ==> !p(s[1..][j]);
      assert s[i + 1] == Filter(s, p)[0];
      assert forall j :: 0 <= j < i + 1 ==> !p(s[j]) by {
        forall j | 0 <= j < i + 1 ensures !p(s[j]) {
          if j > 0 {
            assert s[j] == s[1..][j - 1];
          }
        }
      }
    }
  }

  /** Both tests at once. */
  function Both<T>(p: T -> bool, q: T -> bool): T -> bool {
    (x: T) => p(x) && q(x)
  }

  /** Filtering twice is filtering by both tests. */
  lemma {:induction false} FilterFilter<T(!new)>(s: seq<T>, p: T -> bool, q: T -> bool)
    ensures Filter(Filter(s, p), q) == Filter(s, Both(p, q))
  {
    if s != [] {
      FilterFilter(s[1..], p, q);
      FilterAppend(if p(s[0]) then [s[0]] else [], Filter(s[1..], p), q);
    }
  }

  /** The first n of a sorted list hold the n smallest keys: any element left out is at least as large as each one kept. */
  lemma SortedPrefixHoldsSmallest<T>(s: seq<T>, key: T -> int, n: nat, y: T)
    requires SortedBy(s, key)
    requires y in s
    ensures y in Take(s, n) || forall z :: z in Take(s, n) ==> key(z) <= key(y)
  {
    var k :| 0 <= k < |s| && s[k] == y;
    if k < n {
      assert Take(s, n)[k] == y;
    } else {
      forall z | z in Take(s, n) ensures key(z) <= key(y) {
        var i :| 0 <= i < |Take(s, n)| && Take(s, n)[i] == z;
        assert s[i] == z;
      }
    }
  }

  /**
   * `[...s].sort(byKey).slice(0, n)`: the first n elements in key order.
   * They are the n smallest: anything left out has a key at least as
   * large as every key kept, and of the elements sharing a key the
   * earliest in s are the ones kept, in their order.
   */
  function SmallestN<T(!new)>(s: seq<T>, key: T -> int, n: nat): (r: seq<T>)
    ensures |r| == if n < |s| then n else |s|
    ensures SortedBy(r, key)
    ensures forall x :: x in r ==> x in s
    ensures multiset(r) <= multiset(s)
    ensures forall y :: y in s ==> y in r || forall z :: z in r ==> key(z) <= key(y)
    ensures forall k :: Filter(r, KeyIs(key, k)) <= Filter(s, KeyIs(key, k))
  {
    var sorted := SortBy(s, key);
    forall k ensures Filter(Take(sorted, n), KeyIs(key, k)) <= Filter(s, KeyIs(key, k)) {
      SortByStable(s, key, k);
      FilterOfPrefix(Take(sorted, n), sorted, KeyIs(key, k));
    }
    assert sorted == Take(sorted, n) + sorted[|Take(sorted, n)|..];
    forall x ensures x in sorted <==> x in s {
      assert x in sorted <==> x in multiset(sorted);
    }
    forall y | y in s ensures y in Take(sorted, n) || forall z :: z in Take(sorted, n) ==> key(z) <= key(y) {
      SortedPrefixHoldsSmallest(sorted, key, n, y);
    }
    Take(sorted, n)
  }

  /** The first element in key order is also the first stored of the elements sharing its key. */
  lemma SmallestOneFirstOfItsKey<T(!new)>(s: seq<T>, key: T -> int)
    ensures (var top := SmallestN(s, key, 1);
      top != [] ==> Filter(s, KeyIs(key, key(top[0]))) != [] && Filter(s, KeyIs(key, key(top[0])))[0] == top[0])
  {
    var top := SmallestN(s, key, 1);
    if top != [] {
      var k := key(top[0]);
      assert Filter(top, KeyIs(key, k)) == [top[0]] by {
        assert top[1..] == [];
      }
      assert Filter(top, KeyIs(key, k)) <= Filter(s, KeyIs(key, k));
    }
  }

  /** The head of a twice-filtered list is the first stored element passing both tests. */
  lemma FirstOfBoth<T(!new)>(s: seq<T>, p: T -> bool, q: T -> bool)
    requires Filter(Filter(s, p), q) != []
    ensures exists i :: 0 <= i < |s| && s[i] == Filter(Filter(s, p), q)[0]
              && forall j :: 0 <= j < i ==> !(p(s[j]) && q(s[j]))
  {
    FilterFilter(s, p, q);
    FilterHeadIsFirst(s, Both(p, q));
  }

  /**
   * Of the elements of s passing p, the first in key order is the first
   * stored among those of least key: every earlier element passing p has
   * a strictly larger key.
   */
  lemma SmallestOfFilterIsFirst<T(!new)>(s: seq<T>, p: T -> bool, key: T -> int)
    ensures (var top := SmallestN(Filter(s, p), key, 1);
      top != [] ==>
        exists i :: 0 <= i < |s| && s[i] == top[0]
                      && forall j :: 0 <= j < i && p(s[j]) ==> key(top[0]) < key(s[j]))
  {
    var act := Filter(s, p);
    var top := SmallestN(act, key, 1);
    SmallestOne(act, key);
    SmallestOneFirstOfItsKey(act, key);
    if top != [] {
      var k := key(top[0]);
      FirstOfBoth(s, p, KeyIs(key, k));
      var i :| 0 <= i < |s| && s[i] == Filter(act, KeyIs(key, k))[0]
               && forall j :: 0 <= j < i ==> !(p(s[j]) && KeyIs(key, k)(s[j]));
      forall j | 0 <= j < i && p(s[j]) ensures k < key(s[j]) {
        assert s[j] in act;
      }
    }
  }

  /** `sort(byKey)[0]`: the first element in key order is an element of least key, and exists exactly when s is non-empty. */
  lemma SmallestOne<T(!new)>(s: seq<T>, key: T -> int)
    ensures SmallestN(s, key, 1) == [] <==> s == []
    ensures (SmallestN(s, key, 1) != [] ==>
      SmallestN(s, key, 1)[0] in s && forall y :: y in s ==> key(SmallestN(s, key, 1)[0]) <= key(y))
  {
    var r := SmallestN(s, key, 1);
    if r != [] {
      assert r[0] in r;
      forall y | y in s ensures key(r[0]) <= key(y) {
        if y !in r {
          assert r[0] in r;
        }
      }
    }
  }
}

=== FILE: text.dfy ===
/**
 * The string operations the components rely on: `toLowerCase`, `includes`,
 * `startsWith`, `trim`, `replace(/\D/g, '')` and `split`.
 */
module Text {
  import opened Wrappers
  import opened Seqs

  /**
   * `toLowerCase` on one character, for the capitals of Basic Latin,
   * Latin-1, Latin Extended-A and basic Cyrillic: A-Z and À-Þ (but not ×)
   * move up by 32; in Latin Extended-A each capital is followed by its
   * small letter, except Ÿ, whose small letter ÿ sits in Latin-1;
   * Cyrillic А-Я move up by 32 and Ѐ-Џ by 80.
   */
  function LowerChar(c: char): char {
    var n := c as int;
    if (0x41 <= n <= 0x5A) || (0xC0 <= n <= 0xDE && n != 0xD7) then (n + 32) as char
    else if (0x100 <= n <= 0x12F || 0x132 <= n <= 0x137 || 0x14A <= n <= 0x177) && n % 2 == 0 then (n + 1) as char
    else if (0x139 <= n <= 0x148 || 0x179 <= n <= 0x17E) && n % 2 == 1 then (n + 1) as char
    else if n == 0x178 then 0xFF as char
    else if 0x410 <= n <= 0x42F then (n + 32) as char
    else if 0x400 <= n <= 0x40F then (n + 80) as char
    else c
  }

  /** Small letters and characters that are not letters are left as they are. */
  lemma LowerCharExamples()
    ensures LowerChar('A') == 'a' && LowerChar('Ç') == 'ç' && LowerChar('Ł') == 'ł'
    ensures LowerChar('Ÿ') == 'ÿ' && LowerChar('Ж') == 'ж' && LowerChar('Ё') == 'ё'
    ensures LowerChar('a') == 'a' && LowerChar('×') == '×' && LowerChar('7') == '7' && LowerChar('ł') == 'ł'
  {
  }

  function ToLower(s: string): (r: string)
    ensures |r| == |s|
    ensures forall i :: 0 <= i < |s| ==> r[i] == LowerChar(s[i])
  {
    seq(|s|, i requires 0 <= i < |s| => LowerChar(s[i]))
  }

  /** `s.includes(t)`. */
  function Includes(s: string, t: string): bool
    decreases |s|
  {
    t <= s || (s != [] && Includes(s[1..], t))
  }

  /** t appears in s starting at position i. */
  predicate OccursAt(s: string, t: string, i: int) {
    0 <= i && i + |t| <= |s| && s[i..i + |t|] == t
  }

  /** `includes` holds exactly when t occurs at some position of s. */
  lemma {:induction false} IncludesIffOccurs(s: string, t: string)
    ensures Includes(s, t) <==> exists i :: OccursAt(s, t, i)
  {
    if t <= s {
      assert OccursAt(s, t, 0);
    } else if s == [] {
    } else {
      IncludesIffOccurs(s[1..], t);
      forall i | 0 < i && OccursAt(s, t, i) ensures OccursAt(s[1..], t, i - 1) {
        assert s[1..][i - 1..i - 1 + |t|] == s[i..i + |t|];
      }
      if Includes(s[1..], t) {
        var i :| OccursAt(s[1..], t, i);
        assert s[i + 1..i + 1 + |t|] == s[1..][i..i + |t|];
        assert OccursAt(s, t, i + 1);
      }
    }
  }

  lemma IncludesEmpty(s: string)
    ensures Includes(s, "")
  {
  }

  /** `a.toLowerCase().includes(b.toLowerCase())`. */
  predicate IncludesIgnoringCase(s: string, t: string) {
    Includes(ToLower(s), ToLower(t))
  }

  /** `s.startsWith(p)`. */
  predicate StartsWith(s: string, p: string) {
    p <= s
  }

  /** The characters JavaScript's `trim` removes and its `\s` class matches. */
  predicate IsJsWhitespace(c: char) {
    var n := c as int;
    (0x09 <= n <= 0x0D) || n == 0x20 || n == 0xA0 || n == 0x1680
    || (0x2000 <= n <= 0x200A) || n == 0x2028 || n == 0x2029
    || n == 0x202F || n == 0x205F || n == 0x3000 || n == 0xFEFF
  }

  predicate AllWhitespace(s: string) {
    forall i :: 0 <= i < |s| ==> IsJsWhitespace(s[i])
  }

  /** How many white-space characters open s. */
  function LeadingSpace(s: string): (n: nat)
    ensures n <= |s|
    ensures AllWhitespace(s[..n])
    ensures n == |s| || !IsJsWhitespace(s[n])
  {
    if s != [] && IsJsWhitespace(s[0]) then
      var n := LeadingSpace(s[1..]);
      assert s[..n + 1] == [s[0]] + s[1..][..n];
      n + 1
    else 0
  }

  /** How many white-space characters close s. */
  function TrailingSpace(s: string): (n: nat)
    ensures n <= |s|
    ensures AllWhitespace(s[|s| - n..])
    ensures n == |s| || !IsJsWhitespace(s[|s| - n - 1])
  {
    if s != [] && IsJsWhitespace(s[|s| - 1]) then
      var n := TrailingSpace(s[..|s| - 1]);
      assert s[|s| - (n + 1)..] == s[..|s| - 1][|s| - 1 - n..] + [s[|s| - 1]];
      n + 1
    else 0
  }

  /** `s.trim()`: s without its opening and closing white space. */
  function Trim(s: string): string {
    var t := s[LeadingSpace(s)..];
    t[..|t| - TrailingSpace(t)]
  }

  /** `!s.trim()`: the text is empty or white space only. */
  lemma TrimEmptyIffAllWhitespace(s: string)
    ensures Trim(s) == "" <==> AllWhitespace(s)
  {
    var k := LeadingSpace(s);
    if AllWhitespace(s) {
      assert k == |s|;
    } else {
      var i :| 0 <= i < |s| && !IsJsWhitespace(s[i]);
      assert s[i] in s[k..];
    }
  }

  predicate IsDigit(c: char) {
    '0' <= c <= '9'
  }

  /** `s.replace(/\D/g, '')`: the decimal digits of s, in order. */
  function DigitsOnly(s: string): (r: string)
    ensures |r| <= |s|
    ensures forall i :: 0 <= i < |r| ==> IsDigit(r[i])
    ensures (forall i :: 0 <= i < |s| ==> IsDigit(s[i])) ==> r == s
  {
    if s == [] then []
    else if IsDigit(s[0]) then [s[0]] + DigitsOnly(s[1..])
    else DigitsOnly(s[1..])
  }

  /** Removing every non-digit keeps exactly the digits, each where it was: a filter by IsDigit. */
  lemma {:induction false} DigitsOnlyIsFilter(s: string)
    ensures DigitsOnly(s) == Filter(s, IsDigit)
  {
    if s != [] {
      DigitsOnlyIsFilter(s[1..]);
    }
  }

  lemma {:induction false} DigitsOnlyAppend(a: string, b: string)
    ensures DigitsOnly(a + b) == DigitsOnly(a) + DigitsOnly(b)
  {
    if a == [] {
      assert a + b == b;
    } else {
      assert (a + b)[1..] == a[1..] + b;
      DigitsOnlyAppend(a[1..], b);
    }
  }

  /** `s.split(sep)`: the pieces between separators; always at least one piece. */
  function Split(s: string, sep: char): (r: seq<string>)
    ensures |r| >= 1
    ensures forall i, j :: 0 <= i < |r| && 0 <= j < |r[i]| ==> r[i][j] != sep
  {
    if s == [] then [""]
    else
      var rest := Split(s[1..], sep);
      if s[0] == sep then [""] + rest
      else [[s[0]] + rest[0]] + rest[1..]
  }

  /** `parts.join(sep)`. */
  function Join(parts: seq<string>, sep: char): string
    requires |parts| >= 1
  {
    if |parts| == 1 then parts[0] else parts[0] + [sep] + Join(parts[1..], sep)
  }

  /** Splitting loses nothing: joining the pieces back gives the original text. */
  lemma {:induction false} JoinSplit(s: string, sep: char)
    ensures Join(Split(s, sep), sep) == s
  {
    if s != [] {
      var rest := Split(s[1..], sep);
      JoinSplit(s[1..], sep);
      if s[0] != sep {
        var r := Split(s, sep);
        assert r[1..] == rest[1..];
        if |rest| == 1 {
          assert Join(r, sep) == [s[0]] + rest[0];
        } else {
          assert Join(r, sep) == [s[0]] + rest[0] + [sep] + Join(rest[1..], sep);
        }
      } else {
        assert Split(s, sep)[1..] == rest;
      }
    }
  }

  /** Text without the separator is a single piece. */
  lemma {:induction false} SplitWithoutSeparator(a: string, sep: char)
    requires sep !in a
    ensures Split(a, sep) == [a]
  {
    if a != [] {
      SplitWithoutSeparator(a[1..], sep);
      assert a[0] in a;
      assert a == [a[0]] + a[1..];
    }
  }

  /** The text before the first separator is the first piece; the rest splits on its own. */
  lemma {:induction false} SplitAtSeparator(a: string, b: string, sep: char)
    requires sep !in a
    ensures Split(a + [sep] + b, sep) == [a] + Split(b, sep)
  {
    if a == [] {
      assert a + [sep] + b == [sep] + b;
      assert ([sep] + b)[1..] == b;
    } else {
      SplitAtSeparator(a[1..], b, sep);
      assert (a + [sep] + b)[1..] == a[1..] + [sep] + b;
      assert a[0] in a;
      assert a == [a[0]] + a[1..];
    }
  }
  /** How many decimal digits open s. */
  function DigitRun(s: string): (n: nat)
    ensures n <= |s|
    ensures forall i :: 0 <= i < n ==> IsDigit(s[i])
    ensures n == |s| || !IsDigit(s[n])
  {
    if s != [] && IsDigit(s[0]) then DigitRun(s[1..]) + 1 else 0
  }

  predicate AllDigits(s: string) {
    forall i :: 0 <= i < |s| ==> IsDigit(s[i])
  }

  /** The number a run of decimal digits denotes, most significant first. */
  function DecimalValue(s: string): (v: nat)
    requires AllDigits(s)
  {
    if s == [] then 0 else DecimalValue(s[..|s| - 1]) * 10 + (s[|s| - 1] as int - '0' as int)
  }

  /** The decimal numeral of n, without leading zeros. */
  function Decimal(n: nat): (s: string)
    ensures s != [] && AllDigits(s)
    ensures n > 0 ==> s[0] != '0'
  {
    var d := [('0' as int + n % 10) as char];
    if n < 10 then d else Decimal(n / 10) + d
  }

  lemma {:induction false} DecimalValueOfDecimal(n: nat)
    ensures DecimalValue(Decimal(n)) == n
  {
    if n >= 10 {
      DecimalValueOfDecimal(n / 10);
      var s := Decimal(n);
      assert s[..|s| - 1] == Decimal(n / 10);
    }
  }

  predicate IsHexDigit(c: char) {
    IsDigit(c) || 'a' <= c <= 'f' || 'A' <= c <= 'F'
  }

  function HexDigitValue(c: char): (v: nat)
    requires IsHexDigit(c)
    ensures v < 16
  {
    if IsDigit(c) then c as int - '0' as int
    else if 'a' <= c <= 'f' then c as int - 'a' as int + 10
    else c as int - 'A' as int + 10
  }

  /** How many hexadecimal digits open s. */
  function HexRun(s: string): (n: nat)
    ensures n <= |s|
    ensures forall i :: 0 <= i < n ==> IsHexDigit(s[i])
    ensures n == |s| || !IsHexDigit(s[n])
  {
    if s != [] && IsHexDigit(s[0]) then HexRun(s[1..]) + 1 else 0
  }

  /** The number a run of hexadecimal digits denotes, most significant first. */
  function HexValue(s: string): (v: nat)
    requires forall i :: 0 <= i < |s| ==> IsHexDigit(s[i])
  {
    if s == [] then 0 else HexValue(s[..|s| - 1]) * 16 + HexDigitValue(s[|s| - 1])
  }

  /** Without a radix, `parseInt` reads a text opening with "0x" or "0X" in base 16. */
  predicate HexPrefixed(u: string) {
    |u| >= 2 && u[0] == '0' && (u[1] == 'x' || u[1] == 'X')
  }

  /**
   * `parseInt(s)` without a radix: leading white space is skipped and an
   * optional sign is read; after a "0x" or "0X" prefix the longest run of
   * hexadecimal digits is read, otherwise the longest run of decimal
   * digits. Without a digit the result is NaN (None). Whatever follows
   * the digits is ignored.
   */
  function ParseInt(s: string): Option<int> {
    var t := s[LeadingSpace(s)..];
    var negative := t != [] && t[0] == '-';
    var u := if t != [] && (t[0] == '-' || t[0] == '+') then t[1..] else t;
    if HexPrefixed(u) then
      var h := u[2..];
      var k := HexRun(h);
      if k == 0 then None
      else
        var v: int := HexValue(h[..k]);
        Some(if negative then -v else v)
    else
      var k := DigitRun(u);
      if k == 0 then None
      else
        var v: int := DecimalValue(u[..k]);
        Some(if negative then -v else v)
  }

  /** A hexadecimal prefix switches the base; the prefix alone, or "0x" followed by a non-digit, is NaN. */
  lemma ParseIntReadsHex()
    ensures ParseInt("0x1A") == Some(26)
    ensures ParseInt("-0Xff") == Some(-255)
    ensures ParseInt("0x") == None
    ensures ParseInt("0xg1") == None
  {
    HexValueExamples();
    assert LeadingSpace("0x1A") == 0 && "0x1A"[0..] == "0x1A" && "0x1A"[2..] == "1A";
    assert HexRun("1A") == 2 && "1A"[..2] == "1A";
    assert LeadingSpace("-0Xff") == 0 && "-0Xff"[0..] == "-0Xff" && "-0Xff"[1..] == "0Xff" && "0Xff"[2..] == "ff";
    assert HexRun("ff") == 2 && "ff"[..2] == "ff";
    assert LeadingSpace("0x") == 0 && "0x"[0..] == "0x" && "0x"[2..] == "";
    assert LeadingSpace("0xg1") == 0 && "0xg1"[0..] == "0xg1" && "0xg1"[2..] == "g1";
  }

  lemma HexValueExamples()
    ensures HexValue("1A") == 26 && HexValue("ff") == 255
  {
    assert "1A"[..1] == "1" && "1"[..0] == "";
    assert "ff"[..1] == "f" && "f"[..0] == "";
  }

  /** A run of digits followed by a non-digit reads as the run's value. */
  lemma ReadsDigits(s: string, tail: string)
    requires s != [] && AllDigits(s)
    requires tail == [] || !IsDigit(tail[0])
    requires !HexPrefixed(s + tail)
    ensures ParseInt(s + tail) == Some(DecimalValue(s))
  {
    assert LeadingSpace(s + tail) == 0 by {
      assert (s + tail)[0] == s[0];
      assert IsDigit(s[0]);
    }
    DigitRunOfDigits(s, tail);
    assert (s + tail)[..|s|] == s;
  }

  /** After a leading minus sign the digits that follow are read and negated. */
  lemma ParseIntAfterMinus(u: string)
    requires !HexPrefixed(u)
    ensures ParseInt("-" + u) == if DigitRun(u) == 0 then None else Some(-(DecimalValue(u[..DigitRun(u)]) as int))
  {
    var m := "-" + u;
    assert m[0] == '-' && !IsJsWhitespace(m[0]);
    assert LeadingSpace(m) == 0;
    assert m[0..] == m && m[1..] == u;
  }

  /** The same run after a minus sign reads as the negated value. */
  lemma ReadsNegatedDigits(s: string, tail: string)
    requires s != [] && AllDigits(s)
    requires tail == [] || !IsDigit(tail[0])
    requires !HexPrefixed(s + tail)
    ensures ParseInt("-" + s + tail) == Some(-(DecimalValue(s) as int))
  {
    DigitRunOfDigits(s, tail);
    assert (s + tail)[..|s|] == s;
    assert "-" + s + tail == "-" + (s + tail);
    NegatedRun(s + tail, |s|, s);
  }

  /** The negated reading once the digit run after the sign is known. */
  lemma NegatedRun(u: string, k: nat, s: string)
    requires AllDigits(s) && k == |s| && DigitRun(u) == k && k > 0 && u[..k] == s
    requires !HexPrefixed(u)
    ensures ParseInt("-" + u) == Some(-(DecimalValue(s) as int))
  {
    ParseIntAfterMinus(u);
  }

  /**
   * A numeral, possibly negated, reads back as its number, and reading
   * stops at the first non-digit; only "0" followed by an x would be read
   * as a hexadecimal prefix instead.
   */
  lemma ParseIntOfDecimal(n: nat, tail: string)
    requires tail == [] || !IsDigit(tail[0])
    requires n == 0 ==> tail == [] || (tail[0] != 'x' && tail[0] != 'X')
    ensures ParseInt(Decimal(n) + tail) == Some(n)
    ensures ParseInt("-" + Decimal(n) + tail) == Some(-(n as int))
  {
    NumeralReads(n, tail);
    NegatedNumeralReads(n, tail);
  }

  lemma NumeralReads(n: nat, tail: string)
    requires tail == [] || !IsDigit(tail[0])
    requires n == 0 ==> tail == [] || (tail[0] != 'x' && tail[0] != 'X')
    ensures ParseInt(Decimal(n) + tail) == Some(n)
  {
    DecimalValueOfDecimal(n);
    NumeralNotHexPrefixed(n, tail);
    ReadsDigits(Decimal(n), tail);
  }

  lemma NegatedNumeralReads(n: nat, tail: string)
    requires tail == [] || !IsDigit(tail[0])
    requires n == 0 ==> tail == [] || (tail[0] != 'x' && tail[0] != 'X')
    ensures ParseInt("-" + Decimal(n) + tail) == Some(-(n as int))
  {
    DecimalValueOfDecimal(n);
    NumeralNotHexPrefixed(n, tail);
    ReadsNegatedDigits(Decimal(n), tail);
  }

  /** Only the numeral 0 followed by an x or an X reads as a hexadecimal prefix. */
  lemma NumeralNotHexPrefixed(n: nat, tail: string)
    requires n == 0 ==> tail == [] || (tail[0] != 'x' && tail[0] != 'X')
    ensures !HexPrefixed(Decimal(n) + tail)
  {
    if n == 0 {
      assert Decimal(n) == "0";
    } else {
      assert (Decimal(n) + tail)[0] == Decimal(n)[0];
    }
  }

  lemma {:induction false} DigitRunOfDigits(s: string, tail: string)
    requires AllDigits(s)
    requires tail == [] || !IsDigit(tail[0])
    ensures DigitRun(s + tail) == |s|
  {
    if s != [] {
      assert (s + tail)[1..] == s[1..] + tail;
      DigitRunOfDigits(s[1..], tail);
    } else {
      assert s + tail == tail;
    }
  }

  /** `String(n)` / a template literal for an integer: the numeral, with '-' when negative. */
  function IntText(n: int): (s: string)
    ensures s != []
  {
    if n < 0 then "-" + Decimal(-n) else Decimal(n)
  }

  /** `parseInt(String(n)) === n`. */
  lemma ParseIntOfIntText(n: int)
    ensures ParseInt(IntText(n)) == Some(n)
  {
    if n < 0 {
      var m: nat := -n;
      NumeralReadsBack(m);
      assert IntText(n) == "-" + Decimal(m);
    } else {
      NumeralReadsBack(n);
    }
  }

  /** A numeral with nothing after it reads back as its number, with or without a minus sign. */
  lemma NumeralReadsBack(n: nat)
    ensures ParseInt(Decimal(n)) == Some(n)
    ensures ParseInt("-" + Decimal(n)) == Some(-(n as int))
  {
    ParseIntOfDecimal(n, "");
    assert Decimal(n) + "" == Decimal(n);
    assert "-" + Decimal(n) + "" == "-" + Decimal(n);
  }
}

=== FILE: types.dfy ===
/**
 * The records the admin UI keeps: clients (alunos), enrollments (matrículas),
 * monthly payments (mensalidades), attendance records and notifications.
 * Calendar fields are civil dates; money is an integer number of centavos.
 */
module Types {
  import opened Wrappers
  import opened Dates

  datatype ClientStatus = Ativo | Inativo

  /**
   * A client. `birthDate` is None when the date is missing or empty; the
   * optional texts keep the difference between missing and "" because the
   * screens test them for truthiness.
   */
  datatype Client = Client(
    id: int,
    name: string,
    phone: string,
    email: string,
    status: ClientStatus,
    photo: string,
    goals: string,
    gender: string,
    birthDate: Option<ValidDate>,
    medicalNotes: Option<string>,
    certificate: Option<string>,
    userId: Option<string>)

  datatype TrainingMode = Online | Presencial

  /** How often an enrollment is billed; any other stored text falls to the default branch. */
  datatype Recurrence = Mensal | Trimestral | Semestral | OtherRecurrence(raw: string)

  datatype EnrollmentStatus = Ativa | Expirada | Cancelada | OtherStatus(raw: string)

  datatype Enrollment = Enrollment(
    id: int,
    clientId: int,
    start: ValidDate,
    mode: TrainingMode,
    weeklyFrequency: int,
    durationMonths: int,
    fee: int,
    recurrence: Recurrence,
    end: ValidDate,
    status: EnrollmentStatus,
    changeNote: Option<string>)

  /** What the enrollment form submits: the client, the start date and the commercial terms. */
  datatype EnrollmentRequest = EnrollmentRequest(
    clientId: int,
    start: ValidDate,
    mode: TrainingMode,
    weeklyFrequency: int,
    durationMonths: int,
    fee: int,
    recurrence: Recurrence)

  /** A request completed with its end date and status, ready to be stored (the database assigns the id). */
  datatype NewEnrollment = NewEnrollment(request: EnrollmentRequest, end: ValidDate, status: EnrollmentStatus)

  datatype PaymentStatus = Pendente | Pago | Atrasado

  datatype Payment = Payment(
    id: int,
    enrollmentId: int,
    amount: int,
    due: ValidDate,
    paidOn: Option<ValidDate>,
    status: PaymentStatus)

  datatype PresenceStatus = Presente | Ausente

  datatype Presence = Presence(
    id: Option<int>,
    clientId: int,
    date: ValidDate,
    status: PresenceStatus,
    note: Option<string>)

  datatype NotificationKind = Overdue | Expiring | MedicalCertificate | OtherKind(raw: string)

  datatype Notification = Notification(
    id: int,
    kind: NotificationKind,
    message: string,
    clientId: Option<int>,
    enrollmentId: Option<int>,
    date: string,
    read: bool)

  /** A text field in the sense of JavaScript truthiness: present and not "". */
  predicate Filled(s: Option<string>) {
    s.Some? && s.value != ""
  }
}

=== FILE: uploads.dfy ===
/**
 * File checks and the registration tab's buffer: the medical-certificate
 * upload and removal, the tab's edit and cancel, its date display, and
 * the photo uploader's checks and removal.
 */
module Uploads {
  import opened Wrappers
  import opened Dates
  import opened Types
  import opened Text
  import opened Medical
  import ClientModal
  import ClientForm

  /** What the browser reports about a chosen file. */
  datatype FileInfo = FileInfo(name: string, mime: string, size: nat)

  datatype UploadError = NoFile | WrongType | TooLarge

  const Mebibyte: nat := 1024 * 1024

  /** The largest certificate accepted: 10 MiB. */
  const CertificateLimit: nat := 10 * Mebibyte

  /** The largest photo accepted: 5 MiB. */
  const PhotoLimit: nat := 5 * Mebibyte

  /** The certificate types accepted: PDF, JPEG (under both names) and PNG. */
  predicate CertificateType(mime: string) {
    mime in ["application/pdf", "image/jpeg", "image/jpg", "image/png"]
  }

  /**
   * `handleMedicalCertificateUpload`: without a file nothing happens; the
   * type is checked before the size; an accepted file's name becomes the
   * buffered client's certificate and nothing else changes.
   */
  function UploadCertificate(buffer: Client, file: Option<FileInfo>): (r: Result<Client, UploadError>)
    ensures r == Failure(NoFile) <==> file.None?
    ensures r == Failure(WrongType) <==> file.Some? && !CertificateType(file.value.mime)
    ensures (r == Failure(TooLarge) <==>
      file.Some? && CertificateType(file.value.mime) && file.value.size > CertificateLimit)
    ensures r.Success? ==> r.value == buffer.(certificate := Some(file.value.name))
  {
    match file
    case None => Failure(NoFile)
    case Some(f) =>
      if !CertificateType(f.mime) then Failure(WrongType)
      else if f.size > CertificateLimit then Failure(TooLarge)
      else Success(buffer.(certificate := Some(f.name)))
  }

  /** The limit is inclusive: a file of exactly 10 MiB goes through, one byte more does not. */
  lemma CertificateLimitInclusive(buffer: Client, name: string)
    ensures UploadCertificate(buffer, Some(FileInfo(name, "application/pdf", 10_485_760))).Success?
    ensures UploadCertificate(buffer, Some(FileInfo(name, "application/pdf", 10_485_761))) == Failure(TooLarge)
  {
  }

  /** `handleRemoveMedicalCertificate`: the certificate becomes "", which counts as missing. */
  function RemoveCertificate(buffer: Client): (r: Client)
    ensures CertificateMissing(r)
    ensures r.(certificate := buffer.certificate) == buffer
  {
    buffer.(certificate := Some(""))
  }

  /**
   * A client over forty is flagged after the certificate is removed and not
   * after a certificate with a non-empty name is accepted.
   */
  lemma CertificateDecidesFlag(buffer: Client, file: FileInfo, today: ValidDate)
    requires buffer.birthDate.Some? && Age(buffer.birthDate.value, today) > 40
    requires file.name != ""
    ensures NeedsCertificate(RemoveCertificate(buffer), today)
    ensures UploadCertificate(buffer, Some(file)).Success? ==> !NeedsCertificate(UploadCertificate(buffer, Some(file)).value, today)
  {
    if UploadCertificate(buffer, Some(file)).Success? {
      CertificateClearsFlag(buffer, today, file.name);
    }
  }

  // ---------------------------------------------------------------------
  // The registration tab's buffer
  // ---------------------------------------------------------------------

  /** Edit mode and the buffer, which starts as the client and is never empty. */
  datatype TabState = TabState(editing: bool, edited: Client)

  function Opened(client: Client): TabState {
    TabState(false, client)
  }

  /** `handleEdit`: a fresh copy of the client. */
  function Edit(client: Client): (r: TabState)
    ensures r.editing && r.edited == client
  {
    TabState(true, client)
  }

  /** `handleInputChange`: always applied, the buffer always exists here. */
  function Change(st: TabState, f: ClientModal.ClientEdit): (r: TabState)
    ensures r.editing == st.editing
    ensures r.edited == ClientModal.ApplyEdit(st.edited, f)
  {
    st.(edited := ClientModal.ApplyEdit(st.edited, f))
  }

  /** `handleCancel`: the buffer goes back to the client rather than being emptied. */
  function Cancel(st: TabState, client: Client): (r: TabState)
    ensures !r.editing && r.edited == client
  {
    TabState(false, client)
  }

  /** `handleSave`: forwards the buffer and leaves edit mode. */
  function Save(st: TabState): (r: (Client, TabState))
    ensures r.0 == st.edited
    ensures !r.1.editing && r.1.edited == st.edited
  {
    (st.edited, st.(editing := false))
  }

  /**
   * Unlike the client dialog, cancelling here does not drop the buffer: a
   * save after a cancel forwards the client exactly as it was shown.
   */
  lemma SaveAfterCancelForwardsClient(st: TabState, client: Client)
    ensures Save(Cancel(st, client)).0 == client
    ensures ClientModal.Save(ClientModal.Cancel(ClientModal.ModalState(st.editing, Some(st.edited)))).None?
  {
  }

  /** An accepted upload followed by a removal leaves the buffer with an empty certificate and otherwise unchanged. */
  lemma UploadThenRemove(buffer: Client, file: FileInfo)
    requires UploadCertificate(buffer, Some(file)).Success?
    ensures RemoveCertificate(UploadCertificate(buffer, Some(file)).value) == buffer.(certificate := Some(""))
  {
  }

  /**
   * The tab's `formatDate`: "" for an empty text, otherwise the text
   * rendered as a local date (the rendering is a parameter).
   */
  function FormatDate(text: string, render: string -> string): (r: string)
    ensures text == "" ==> r == ""
    ensures text != "" ==> r == render(text)
  {
    if text == "" then "" else render(text)
  }

  // ---------------------------------------------------------------------
  // Photo uploader
  // ---------------------------------------------------------------------

  /**
   * `handleFileSelect`'s checks: any `image/` type, at most 5 MiB, type
   * first. An accepted file is then read as a data URL.
   */
  function CheckPhoto(file: Option<FileInfo>): (r: Result<FileInfo, UploadError>)
    ensures r == Failure(NoFile) <==> file.None?
    ensures r == Failure(WrongType) <==> file.Some? && !StartsWith(file.value.mime, "image/")
    ensures (r == Failure(TooLarge) <==>
      file.Some? && StartsWith(file.value.mime, "image/") && file.value.size > PhotoLimit)
    ensures r.Success? ==> r.value == file.value
  {
    match file
    case None => Failure(NoFile)
    case Some(f) =>
      if !StartsWith(f.mime, "image/") then Failure(WrongType)
      else if f.size > PhotoLimit then Failure(TooLarge)
      else Success(f)
  }

  /** The photo after choosing a file: the data URL the reader produced if the file passed, else unchanged. */
  function SelectPhoto(current: string, file: Option<FileInfo>, dataUrl: string): (r: string)
    ensures CheckPhoto(file).Success? ==> r == dataUrl
    ensures CheckPhoto(file).Failure? ==> r == current
  {
    if CheckPhoto(file).Success? then dataUrl else current
  }

  /** `handleRemoveImage`: back to the placeholder. */
  function RemovePhoto(current: string): (r: string)
    ensures r == ClientForm.Placeholder
  {
    ClientForm.Placeholder
  }

  /** The remove button is shown exactly when the photo is not the placeholder. */
  predicate RemoveVisible(current: string) {
    current != ClientForm.Placeholder
  }

  /** Removing hides the remove button; any other accepted photo shows it. */
  lemma RemoveHidesButton(current: string, file: Option<FileInfo>, dataUrl: string)
    ensures !RemoveVisible(RemovePhoto(current))
    ensures (CheckPhoto(file).Success? && dataUrl != ClientForm.Placeholder
             ==> RemoveVisible(SelectPhoto(current, file, dataUrl)))
  {
  }

  /**
   * The two checks differ: a GIF is a valid photo but not a valid
   * certificate, and a PDF is the other way round.
   */
  lemma PhotoAndCertificateTypesDiffer(buffer: Client)
    ensures CheckPhoto(Some(FileInfo("a.gif", "image/gif", 1))).Success?
    ensures UploadCertificate(buffer, Some(FileInfo("a.gif", "image/gif", 1))) == Failure(WrongType)
    ensures CheckPhoto(Some(FileInfo("a.pdf", "application/pdf", 1))) == Failure(WrongType)
    ensures UploadCertificate(buffer, Some(FileInfo("a.pdf", "application/pdf", 1))).Success?
  {
    assert "image/" <= "image/gif";
    assert !("image/" <= "application/pdf") by {
      assert "application/pdf"[0] != "image/"[0];
    }
    assert "image/gif" != "application/pdf" && "image/gif" != "image/jpeg"
        && "image/gif" != "image/jpg" && "image/gif" != "image/png" by {
      assert "image/gif"[6] != "image/jpeg"[6];
      assert "image/gif"[6] != "image/jpg"[6];
      assert "image/gif"[6] != "image/png"[6];
    }
  }
}

=== FILE: wrappers.dfy ===
/** Optional values and validation outcomes shared by every component model. */
module Wrappers {

  /** A value that may be absent: `undefined`, `null`, or a lookup that found nothing. */
  datatype Option<+T> = None | Some(value: T) {

    /** The carried value, or `default` when absent. */
    function GetOr(default: T): T {
      match this
      case Some(v) => v
      case None => default
    }
  }

  /** The outcome of a form submission or a guarded action: the accepted value, or why it was refused. */
  datatype Result<+R, +E> = Success(value: R) | Failure(error: E)
}
